=== FILE: README.md ===
# nano-banana core, in Dafny

This project models the sequential core of nano-banana, an image-generation
web application with a React client and an Express server.

On the client it models the three batch hooks:
- the storybook hook, which illustrates every page that has text, one at a time;
- the brand-asset hook, which makes one asset per selected type;
- the recipe hook, which merges step images into a recipe skeleton.

It also models the asset-type toggle and the guard on the generate button in
`AssetGenerator`.

On the server it models:
- the `geminiService` adapter: reply decoding, error mapping and input dispatch;
- the validation and parameter mapping of the image-generation routes;
- the daily chat quota (`limitService` and `limitChecker`);
- the upload path and URL helpers;
- the request parsing of the chat controller.

Every renderer, SDK or database answer is an input. A batch receives its
renderer answers as a function from call number to `Outcome`: `Rendered(url)`
or `Failed(text)`, where the text is the thrown error's `toString()`. An SDK
call receives an `Sdk` reply: `Answered(reply)` or `Threw(fault)`. A database
read receives `Got(value)` or `Threw`. With that done, each loop is a
deterministic state machine and every other operation is a pure function.

| file | module | what it holds |
|---|---|---|
| `common.dfy` | `Common` | `Option`, `Outcome`, JavaScript truthiness, `includes`, `toLowerCase`, `split`/`join`, `trim`, decimal rendering |
| `storybook.dfy` | `Storybook` | page list operations and the `generateAllIllustrations` loop |
| `assets.dfy` | `AssetBatch` | the `generateAssets` loop |
| `selection.dfy` | `AssetSelection` | `handleToggleAssetType`, `handleGenerate`, `isGenerateDisabled`, `ASSET_TYPES` |
| `recipe.dfy` | `RecipeBatch` | the `onImageGenerated` merge and `generateRecipe` over a callback trace |
| `renderer.dfy` | `Renderer` | the server adapter `geminiService` |
| `routes.dfy` | `Routes` | the `imageGeneration` routes |
| `quota.dfy` | `Quota` | `limitService` and `limitChecker` |
| `upload.dfy` | `Upload` | stored paths, `fileFilter`, `getFileUrl`, `generateURL(s)` |
| `chat.dfy` | `ChatRequests` | tags, `isPublic`, `parseInt`, pagination, queries, `updateChat` |

## Model

| member | source | states |
|---|---|---|
| Storybook.AddPage | hooks/useStorybookCreator.ts:14-16 | the list grows by one blank, non-loading page with the fresh id at the end; the earlier pages are unchanged |
| Storybook.DeletePage | hooks/useStorybookCreator.ts:18-20 | a page is in the result exactly when it was in the list and has a different id; the list is unchanged when no page has the id |
| Storybook.DeletePageAppend | hooks/useStorybookCreator.ts:18-20 | `filter` keeps the survivors in their order: deleting from two joined lists is joining the two deletions |
| Storybook.UpdatePageText | hooks/useStorybookCreator.ts:22-24 | the pages with the id get the new text and nothing else changes; every other page is identical; the length is kept |
| Storybook.AddPageKeepsSettled | hooks/useStorybookCreator.ts:14-16 | adding under a fresh id keeps ids distinct and no page loading |
| Storybook.DeleteUndoesAdd | hooks/useStorybookCreator.ts:14-20 | deleting the page just added gives back the original list |
| Storybook.DeletePageKeepsSettled | hooks/useStorybookCreator.ts:18-20 | deleting keeps ids distinct and no page loading, and removes at most one page from a list with distinct ids |
| Storybook.UpdatePageTextKeepsSettled | hooks/useStorybookCreator.ts:22-24 | editing text keeps ids distinct and no page loading |
| Storybook.TextIndices | hooks/useStorybookCreator.ts:32 | the task list is exactly the positions of the pages with non-empty text, strictly increasing, so in page order |
| Storybook.TouchOnlyTarget | hooks/useStorybookCreator.ts:50-62 | the `map` over the target's id at lines 50, 58 and 62: with distinct ids, mapping over the target's id changes the target page and no other |
| Storybook.MarkStep | hooks/useStorybookCreator.ts:50-51 | before an attempt, the target page and no other is loading |
| Storybook.SettleStep | hooks/useStorybookCreator.ts:58-62 | after an answer: a success puts the image on its page; a failure leaves the page exactly as it was, image included; loading is cleared; all other pages are unchanged |
| Storybook.AttemptKeepsTrace | hooks/useStorybookCreator.ts:45-66 | each attempt adds one request for its page text and one progress value `i+1`; a failure records "Failed on page i+1: ..." and stops the loop |
| Storybook.AttemptKeepsPublished | hooks/useStorybookCreator.ts:50-63 | each attempt publishes two page lists: one where only the target is loading, one where nothing is loading |
| Storybook.AttemptKeepsInvariant | hooks/useStorybookCreator.ts:45-66 | one iteration preserves the whole loop invariant |
| Storybook.FinishEstablishes | hooks/useStorybookCreator.ts:45-69 | a finished loop satisfies the four run properties listed under `GenerateAllIllustrations` |
| Storybook.IllustrateTasks | hooks/useStorybookCreator.ts:38-69 | the loop after the guards establishes the four run properties |
| Storybook.GenerateAllIllustrations | hooks/useStorybookCreator.ts:26-70 | see the note below this table |
| AssetBatch.GenerateAssets | hooks/useAssetGenerator.ts:14-51 | see the note below this table |
| AssetSelection.Without | components/AssetGenerator.tsx:79 | `filter(t => t !== type)`: an element is kept exactly when it differs from the type; a list without the type is returned as is |
| AssetSelection.WithoutAppend | components/AssetGenerator.tsx:79 | filtering distributes over concatenation, so the relative order of the kept types is preserved |
| AssetSelection.WithoutNoDuplicates | components/AssetGenerator.tsx:79 | filtering a duplicate-free list keeps it duplicate-free |
| AssetSelection.Toggle | components/AssetGenerator.tsx:77-81 | a present type is removed (every occurrence) and nothing else changes; an absent type is appended at the end |
| AssetSelection.ToggleNoDuplicates | components/AssetGenerator.tsx:77-81 | toggling never brings a duplicate into a duplicate-free list |
| AssetSelection.ToggleTwiceAbsent | components/AssetGenerator.tsx:78-80 | toggling an absent type twice restores the list |
| AssetSelection.ToggleTwicePresent | components/AssetGenerator.tsx:78-80 | toggling a present type twice moves it to the end |
| AssetSelection.ToggleStaysInCatalogue | components/AssetGenerator.tsx:77-81 | toggling a type of `ASSET_TYPES` (lines 8-14) keeps the selection a duplicate-free subset of the catalogue |
| AssetSelection.CatalogueHasNoDuplicates | components/AssetGenerator.tsx:8-14 | the five asset types are distinct |
| AssetSelection.HandleGenerate | components/AssetGenerator.tsx:83-89 | text mode sends only the description; upload mode sends only the image |
| AssetSelection.DisabledIffHookRejects | components/AssetGenerator.tsx:91 | when not loading, the button is disabled exactly when the hook would reject the request at one of its two guards |
| RecipeBatch.WithStepImage | hooks/useRecipeGenerator.ts:39-41 | every instruction whose step matches gets the image; every other field and instruction is unchanged; count and order are kept |
| RecipeBatch.OnImageGenerated | hooks/useRecipeGenerator.ts:25-45 | `initial` replaces the recipe wholesale; an image merged into no recipe gives no recipe; `final` sets only `finalImageUrl`; a step image sets only the matching instructions' images |
| RecipeBatch.MergesCommute | hooks/useRecipeGenerator.ts:32-44 | images for different slots can be merged in either order |
| RecipeBatch.LaterImageWins | hooks/useRecipeGenerator.ts:32-44 | of two images for the same slot, the later one is what remains |
| RecipeBatch.ReplayAppend | hooks/useRecipeGenerator.ts:25-45 | replaying callbacks in two stretches equals replaying them once |
| RecipeBatch.ImagesBeforeSkeletonDropped | hooks/useRecipeGenerator.ts:33 | every image that arrives before the skeleton is dropped, and the recipe stays null |
| RecipeBatch.ReplayOverSkeleton | hooks/useRecipeGenerator.ts:26-44 | after the skeleton, the recipe is the skeleton with the latest image for each slot; title, time, ingredients, and the instructions' count, order, steps and texts are kept |
| RecipeBatch.SkeletonResets | hooks/useRecipeGenerator.ts:26-30 | whatever came before a skeleton is forgotten |
| RecipeBatch.GenerateRecipe | hooks/useRecipeGenerator.ts:13-59 | with no input: only the error is set, and no call is made. Otherwise: one call; the recipe is the callbacks' replay from null; the error is the failure, if any, and images already merged are kept; loading ends false; the progress log is exactly the initial text, the progress notes in the order they came, and the empty string |
| RecipeBatch.Notes | hooks/useRecipeGenerator.ts:22-57 | the progress notes of a callback trace: every progress message is among them, each of them is one, and there are no more of them than callbacks |
| RecipeBatch.NotesAppend | hooks/useRecipeGenerator.ts:22-57 | the notes of joined traces are the joined notes, so each `setProgress` message keeps its place and multiplicity in the log |
| RecipeBatch.NotesOfOne | hooks/useRecipeGenerator.ts:22-57 | a progress callback contributes exactly its message and an image callback nothing |
| Renderer.ParseDataUrlInverts | server/services/geminiService.js:185 | a `data:<mime>;base64,<data>` URL, the format also built at line 16, parses back into its mime type and data |
| Renderer.FirstImageIndex | server/services/geminiService.js:182 | `find(part => part.inlineData)`: the first part with inline data, or none |
| Renderer.FirstTextIndex | server/services/geminiService.js:188 | `find(p => p.text)`: the first part with non-empty text, or none |
| Renderer.DecodeParts | server/services/geminiService.js:177-193 | missing parts give the invalid-response error. The reply succeeds exactly when some part has inline data, and then gives the data URL of the first such part. Otherwise the error quotes the first text part, or is the no-image message when there is none |
| Renderer.DecodeImages | server/services/geminiService.js:221-225 | an images reply succeeds exactly when it is non-empty, as a PNG data URL of the first image; otherwise it gives the no-image message |
| Renderer.MapFault | server/services/geminiService.js:194-202 | an `Error` whose message contains `SAFETY` becomes the safety message; any other `Error` keeps its message; a non-`Error` throw becomes the unknown-error message |
| Renderer.MockupParts | server/services/geminiService.js:144-167 | the parts are the product, then the optional background, then one text prompt; the text-background brief is used exactly when `backgroundPrompt` is truthy |
| Renderer.GenerateProductMockup | server/services/geminiService.js:140-202 | sends the mockup parts; the first image part is the result; otherwise the first text part is quoted, or replaced by the safety message exactly when it mentions `SAFETY`; with neither, "API did not return an image. It may have refused the request."; thrown errors keep their message unless it mentions `SAFETY`, and a non-`Error` throw gives the mockup's unknown message |
| Renderer.ContentServiceOutcome | server/services/geminiService.js:177-204 | for every reply, a content service returns the first image part; else the first non-empty text, quoted or replaced by the safety message exactly when it mentions `SAFETY`; else its own no-image message; "Invalid response from API: No content parts found." when the reply has no parts; and maps throws as the catch block does |
| Renderer.TextInsteadSafety | server/services/geminiService.js:188-200 | quoting a text reply adds no `SAFETY` mention and hides none, so the catch block rewrites the quoted error exactly when the text mentions `SAFETY` |
| Renderer.QuotedSafetyTextIsReplaced | server/services/geminiService.js:188-200 | a text-only reply that mentions `SAFETY` is reported as the safety message, not quoted |
| Renderer.ImagePartBeatsText | server/services/geminiService.js:182-186 | the first image part wins over any text part |
| Renderer.GenerateTextImage | server/services/geminiService.js:283-331 | sends the image and the text-overlay brief; the same outcome as a mockup (first image, else quoted or safety-replaced text, else the refusal message), with the text-image unknown message for a non-`Error` throw |
| Renderer.GenerateEducationalDiagram | server/services/geminiService.js:335-362 | one images call with the diagram brief; the first generated image as a PNG `data:` URL, "API did not return an image for the diagram topic." for an empty reply, and a thrown error replaced by the diagram safety message exactly when it mentions `SAFETY` |
| Renderer.GenerateStoryIllustration | server/services/geminiService.js:465-492 | one images call with the story brief; the first generated image as a PNG `data:` URL, "API did not return an illustration for this page." for an empty reply, and a thrown error replaced by the story safety message exactly when it mentions `SAFETY` |
| Renderer.ImagesServiceOutcome | server/services/geminiService.js:346-362 | an images service succeeds exactly when the reply is non-empty; an answered failure is the safety or the no-image message; a non-`Error` throw is the unknown message; when the no-image message does not mention `SAFETY`, the whole outcome is the one the images contract describes |
| Renderer.RecipeImageFailure | server/services/geminiService.js:451-461 | `SAFETY` is checked first, then `429` or case-insensitive `quota`; everything else becomes the generic step failure |
| Renderer.GenerateRecipeImage | server/services/geminiService.js:434-461 | a decoded image passes through; every failure, the adapter's own empty-reply error included, goes through the recipe failure mapping |
| Renderer.QuotaInAnyCase | server/services/geminiService.js:457 | `quota` is matched in any letter case |
| Renderer.StepErrorIsPlain | server/services/geminiService.js:447-458 | the empty-reply message contains neither `SAFETY`, nor `429`, nor `quota` in any case |
| Renderer.EmptyStepReplyIsGeneric | server/services/geminiService.js:446-461 | an empty images reply for a recipe step ends as "Failed to generate an image for a recipe step." |
| Renderer.GenerateBrandAsset | server/services/geminiService.js:206-279 | a truthy description selects the text branch even when an image is present; otherwise an image selects the image branch; with neither, it fails with "Invalid input for asset generation." and makes no call; each branch has the images or content outcome with the mascot or product no-image message |
| Renderer.PrepareSkeleton | server/services/geminiService.js:425-426 | every instruction image and the final image are cleared; title, time, ingredients, and the instructions' count, steps and texts are kept |
| Renderer.PrepareSkeletonFixesCleared | server/services/geminiService.js:425-426 | preparing is idempotent, and leaves a recipe unchanged exactly when it is already cleared |
| Renderer.GetRecipeFromAI | server/services/geminiService.js:391-431 | the dish name is preferred over the image; with neither, the input error is raised before any call, unwrapped; otherwise a recipe is prepared, or every failure becomes the fixed invalid-recipe message |
| Routes.AcceptsUpload | server/routes/imageGeneration.js:14-20 | a file is accepted exactly when its mimetype starts with `image/` |
| Routes.Respond | server/routes/imageGeneration.js:51-62 | success carries the data URL; a failure is a 500 with the error's message, or the route's default when the message is empty |
| Routes.TextImage | server/routes/imageGeneration.js:24-64 | a missing file is a 400, checked before the four text parameters; with any of them missing it is another 400 with no call; otherwise the service's call and response |
| Routes.Diagram | server/routes/imageGeneration.js:67-93 | a missing topic is a 400 with no call; otherwise the diagram service's call and response |
| Routes.Isometry | server/routes/imageGeneration.js:96-112 | the file is checked before the prompt, both with a 400 and no call; past them, one content call with the file and the asset brief for `isometric illustration: ` + the prompt, answered with the service's result or "Failed to generate isometry image" |
| Routes.IsometryUsesImageBranch | server/routes/imageGeneration.js:115-120 | isometry always takes the brand-asset image branch, with `isometric illustration: ` + the prompt as the asset type |
| Routes.OutfitReplace | server/routes/imageGeneration.js:145-176 | both images are required before the prompt, each check a 400 with no call; past them, one content call with both images and the text-background brief for `Replace the outfit with: ` + the prompt, answered with the mockup result or "Failed to replace outfit" |
| Routes.Mockup | server/routes/imageGeneration.js:184-221 | only the product image is required; the background image and prompt are forwarded as given |
| Routes.BrandAsset | server/routes/imageGeneration.js:224-262 | a description or a file is checked first, then the asset type. Past both checks, the service always makes its call, and it is an images call exactly when the description is truthy; the response is the brand-asset service's result or "Failed to generate brand asset" |
| Routes.StoryIllustration | server/routes/imageGeneration.js:265-294 | both texts are required, with a 400 and no call otherwise; then the story service's call and response |
| Quota.ActiveSubscription | server/services/limitService.js:7-19 | the result is an active subscription of the user from the store; the result is absent exactly when the store holds none |
| Quota.UsageWindowsSplit | server/services/limitService.js:80-86 | the half-open windows (`$gte`/`$lt`, with the day bounds of lines 37-40) `[a,b)` and `[b,c)` split the count of `[a,c)`: nothing is counted twice, nothing is lost |
| Quota.TodayUsage | server/services/limitService.js:75-93 | the count, or 0 when the count query fails |
| Quota.CanMakeChatRequest | server/services/limitService.js:22-72 | allowed exactly when a subscription exists and usage < limit, and then `remaining = limit - usage >= 1`; a missing subscription and a failed lookup deny with their own reasons and zeros; usage ≥ limit denies with "Daily limit reached" |
| Quota.ZeroLimitAlwaysDenies | server/services/limitService.js:45-53 | a limit of 0 always denies |
| Quota.UsageFailureFailsOpen | server/services/limitService.js:89-92 | when the usage count fails, the decision is as if usage were 0 |
| Quota.AllowMonotone | server/services/limitService.js:45 | lower usage never turns an allow into a deny |
| Quota.OrZero | server/middleware/limitChecker.js:20 | `x \|\| 0`: a missing or zero value becomes 0 |
| Quota.CheckChatLimit | server/middleware/limitChecker.js:4-42 | a deny is a 429 `DAILY_LIMIT_EXCEEDED` carrying the reason; an allow passes on the usage data; an exception is a 500 `INTERNAL_ERROR` |
| Quota.ChatLimitGate | server/middleware/limitChecker.js:11-33 | the middleware passes exactly when the check allows, and then with `remaining >= 1`; a block always reports `remaining` 0 |
| Quota.SubscriptionDetails | server/services/limitService.js:131-164 | a failed lookup is rethrown; no subscription gives zeros and `hasSubscription=false`; otherwise today's usage, with `remaining + usage = limit` |
| Quota.DetailsRemainingUnclamped | server/services/limitService.js:157 | usage above the limit gives a negative `remaining`, and the request is denied |
| Quota.SubscriptionInfo | server/middleware/limitChecker.js:45-68 | never blocks; on error it installs a zero record with plan `Unknown` |
| Quota.FindPlan | server/services/limitService.js:99-102 | the result is an active plan with that name; the result is absent exactly when no such plan exists |
| Quota.Deactivate | server/services/limitService.js:109-112 | every subscription of the user becomes inactive; nothing else changes |
| Quota.CreateUserSubscription | server/services/limitService.js:96-128 | an unknown plan fails before anything changes; otherwise all of the user's earlier subscriptions are inactive and one new active record with the plan's daily limit is appended; other users' records are untouched |
| Quota.CreateUserSubscriptionRun | server/services/limitService.js:96-128 | with the insert failing after `updateMany`, the call throws and leaves the store with the user's subscriptions retired and no active one; other users are untouched; with it succeeding, the store is the one `createUserSubscription` describes |
| Quota.FailedInsertLosesQuota | server/services/limitService.js:96-128 | after a failed insert, the user's next chat request is refused as having no active subscription |
| Quota.CreateKeepsOneActive | server/services/limitService.js:108-121 | with at most one active subscription per user before, the same holds after, and the new one is the one found |
| Quota.ActiveFindsLast | server/services/limitService.js:115-121 | when the newly created record is the user's only active one, the active lookup of lines 7-19 finds exactly it |
| Quota.DefaultCatalogue | server/services/limitService.js:169-205 | the default plans are active, with their names and daily limits in order |
| Quota.UpsertPlan | server/services/limitService.js:207-212 | one upsert: with a plan of the name, exactly the first such plan takes the new daily limit, keeping its id, name and `isActive`, and every other plan is unchanged; with none, a new active plan is appended |
| Quota.UpsertAllKeeps | server/services/limitService.js:207-212 | the start-up upserts never remove, rename, revive or retire an existing plan; every plan they add is active and has a name not already present |
| Quota.InactivePlanStaysInactive | server/services/limitService.js:207-212 | a plan name whose plans are all inactive stays unsubscribable after start-up |
| Quota.FreshCatalogue | server/services/limitService.js:169-212 | on an empty catalogue the start-up upserts give exactly the default catalogue |
| Quota.DefaultPlanLimits | server/services/limitService.js:169-205 | Basic gives 5 a day, Balanced 50, Advanced 100; an unlisted plan fails |
| Upload.LastIndexOf | server/middleware/upload.js:23 | the last position of a character, or none when it does not occur |
| Upload.TrimTrailingSlashes | server/middleware/upload.js:23 | `path.extname` ignores trailing slashes: only `/` characters are cut, and the result does not end in `/` |
| Upload.Extname | server/middleware/upload.js:23 | `path.extname`: empty, or a single dot followed by neither a dot nor a slash |
| Upload.ExtnameOfSimpleName | server/middleware/upload.js:23 | the extension of `stem.ext` is `.ext` |
| Upload.AcceptedHasExtension | server/middleware/upload.js:37-47 | an accepted file always has an extension |
| Upload.FilterIsUnanchored | server/middleware/upload.js:38-40 | any name whose extension contains `png` passes, together with any mimetype containing `png` |
| Upload.PngExtensionMatches | server/middleware/upload.js:38-39 | the lower-cased extension is matched anywhere inside |
| Upload.MimetypeIsCaseSensitive | server/middleware/upload.js:40 | the mimetype is not lower-cased, so `IMAGE/PNG` is refused |
| Upload.StoredPathKeepsExtension | server/middleware/upload.js:20-30 | the recorded path ends in the generated file name, and `path.extname` of it is `path.extname` of the uploaded name (the field name and the time-and-random suffix carry no `/` or `.`) |
| Upload.GetFileUrl | server/middleware/upload.js:118-122 | a falsy path gives null; otherwise base + path with no `/` inserted |
| Upload.RewriteFieldsSpec | server/middleware/upload.js:131-141 | the keys are kept; each listed field holding a non-empty string is made absolute, and every other value is untouched |
| Upload.GenerateURL | server/middleware/upload.js:125-144 | a missing request or object returns the object unchanged; otherwise keys are kept, and listed fields holding a non-empty string get `base + value` under `/uploads/` or `base/uploads/<field>/value` otherwise |
| Upload.DefaultFieldsDistinct | server/middleware/upload.js:125 | the default field list has no repeats |
| Upload.StoredPathUrl | server/middleware/upload.js:134-135 | a path stored by line 30 always takes the `/uploads/` branch, giving the same URL as `getFileUrl` |
| Upload.BareNameUrl | server/middleware/upload.js:136-138 | a bare name gets `/uploads/<field>/` prefixed |
| Upload.GenerateURLs | server/middleware/upload.js:147-151 | a missing array or request returns the input; otherwise the objects are mapped one by one, keeping length and order |
| Common.TrimSlice | server/controllers/chatController.js:22 | `trim` keeps one contiguous piece, cuts only whitespace, and what it keeps neither starts nor ends with whitespace |
| Common.TrimIdempotent | server/controllers/chatController.js:22 | trimming twice is trimming once |
| Common.SplitJoin | server/controllers/chatController.js:22 | splitting the join of comma-free pieces gives the pieces back |
| Common.JoinSplit | server/controllers/chatController.js:22 | joining the split pieces gives the string back |
| Common.SplitLength | server/controllers/chatController.js:22 | `split` gives one more piece than there are separators, empty pieces included |
| Common.Split | server/controllers/chatController.js:22 | `split(',')` always gives at least one piece, and no piece contains the separator |
| ChatRequests.ParseTags | server/controllers/chatController.js:22 | an absent or empty value gives no tags; otherwise one trimmed tag per comma-separated piece, empty pieces kept |
| ChatRequests.ParsedTagsAreClean | server/controllers/chatController.js:22 | there is one tag more than commas, and each tag is comma-free and already trimmed |
| ChatRequests.ParseTagsNormalises | server/controllers/chatController.js:22 | when the joined text is non-empty, joining the parsed tags with commas and parsing again gives the same tags |
| ChatRequests.ParseIsPublic | server/controllers/chatController.js:23 | as at line 23 and again at line 142: true exactly for the string `true` or the boolean `true` |
| ChatRequests.DigitRun | server/controllers/chatController.js:49-50 | `parseInt` reads the longest run of digits: the run is all digits, and the character after it is not one |
| ChatRequests.DecimalDigits | server/controllers/chatController.js:49-50 | a decimal rendering is all digits and reads back as the number |
| ChatRequests.ParseIntReadsDecimal | server/controllers/chatController.js:49-50 | a decimal number, with or without a minus sign and followed by anything but a digit (or an `x` after a lone `0`), parses back to that signed number |
| ChatRequests.ParseIntOfDigits | server/controllers/chatController.js:49-50 | an optional minus sign and a digit string not starting with `0x` parse to the signed value of the leading digit run, which is never empty |
| ChatRequests.IntOr | server/controllers/chatController.js:49-50 | `parseInt(q) \|\| d`, also at lines 239-240: NaN and 0 fall back to the default; every other number, negative ones included, is kept |
| ChatRequests.PageAndLimitNonZero | server/controllers/chatController.js:49-50 | page and limit (here and at lines 239-240) are never 0, so the page count is always defined |
| ChatRequests.DecimalQueryInt | server/controllers/chatController.js:49-50 | a decimal query value `n` gives `n`, or the default when `n` is 0 |
| ChatRequests.TotalPages | server/controllers/chatController.js:75 | `Math.ceil(total/limit)`, also at line 266: for a positive limit, the least page count that covers all items; a negative limit gives no positive count |
| ChatRequests.PagesCoverItems | server/controllers/chatController.js:60-75 | each item lies on exactly one page, between that page's skip and skip + limit, and that page is within the page count |
| ChatRequests.ListingOf | server/controllers/chatController.js:49-78 | the page and limit are the parsed query values, or 1 and 10 when absent, unparsable or 0; the limit used is the one reported and is never 0; the skip is `(page-1)*limit`; the page count is `ceil(total/limit)`; the total is reported as is |
| ChatRequests.DefaultListing | server/controllers/chatController.js:49-75 | with no query: page 1, limit 10, skip 0, and the least page count covering the total |
| ChatRequests.UserChatsQuery | server/controllers/chatController.js:53-56 | a chat matches exactly when it is the user's and, when a status is given, has that status |
| ChatRequests.PublicChatsQuery | server/controllers/chatController.js:243-247 | a chat matches exactly when it is public and, when tags are given, shares a tag with the parsed tags |
| ChatRequests.TagFilterNarrows | server/controllers/chatController.js:243-247 | the tag filter only narrows the public listing |
| ChatRequests.CreatedChatFoundByItsTags | server/controllers/chatController.js:243-247 | a chat created (lines 8-24) public with some tags is found by the public listing for the same tags |
| ChatRequests.StartSearch | server/controllers/chatController.js:285-292 | a missing or empty `q` is a 400 "Search query is required" before any query; otherwise the search is for this user and `q` |
| ChatRequests.OrNull | server/controllers/chatController.js:12-14 | `x \|\| null`: kept exactly when truthy |
| ChatRequests.NewChatData | server/controllers/chatController.js:8-24 | a new chat gets the parsed tags, the parsed flag, and each upload path or null |
| ChatRequests.UpdateFields | server/controllers/chatController.js:139-166 | prompt, tags, status and each upload are written exactly when truthy; `isPublic` exactly when present; each written value is the parsed one |
| ChatRequests.AbsentFieldsUnchanged | server/controllers/chatController.js:139-172 | fields the request does not write keep their old values |
| ChatRequests.UpdateIdempotent | server/controllers/chatController.js:168-172 | applying the same update twice is applying it once |
| ChatRequests.PresentFlagMakesPrivate | server/controllers/chatController.js:142 | a present `isPublic` that is neither `'true'` nor `true` (`null`, `'false'`) makes the chat private |
| ChatRequests.ReplacedFiles | server/controllers/chatController.js:146-166 | a path is handed to `deleteFile` exactly when it is the old, non-empty path of a field that receives a new upload |
| ChatRequests.UpdatedImageUrlAsWritten | server/controllers/chatController.js:176-178 | the URL as the controller builds it: base + field + `/` + stored path |
| ChatRequests.AsWrittenUrlIsMalformed | server/controllers/chatController.js:176-178 | for every stored upload path, that URL is `base + field + "//uploads/..."` and differs from both `getFileUrl` and `generateURL` |
| ChatRequests.AsWrittenShape | server/controllers/chatController.js:176-178 | for an upload path `/uploads/<field>/<f>`, the URL as written is `base + field + "//uploads/<field>/<f>"` |
| ChatRequests.UpdatedImageUrl | server/controllers/chatController.js:176-178 | the corrected URL is present exactly when the stored path is truthy |
| ChatRequests.UpdatedImageUrlAgrees | server/controllers/chatController.js:176-178 | the corrected URL is the one `generateURL` gives, and for stored paths the one `getFileUrl` gives |
| ChatRequests.UpdateChat | server/controllers/chatController.js:123-193 | for an owned chat and an update that succeeds: the updated chat, whose prompt is the trimmed written prompt when one is given (the schema's `trim` setter, server/models/Chat.js:4-8) and the old prompt otherwise, the paths handed to `deleteFile` and the three URLs as written: each present exactly when its path is truthy, and equal to the base URL, the field name, `/` and the stored path |
| ChatRequests.UpdateChatRun | server/controllers/chatController.js:123-193 | a 500 with nothing handed to `deleteFile` exactly when the ownership lookup throws (a malformed id); 404 exactly when the lookup finds no chat the user owns; a 500 exactly when the validated update throws, i.e. a written `status` outside the schema enum or any other store failure, with the stored chat as it was and the replaced paths already handed to `deleteFile`; otherwise the successful update |
| ChatRequests.BadStatusStillDeletes | server/controllers/chatController.js:146-192 | an update with a status outside the enum fails after handing the old prompt image to `deleteFile`, while the stored chat still points at it |
| ChatRequests.CorrectedUpdateChat | server/controllers/chatController.js:123-193 | the same chat and deleted files as `updateChat`, with each URL present exactly when its path is truthy and equal to `getFileUrl` of a stored upload path |
| ChatRequests.UploadedImageUrl | server/controllers/chatController.js:146-176 | a freshly uploaded prompt image is reported, as written, at `<base>promptImage//uploads/promptImage/<file>`; the corrected update reports it at its `getFileUrl` address |

Note on `Storybook.GenerateAllIllustrations` (hooks/useStorybookCreator.ts:26-70):
- An empty character description or no page with text sets the matching error and changes nothing else. No renderer call is made.
- Otherwise the attempts follow the page order and stop after the first failure.
- `progress` runs 0, 1, …, k. A failure sets "Failed on page k: …", counted within the text pages.
- Successes are kept on their pages. Failed and unattempted pages are unchanged, and pages without text are never touched.
- Every published list has at most one page loading.

Note on `AssetBatch.GenerateAssets` (hooks/useAssetGenerator.ts:14-51):
- The empty-selection guard comes before the input guard. Neither makes a call.
- Otherwise there is one call per type, in order, with none after the first failure.
- Progress is `{0,N,''}` first, then `{i+1,N,type_i}` before call i.
- Results are the successes in order, each labelled with its type, and are kept on failure.
- Loading ends false.

## Left out

- React rendering, styling and the progress-bar width (floating point) are not modelled. Nor are the Google GenAI SDK calls, model names, aspect ratios, the prompt wording (briefs are symbolic values) or the API-key check.
- The client service behind `generateFullRecipe` is not part of this model. The recipe hook gets its callbacks and failure as an input trace, so the order of steps and the progress strings come from the input.
- MongoDB and mongoose are inputs, not models: `find`/`countDocuments`/`populate`/`sort`. A query result is a value or `Threw`. `findOne` returns some matching record, and the model takes the first.
- Authentication, the HTTP client code, the server wiring and the test scripts are not modelled.
- Multer's disk storage, `mkdirSync` and `deleteFile` are not modelled, since they are file-system effects. `ChatRequests.ReplacedFiles` states which paths are handed to `deleteFile`, not whether a file goes: the stored values are URL paths (`/uploads/<field>/<file>`), which `fs.existsSync` resolves from the file-system root rather than from the upload directory.
- The `Date.now()`/`Math.random()` filename suffix is an opaque parameter. The 10 MB size limit is left out.
- The day window is taken as given. Midnight and daylight-saving arithmetic on `Date` is not modelled; `Quota.UsageWindowsSplit` states the half-open window property.
- `ChatRequests.StartSearch`: the regular-expression search (`$regex` with `q`) and its `page`/`limit` handling, which do not use `parseInt`, are left out.
- `ChatRequests.DigitRun`: `parseInt` is modelled for the default radix and the `0x` prefix. Precision loss above 2^53 is not modelled, because JavaScript numbers are modelled as unbounded integers.
- Non-string query values (arrays from repeated parameters) are left out.
- `ChatRequests.TotalPages` requires a non-zero limit. `ChatRequests.PageAndLimitNonZero` shows the controller never passes 0. A negative limit is passed to the database as given, and its effect there is not modelled.
- `Upload.GenerateURL`: the per-field result is stated only for a field list without repeats. A repeated field would be rewritten twice, and the default list has none.
- `Routes.Isometry` calls the brand-asset service with no description, so the model passes it no images reply: that reply is never consulted.
- Thrown values that are not `Error` objects are distinguished only where the adapter distinguishes them (`NonError`). Their `toString()` text on the client is the `Outcome` text.
- `Common.ToLower` folds ASCII letters only. JavaScript's `toLowerCase` also folds non-ASCII letters; on the filter words and `quota` the two agree.
- `ChatRequests.UpdateChatRun` decides the enum check only; the other validators (required or over-long prompt after trimming) and database errors are folded into its `storeThrows` input.
- `Quota.UpsertPlan` relies on the schema default making a newly inserted plan active. The plan's price, currency and feature list are not modelled.
- `deletePage` on an empty book (the component's delete guard) and concurrent runs from two tabs are not modelled. React's setState batching is not modelled either: each run is one sequential execution.

## Findings

| source | as written | input that shows it | evidently intended | confidence | as-written member | corrected member |
|---|---|---|---|---|---|---|
| server/controllers/chatController.js:176-178 | the image URLs of an updated chat are `getFileUrl(req, "promptImage/" + stored)`, but the stored value is already `/uploads/promptImage/<file>` | a chat whose stored `promptImage` is `/uploads/promptImage/promptImage-1-2.png`, requested from host `h` over `http`, gets `http://hpromptImage//uploads/promptImage/promptImage-1-2.png` | `http://h/uploads/promptImage/promptImage-1-2.png`, as `generateURL` and `getFileUrl(req, stored)` give elsewhere | not executed | ChatRequests.AsWrittenUrlIsMalformed | ChatRequests.UpdatedImageUrlAgrees |

`ChatRequests.UpdateChat` models the controller as written. `ChatRequests.CorrectedUpdateChat` builds its URLs with the corrected `ChatRequests.UpdatedImageUrl`.

=== FILE: assets.dfy ===
/** The brand-asset hook: one renderer call per selected asset type, in
    selection order, with live progress, results growing after every
    success, and the first failure ending the batch without discarding
    anything already generated. */
module AssetBatch {
  import opened Common

  /** The subject of a batch: an uploaded image and/or a text description. */
  datatype AssetInput = AssetInput(image: Option<ImageFile>, description: Option<string>)

  /** One generated asset (`GeneratedMockup`), labelled with its asset type. */
  datatype GeneratedAsset = GeneratedAsset(imageDataUrl: string, description: string)

  /** `progress`: attempts started, out of `total`, and the type in flight. */
  datatype AssetProgress = AssetProgress(current: nat, total: nat, currentAsset: string)

  /** The hook's state. */
  datatype AssetState = AssetState(isLoading: bool, results: seq<GeneratedAsset>, error: Option<string>, progress: AssetProgress)

  /** The arguments of one `generateBrandAsset` call. */
  datatype AssetRequest = AssetRequest(image: Option<ImageFile>, description: Option<string>, assetType: string)

  /** One press of "generate": the final state, the renderer calls in order,
      every progress value published in order, and every result list
      published in order (the reset to `[]` first). */
  datatype AssetRun = AssetRun(state: AssetState, requests: seq<AssetRequest>,
                               progressLog: seq<AssetProgress>, resultLog: seq<seq<GeneratedAsset>>)

  const NoTypesError := "Please select at least one asset type."
  const NoInputError := "Please provide a mascot description or a product image."

  /** `assetInput.image || assetInput.description` is truthy. */
  predicate HasInput(input: AssetInput) {
    input.image.Some? || Truthy(input.description)
  }

  /** Number of results a run keeps after `k` attempts: all of them, or all
      but the last when the last one failed. */
  function Kept(render: nat -> Outcome, k: nat): nat
    requires k > 0
  {
    if render(k - 1).Rendered? then k else k - 1
  }

  /** `generateAssets`: reject an empty selection, then a missing subject;
      otherwise reset and generate one asset per type, in order; the `j`-th
      renderer call is answered by `render(j)`. */
  method GenerateAssets(assetTypes: seq<string>, input: AssetInput, prior: AssetState, render: nat -> Outcome)
    returns (run: AssetRun)
    // guards, in this order; no renderer call and nothing else changes
    ensures assetTypes == [] ==> run == AssetRun(prior.(error := Some(NoTypesError)), [], [], [])
    ensures assetTypes != [] && !HasInput(input) ==> run == AssetRun(prior.(error := Some(NoInputError)), [], [], [])
    // attempts: one per type in order, none after the first failure
    ensures var N := |assetTypes|; var k := |run.requests|;
            assetTypes != [] && HasInput(input) ==>
              && 1 <= k <= N
              && (forall j :: 0 <= j < k ==> run.requests[j] == AssetRequest(input.image, input.description, assetTypes[j]))
              && RenderedBefore(render, k - 1)
              && (k < N ==> render(k - 1).Failed?)
    // progress: {0, N, ''} first, then {i+1, N, assetTypes[i]} right before call i
    ensures var N := |assetTypes|; var k := |run.requests|;
            assetTypes != [] && HasInput(input) ==>
              && |run.progressLog| == k + 1
              && run.progressLog[0] == AssetProgress(0, N, "")
              && (forall j :: 0 <= j < k ==> run.progressLog[j + 1] == AssetProgress(j + 1, N, assetTypes[j]))
              && run.state.progress == run.progressLog[k]
    // results: the successes in order, each labelled with its type; kept on failure
    ensures var N := |assetTypes|; var k := |run.requests|;
            assetTypes != [] && HasInput(input) ==>
              && |run.state.results| == Kept(render, k)
              && (forall j :: 0 <= j < |run.state.results| ==>
                    run.state.results[j] == GeneratedAsset(render(j).imageDataUrl, assetTypes[j]))
              && |run.resultLog| == Kept(render, k) + 1
              && (forall m :: 0 <= m < |run.resultLog| ==> run.resultLog[m] == run.state.results[..m])
    // error and loading flag at the end
    ensures var N := |assetTypes|; var k := |run.requests|;
            assetTypes != [] && HasInput(input) ==>
              && (render(k - 1).Rendered? ==> k == N && run.state.error.None?)
              && (render(k - 1).Failed? ==> run.state.error == Some(render(k - 1).message))
              && !run.state.isLoading
  {
    if |assetTypes| == 0 {
      return AssetRun(prior.(error := Some(NoTypesError)), [], [], []);
    }
    if !HasInput(input) {
      return AssetRun(prior.(error := Some(NoInputError)), [], [], []);
    }
    var N := |assetTypes|;
    var progress := AssetProgress(0, N, "");
    var progressLog := [progress];
    var generated: seq<GeneratedAsset> := [];
    var resultLog: seq<seq<GeneratedAsset>> := [[]];
    var requests: seq<AssetRequest> := [];
    var error: Option<string> := None;
    var i := 0;
    while i < N && error.None?
      invariant 0 <= i <= N
      invariant |requests| == i
      invariant forall j :: 0 <= j < i ==> requests[j] == AssetRequest(input.image, input.description, assetTypes[j])
      invariant error.None? ==> RenderedBefore(render, i) && |generated| == i
      invariant error.Some? ==> i > 0 && RenderedBefore(render, i - 1) && render(i - 1).Failed?
                                && error == Some(render(i - 1).message) && |generated| == i - 1
      invariant forall j :: 0 <= j < |generated| ==> generated[j] == GeneratedAsset(render(j).imageDataUrl, assetTypes[j])
      invariant |resultLog| == |generated| + 1
      invariant forall m :: 0 <= m < |resultLog| ==> resultLog[m] == generated[..m]
      invariant |progressLog| == i + 1 && progressLog[0] == AssetProgress(0, N, "")
      invariant forall j :: 0 <= j < i ==> progressLog[j + 1] == AssetProgress(j + 1, N, assetTypes[j])
      invariant progress == progressLog[i]
      decreases N - i
    {
      progress := AssetProgress(i + 1, N, assetTypes[i]);
      progressLog := progressLog + [progress];
      requests := requests + [AssetRequest(input.image, input.description, assetTypes[i])];
      match render(i) {
        case Rendered(url) =>
          generated := generated + [GeneratedAsset(url, assetTypes[i])];
          resultLog := resultLog + [generated];
        case Failed(message) =>
          error := Some(message);
      }
      i := i + 1;
    }
    run := AssetRun(AssetState(false, generated, error, progress), requests, progressLog, resultLog);
  }
}

=== FILE: chat.dfy ===
/** The request handling of the chat history controller: how tags, the
    public flag and the page parameters are read from a request, what query
    each listing builds, which fields an update writes, and the URLs the
    update answers with. The database itself is not modelled: stored chats
    and counts are inputs. */
module ChatRequests {
  import opened Common
  import opened Upload

  /** A stored chat, as far as the controller reads or writes it. */
  datatype Chat = Chat(userId: string, prompt: string, promptImage: Option<string>, responseImage: Option<string>,
                       outfitImage: Option<string>, tags: seq<string>, isPublic: bool, status: string)

  /** `req.uploadedFiles`: the stored path of each image field uploaded with
      this request. */
  datatype Uploads = Uploads(promptImage: Option<string>, responseImage: Option<string>, outfitImage: Option<string>)

  // ---------------------------------------------------------------------
  // Tags and the public flag

  /** `tags ? tags.split(',').map(tag => tag.trim()) : []` */
  function ParseTags(tags: Option<string>): (r: seq<string>)
    ensures !Truthy(tags) ==> r == []
    ensures Truthy(tags) ==> && |r| == |Split(tags.value, ',')|
                             && forall i :: 0 <= i < |r| ==> r[i] == Trim(Split(tags.value, ',')[i])
  {
    if !Truthy(tags) then []
    else
      var pieces := Split(tags.value, ',');
      seq(|pieces|, i requires 0 <= i < |pieces| => Trim(pieces[i]))
  }

  /** A present tag string gives one tag per comma plus one, empty pieces
      included, and every tag is comma-free and already trimmed. */
  lemma ParsedTagsAreClean(tags: Option<string>)
    ensures var r := ParseTags(tags);
            && (Truthy(tags) ==> |r| == Count(tags.value, ',') + 1)
            && forall i :: 0 <= i < |r| ==> ',' !in r[i] && Trim(r[i]) == r[i]
  {
    if Truthy(tags) {
      var pieces := Split(tags.value, ',');
      var r := ParseTags(tags);
      SplitLength(tags.value, ',');
      forall i | 0 <= i < |r| ensures ',' !in r[i] && Trim(r[i]) == r[i] {
        TrimKeepsAbsence(pieces[i], ',');
        TrimIdempotent(pieces[i]);
      }
    }
  }

  /** Parsing is a normal form: the tags, joined back with commas, parse to
      themselves. */
  lemma ParseTagsNormalises(s: string)
    requires s != ""
    requires Join(ParseTags(Some(s)), ',') != ""
    ensures ParseTags(Some(Join(ParseTags(Some(s)), ','))) == ParseTags(Some(s))
  {
    var tags := ParseTags(Some(s));
    ParsedTagsAreClean(Some(s));
    var joined := Join(tags, ',');
    SplitJoin(tags, ',');
    assert Split(joined, ',') == tags;
    var again := ParseTags(Some(joined));
    assert |again| == |tags|;
    forall i | 0 <= i < |tags| ensures again[i] == tags[i] {
      assert again[i] == Trim(tags[i]);
    }
    assert again == tags;
  }

  /** `isPublic === 'true' || isPublic === true`: only the string `true` and
      the boolean `true` count; `'True'`, `1` or `'yes'` do not. */
  function ParseIsPublic(v: Option<JsValue>): (r: bool)
    ensures r <==> v == Some(JsString("true")) || v == Some(JsBool(true))
  {
    match v
    case Some(JsString(s)) => s == "true"
    case Some(JsBool(b)) => b
    case _ => false
  }

  // ---------------------------------------------------------------------
  // parseInt

  /** The value of `c` as a digit in base `radix`, if it is one. */
  function DigitValue(c: char, radix: nat): (r: Option<nat>)
    ensures r.Some? ==> r.value < radix
  {
    var v := if '0' <= c <= '9' then c as int - '0' as int
             else if 'a' <= c <= 'z' then c as int - 'a' as int + 10
             else if 'A' <= c <= 'Z' then c as int - 'A' as int + 10
             else 36;
    if v < radix then Some(v) else None
  }

  predicate AllDigits(s: string, radix: nat) {
    forall k :: 0 <= k < |s| ==> DigitValue(s[k], radix).Some?
  }

  /** Length of the longest prefix of `s` made of base-`radix` digits. */
  function DigitRun(s: string, radix: nat): (n: nat)
    ensures n <= |s| && AllDigits(s[..n], radix)
    ensures n < |s| ==> DigitValue(s[n], radix).None?
  {
    if |s| == 0 || DigitValue(s[0], radix).None? then 0
    else
      var n := 1 + DigitRun(s[1..], radix);
      assert forall k :: 1 <= k < n ==> s[..n][k] == s[1..][..n - 1][k - 1];
      n
  }

  /** The number a run of digits denotes, most significant first. */
  function Value(digits: string, radix: nat): nat
    requires AllDigits(digits, radix)
  {
    if |digits| == 0 then 0
    else Value(digits[..|digits| - 1], radix) * radix + DigitValue(digits[|digits| - 1], radix).value
  }

  function Signed(negative: bool, v: nat): int {
    var w: int := v;
    if negative then -w else w
  }

  /** `parseInt(s)` without a radix: leading whitespace is skipped, one sign
      is read, and the digits after it are read by `ParseUnsigned`; no
      digits at all is `NaN` (`None`). */
  function ParseInt(s: string): Option<int> {
    var t := TrimStart(s);
    match ParseUnsigned(WithoutSign(t))
    case None => None
    case Some(v) => Some(Signed(|t| > 0 && t[0] == '-', v))
  }

  /** The string after one leading `-` or `+`, if there is one. */
  function WithoutSign(t: string): (u: string)
    ensures |u| <= |t|
  {
    if |t| > 0 && (t[0] == '-' || t[0] == '+') then t[1..] else t
  }

  /** The digits of an unsigned `parseInt`: a `0x`/`0X` prefix switches to
      base 16, and the longest run of digits that follows is the value.
      Whatever follows the digits is ignored. */
  function ParseUnsigned(u: string): Option<nat> {
    var hex := |u| >= 2 && u[0] == '0' && (u[1] == 'x' || u[1] == 'X');
    var radix := if hex then 16 else 10;
    var digits := if hex then u[2..] else u;
    var n := DigitRun(digits, radix);
    if n == 0 then None else Some(Value(digits[..n], radix))
  }

  /** Decimal rendering consists of digits, and reading them gives the
      number back. */
  lemma {:induction false} DecimalDigits(n: nat)
    ensures AllDigits(NatToDecimal(n), 10)
    ensures Value(NatToDecimal(n), 10) == n
  {
    var d := NatToDecimal(n);
    if n >= 10 {
      DecimalDigits(n / 10);
      var front := NatToDecimal(n / 10);
      assert d == front + [DigitChar(n % 10)];
      assert d[..|d| - 1] == front;
    }
  }

  /** The digit run of a string of digits followed by a non-digit ends
      exactly where the digits do. */
  lemma DigitRunStops(d: string, rest: string, radix: nat)
    requires AllDigits(d, radix)
    requires rest == [] || DigitValue(rest[0], radix).None?
    ensures DigitRun(d + rest, radix) == |d| && (d + rest)[..|d|] == d
  {
    var u := d + rest;
    var n := DigitRun(u, radix);
    assert forall k :: 0 <= k < |d| ==> u[k] == d[k];
    assert |d| < |u| ==> u[|d|] == rest[0];
    assert n >= |d|;
    assert forall k :: 0 <= k < n ==> u[..n][k] == u[k];
  }

  /** The first two characters of a decimal rendering are never `0x`. */
  lemma DecimalStart(n: nat, rest: string)
    requires n == 0 ==> rest == [] || (rest[0] != 'x' && rest[0] != 'X')
    ensures var u := NatToDecimal(n) + rest;
            && |u| > 0 && '0' <= u[0] <= '9'
            && !(|u| >= 2 && u[0] == '0' && (u[1] == 'x' || u[1] == 'X'))
  {
    var d := NatToDecimal(n);
    if n >= 10 {
      assert d == NatToDecimal(n / 10) + [DigitChar(n % 10)];
      assert (d + rest)[1] == d[1];
    }
  }

  /** Without a `0x` prefix, the unsigned digits are read in base 10. */
  lemma ParseUnsignedDecimal(u: string)
    requires |u| > 0 && '0' <= u[0] <= '9'
    requires !(|u| >= 2 && u[0] == '0' && (u[1] == 'x' || u[1] == 'X'))
    ensures var n := DigitRun(u, 10); n > 0 && ParseUnsigned(u) == Some(Value(u[..n], 10))
  {
    assert DigitValue(u[0], 10).Some?;
  }

  /** `parseInt` of a string that starts with a decimal digit (and no `0x`
      prefix), with or without a minus sign, reads the leading digit run. */
  lemma ParseIntOfDigits(u: string, negative: bool)
    requires |u| > 0 && '0' <= u[0] <= '9'
    requires !(|u| >= 2 && u[0] == '0' && (u[1] == 'x' || u[1] == 'X'))
    ensures var n := DigitRun(u, 10);
            && n > 0
            && ParseInt((if negative then "-" else "") + u) == Some(Signed(negative, Value(u[..n], 10)))
  {
    ParseUnsignedDecimal(u);
    var s := (if negative then "-" else "") + u;
    SignedDigits(s, u, negative);
    ParseIntUnfold(s);
  }

  /** A sign-free `parseInt` argument is read by `ParseUnsigned` as is. */
  lemma ParseIntUnfold(s: string)
    requires TrimStart(s) == s
    ensures ParseInt(s) == match ParseUnsigned(WithoutSign(s))
                           case None => None
                           case Some(v) => Some(Signed(|s| > 0 && s[0] == '-', v))
  {
  }

  lemma SignedDigits(s: string, u: string, negative: bool)
    requires |u| > 0 && '0' <= u[0] <= '9'
    requires s == (if negative then "-" else "") + u
    ensures TrimStart(s) == s && WithoutSign(s) == u && (|s| > 0 && s[0] == '-' <==> negative)
  {
    TrimStartKeeps(s);
    if negative {
      assert s[1..] == u;
    } else {
      assert s == u;
    }
  }

  /** Nothing is skipped before a sign or a digit. */
  lemma TrimStartKeeps(s: string)
    requires |s| > 0 && (s[0] == '-' || '0' <= s[0] <= '9')
    ensures TrimStart(s) == s
  {
    assert !IsWhitespace(s[0]);
  }

  /** A decimal number followed by anything that is not a digit (and not an
      `x` right after a lone `0`) parses back to that number, with or
      without a minus sign in front. */
  lemma ParseIntReadsDecimal(n: nat, rest: string, negative: bool)
    requires rest == [] || DigitValue(rest[0], 10).None?
    requires n == 0 ==> rest == [] || (rest[0] != 'x' && rest[0] != 'X')
    ensures ParseInt((if negative then "-" else "") + (NatToDecimal(n) + rest)) == Some(Signed(negative, n))
  {
    var d := NatToDecimal(n);
    DecimalDigits(n);
    DigitRunStops(d, rest, 10);
    DecimalStart(n, rest);
    ParseIntOfDigits(d + rest, negative);
  }

  /** `parseInt(x)` where `x` may be missing: `parseInt(undefined)` is `NaN`. */
  function ParseQueryInt(q: Option<string>): Option<int> {
    if q.None? then None else ParseInt(q.value)
  }

  /** `parseInt(q) || fallback`: `NaN` and `0` are falsy, every other number
      (negative ones included) is kept. */
  function IntOr(q: Option<string>, fallback: int): (r: int)
    ensures ParseQueryInt(q).Some? && ParseQueryInt(q).value != 0 ==> r == ParseQueryInt(q).value
    ensures ParseQueryInt(q).None? || ParseQueryInt(q) == Some(0) ==> r == fallback
  {
    match ParseQueryInt(q)
    case Some(v) => if v != 0 then v else fallback
    case None => fallback
  }

  const DefaultPage := 1
  const DefaultLimit := 10

  /** The page and limit of a listing are never 0. */
  lemma PageAndLimitNonZero(page: Option<string>, limit: Option<string>)
    ensures IntOr(page, DefaultPage) != 0 && IntOr(limit, DefaultLimit) != 0
  {
  }

  /** A decimal page or limit is taken as written, except `0`, which falls
      back to the default. */
  lemma DecimalQueryInt(n: nat, fallback: int)
    ensures IntOr(Some(NatToDecimal(n)), fallback) == if n == 0 then fallback else n
  {
    ParseIntReadsDecimal(n, "", false);
    assert "" + (NatToDecimal(n) + "") == NatToDecimal(n);
  }

  // ---------------------------------------------------------------------
  // Pagination

  /** `(page - 1) * limit` */
  function Skip(page: int, limit: int): int {
    (page - 1) * limit
  }

  /** `Math.ceil(total / limit)` for a non-zero limit (the listings never
      use 0). */
  function TotalPages(total: nat, limit: int): (r: int)
    requires limit != 0
    ensures limit > 0 ==> r >= 0 && (r - 1) * limit < total <= r * limit
    ensures limit < 0 ==> r <= 0
  {
    if limit > 0 then
      var r := (total + limit - 1) / limit;
      CeilBounds(total, limit, r);
      r
    else -(total / -limit)
  }

  lemma CeilBounds(total: nat, limit: int, r: int)
    requires limit > 0 && r == (total + limit - 1) / limit
    ensures r >= 0 && (r - 1) * limit < total <= r * limit
  {
    var m := (total + limit - 1) % limit;
    assert total + limit - 1 == r * limit + m;
    assert r * limit - limit == (r - 1) * limit;
  }

  /** With a positive limit, every item lies on exactly one of the pages
      1..totalPages, the one whose skip is at most its index and within a
      limit of it. */
  lemma PagesCoverItems(total: nat, limit: int, i: nat)
    requires limit > 0 && i < total
    ensures var p := i / limit + 1;
            && 1 <= p <= TotalPages(total, limit)
            && Skip(p, limit) <= i < Skip(p, limit) + limit
  {
    var p := i / limit + 1;
    var tp := TotalPages(total, limit);
    assert i == (i / limit) * limit + i % limit;
    assert Skip(p, limit) == (i / limit) * limit;
    MulCancel(p - 1, tp, limit);
  }

  lemma MulCancel(a: int, b: int, c: int)
    requires c > 0 && a * c < b * c
    ensures a < b
  {
    assert a * c - b * c == (a - b) * c;
  }

  /** The `pagination` block of a listing response. */
  datatype Pagination = Pagination(currentPage: int, totalPages: int, totalItems: nat, itemsPerPage: int)

  /** A listing's page window and pagination block from its raw query. */
  datatype Listing = Listing(skip: int, limit: int, pagination: Pagination)

  function ListingOf(page: Option<string>, limit: Option<string>, total: nat): (r: Listing)
    ensures r.limit == r.pagination.itemsPerPage && r.limit != 0
    ensures r.skip == (r.pagination.currentPage - 1) * r.limit
    ensures r.pagination.totalItems == total
    ensures r.pagination.currentPage == IntOr(page, DefaultPage)
    ensures r.limit == IntOr(limit, DefaultLimit)
    ensures r.pagination.totalPages == TotalPages(total, r.limit)
  {
    var p := IntOr(page, DefaultPage);
    var l := IntOr(limit, DefaultLimit);
    Listing(Skip(p, l), l, Pagination(p, TotalPages(total, l), total, l))
  }

  /** With no page or limit in the query, a listing starts at the first
      item, shows ten, and counts ceil(total/10) pages. */
  lemma DefaultListing(total: nat)
    ensures var r := ListingOf(None, None, total);
            && r.skip == 0 && r.limit == 10
            && r.pagination.currentPage == 1
            && (r.pagination.totalPages - 1) * 10 < total <= r.pagination.totalPages * 10
  {
  }

  // ---------------------------------------------------------------------
  // Queries

  /** The filter a listing hands to the database. */
  datatype ChatQuery = ChatQuery(userId: Option<string>, publicOnly: bool, status: Option<string>, anyTag: Option<seq<string>>)

  /** Database semantics of the filter: every present condition must hold,
      and `{$in: tags}` on an array field holds when the arrays share an
      element. */
  predicate Matches(c: Chat, q: ChatQuery) {
    && (q.userId.Some? ==> c.userId == q.userId.value)
    && (q.publicOnly ==> c.isPublic)
    && (q.status.Some? ==> c.status == q.status.value)
    && (q.anyTag.Some? ==> SharesTag(c.tags, q.anyTag.value))
  }

  predicate SharesTag(a: seq<string>, b: seq<string>) {
    exists i, j :: 0 <= i < |a| && 0 <= j < |b| && a[i] == b[j]
  }

  /** `getUserChats`: the user's chats, and a status filter only when one is
      given. */
  function UserChatsQuery(userId: string, status: Option<string>): (q: ChatQuery)
    ensures forall c :: Matches(c, q) <==> c.userId == userId && (Truthy(status) ==> c.status == status.value)
  {
    ChatQuery(Some(userId), false, if Truthy(status) then status else None, None)
  }

  /** `getPublicChats`: public chats, and when tags are given, those carrying
      at least one of the trimmed tags. */
  function PublicChatsQuery(tags: Option<string>): (q: ChatQuery)
    ensures forall c :: Matches(c, q) <==> c.isPublic && (Truthy(tags) ==> SharesTag(c.tags, ParseTags(tags)))
  {
    ChatQuery(None, true, None, if Truthy(tags) then Some(ParseTags(tags)) else None)
  }

  /** Adding a tag filter only narrows the public listing. */
  lemma TagFilterNarrows(c: Chat, tags: Option<string>)
    ensures Matches(c, PublicChatsQuery(tags)) ==> Matches(c, PublicChatsQuery(None))
  {
  }

  /** A public chat created with a tag string is found by the public listing
      filtered with that same string. */
  lemma CreatedChatFoundByItsTags(userId: string, prompt: Option<string>, tags: string, uploads: Uploads, c: Chat)
    requires tags != ""
    requires var d := NewChatData(prompt, Some(tags), Some(JsBool(true)), uploads);
             c.isPublic == d.isPublic && c.tags == d.tags
    ensures Matches(c, PublicChatsQuery(Some(tags)))
  {
    var parsed := ParseTags(Some(tags));
    assert c.tags[0] == parsed[0];
  }

  /** What `searchChats` does before it queries: 400 without a search text. */
  datatype SearchStart = MissingQuery(status: nat, message: string) | Search(userId: string, pattern: string)

  function StartSearch(userId: string, q: Option<string>): (r: SearchStart)
    ensures r.MissingQuery? <==> !Truthy(q)
    ensures r.MissingQuery? ==> r.status == 400 && r.message == "Search query is required"
    ensures r.Search? ==> r.userId == userId && r.pattern == q.value
  {
    if !Truthy(q) then MissingQuery(400, "Search query is required") else Search(userId, q.value)
  }

  // ---------------------------------------------------------------------
  // Creating and updating

  /** `chatData` of `createChat` before the database fills in defaults. */
  datatype ChatData = ChatData(prompt: Option<string>, promptImage: Option<string>, responseImage: Option<string>,
                               outfitImage: Option<string>, tags: seq<string>, isPublic: bool)

  /** `uploadedFiles?.field || null` */
  function OrNull(path: Option<string>): (r: Option<string>)
    ensures r.Some? <==> Truthy(path)
    ensures r.Some? ==> r == path
  {
    if Truthy(path) then path else None
  }

  function NewChatData(prompt: Option<string>, tags: Option<string>, isPublic: Option<JsValue>, uploads: Uploads): (d: ChatData)
    ensures d.tags == ParseTags(tags) && d.isPublic == ParseIsPublic(isPublic)
    ensures d.promptImage == OrNull(uploads.promptImage) && d.responseImage == OrNull(uploads.responseImage)
            && d.outfitImage == OrNull(uploads.outfitImage)
  {
    ChatData(prompt, OrNull(uploads.promptImage), OrNull(uploads.responseImage), OrNull(uploads.outfitImage),
             ParseTags(tags), ParseIsPublic(isPublic))
  }

  /** The body fields of an update request (`undefined` is `None`). */
  datatype UpdateBody = UpdateBody(prompt: Option<string>, tags: Option<string>, isPublic: Option<JsValue>, status: Option<string>)

  /** `updateData`: each field that is written, and the value it gets. */
  datatype UpdateData = UpdateData(prompt: Option<string>, tags: Option<seq<string>>, isPublic: Option<bool>,
                                   status: Option<string>, promptImage: Option<string>, responseImage: Option<string>,
                                   outfitImage: Option<string>)

  /** `updateChat`'s field selection: prompt, tags and status only when
      truthy, `isPublic` whenever it is present at all, and each image
      field when a new file for it was uploaded. */
  function UpdateFields(body: UpdateBody, uploads: Uploads): (u: UpdateData)
    ensures u.prompt.Some? <==> Truthy(body.prompt)
    ensures u.tags.Some? <==> Truthy(body.tags)
    ensures u.isPublic.Some? <==> body.isPublic.Some?
    ensures u.status.Some? <==> Truthy(body.status)
    ensures u.promptImage.Some? <==> Truthy(uploads.promptImage)
    ensures u.responseImage.Some? <==> Truthy(uploads.responseImage)
    ensures u.outfitImage.Some? <==> Truthy(uploads.outfitImage)
    ensures u.prompt.Some? ==> u.prompt == body.prompt
    ensures u.tags.Some? ==> u.tags.value == ParseTags(body.tags)
    ensures u.isPublic.Some? ==> u.isPublic.value == ParseIsPublic(body.isPublic)
    ensures u.status.Some? ==> u.status == body.status
  {
    UpdateData(if Truthy(body.prompt) then body.prompt else None,
               if Truthy(body.tags) then Some(ParseTags(body.tags)) else None,
               if body.isPublic.Some? then Some(ParseIsPublic(body.isPublic)) else None,
               if Truthy(body.status) then body.status else None,
               OrNull(uploads.promptImage), OrNull(uploads.responseImage), OrNull(uploads.outfitImage))
  }

  function Override<T>(current: T, update: Option<T>): T {
    if update.Some? then update.value else current
  }

  /** `findByIdAndUpdate(chatId, updateData)`: written fields take their
      new values, all others keep theirs. The schema's `trim` setter on
      `prompt` runs on the update, so a written prompt is stored trimmed. */
  function Apply(c: Chat, u: UpdateData): Chat {
    Chat(c.userId, Override(c.prompt, if u.prompt.Some? then Some(Trim(u.prompt.value)) else None),
         if u.promptImage.Some? then u.promptImage else c.promptImage,
         if u.responseImage.Some? then u.responseImage else c.responseImage,
         if u.outfitImage.Some? then u.outfitImage else c.outfitImage,
         Override(c.tags, u.tags), Override(c.isPublic, u.isPublic), Override(c.status, u.status))
  }

  /** An update that sends nothing leaves the chat as it was, and every
      field the request does not carry keeps its value. */
  lemma AbsentFieldsUnchanged(c: Chat, body: UpdateBody, uploads: Uploads)
    ensures var n := Apply(c, UpdateFields(body, uploads));
            && n.userId == c.userId
            && (!Truthy(body.prompt) ==> n.prompt == c.prompt)
            && (!Truthy(body.tags) ==> n.tags == c.tags)
            && (body.isPublic.None? ==> n.isPublic == c.isPublic)
            && (!Truthy(body.status) ==> n.status == c.status)
            && (!Truthy(uploads.promptImage) ==> n.promptImage == c.promptImage)
            && (!Truthy(uploads.responseImage) ==> n.responseImage == c.responseImage)
            && (!Truthy(uploads.outfitImage) ==> n.outfitImage == c.outfitImage)
  {
  }

  /** Sending the same update twice has the effect of sending it once. */
  lemma UpdateIdempotent(c: Chat, u: UpdateData)
    ensures Apply(Apply(c, u), u) == Apply(c, u)
  {
  }

  /** An explicit `isPublic: null` or `isPublic: 'false'` is written, and
      makes the chat private. */
  lemma PresentFlagMakesPrivate(c: Chat, body: UpdateBody, uploads: Uploads)
    requires body.isPublic == Some(JsNull) || body.isPublic == Some(JsString("false"))
    ensures !Apply(c, UpdateFields(body, uploads)).isPublic
  {
  }

  /** The paths `updateChat` hands to `deleteFile`: an image field's previous
      path, when a new upload replaces it. */
  function ReplacedFiles(c: Chat, uploads: Uploads): (r: seq<string>)
    ensures forall p :: p in r ==> Some(p) in [c.promptImage, c.responseImage, c.outfitImage] && p != ""
    ensures Truthy(uploads.promptImage) && Truthy(c.promptImage) ==> c.promptImage.value in r
    ensures Truthy(uploads.responseImage) && Truthy(c.responseImage) ==> c.responseImage.value in r
    ensures Truthy(uploads.outfitImage) && Truthy(c.outfitImage) ==> c.outfitImage.value in r
    ensures !Truthy(uploads.promptImage) && !Truthy(uploads.responseImage) && !Truthy(uploads.outfitImage) ==> r == []
    ensures forall p :: p in r <==>
              || (Truthy(uploads.promptImage) && Truthy(c.promptImage) && p == c.promptImage.value)
              || (Truthy(uploads.responseImage) && Truthy(c.responseImage) && p == c.responseImage.value)
              || (Truthy(uploads.outfitImage) && Truthy(c.outfitImage) && p == c.outfitImage.value)
  {
    (if Truthy(uploads.promptImage) && Truthy(c.promptImage) then [c.promptImage.value] else [])
    + (if Truthy(uploads.responseImage) && Truthy(c.responseImage) then [c.responseImage.value] else [])
    + (if Truthy(uploads.outfitImage) && Truthy(c.outfitImage) then [c.outfitImage.value] else [])
  }

  // ---------------------------------------------------------------------
  // The image URLs of the update response

  /** The URLs `updateChat` answers with, as the controller builds them:
      `getFileUrl(req, `${field}/${stored}`)`, which puts the field name
      between the host and a stored path that already starts with
      `/uploads/<field>/`. */
  function UpdatedImageUrlAsWritten(req: Req, field: string, stored: Option<string>): (r: Option<string>)
    ensures r.None? <==> !Truthy(stored)
    ensures r.Some? ==> r.value == BaseUrl(req) + field + "/" + stored.value
  {
    if Truthy(stored) then GetFileUrl(req, Some(field + "/" + stored.value)) else None
  }

  /** For a stored upload path the URL as written runs the host into the
      field name and repeats the field in the path, so it is never the URL
      that `generateURL` gives the same chat. */
  lemma AsWrittenUrlIsMalformed(req: Req, field: string, suffix: string, originalname: string, obj: JsObject)
    requires field in DefaultImageFields
    requires field in obj && obj[field] == JsString(StoredPath(field, suffix, originalname))
    ensures var stored := StoredPath(field, suffix, originalname);
            var asWritten := UpdatedImageUrlAsWritten(req, field, Some(stored));
            && asWritten == Some(BaseUrl(req) + field + "//uploads/" + field + "/" + StoredFilename(field, suffix, originalname))
            && asWritten != GetFileUrl(req, Some(stored))
            && FieldOf(GenerateURL(Some(req), Some(obj), DefaultImageFields), field) != Some(JsString(asWritten.value))
  {
    var stored := StoredPath(field, suffix, originalname);
    StoredPathUrl(req, obj, field, suffix, originalname);
    AsWrittenLonger(req, field, stored);
    AsWrittenShape(req, field, StoredFilename(field, suffix, originalname));
  }

  lemma AsWrittenShape(req: Req, field: string, f: string)
    ensures UpdatedImageUrlAsWritten(req, field, Some(UploadsPrefix + field + "/" + f))
            == Some(BaseUrl(req) + field + "//uploads/" + field + "/" + f)
  {
    assert BaseUrl(req) + field + "/" + (UploadsPrefix + field + "/" + f)
           == BaseUrl(req) + field + "//uploads/" + field + "/" + f;
  }

  /** The URL as written is longer than `getFileUrl` of the stored value by
      the field name and a slash. */
  lemma AsWrittenLonger(req: Req, field: string, stored: string)
    requires stored != ""
    ensures |UpdatedImageUrlAsWritten(req, field, Some(stored)).value| == |GetFileUrl(req, Some(stored)).value| + |field| + 1
  {
  }

  /** The URL the update response evidently means: the one `generateURL`
      gives the stored value of the field. */
  function UpdatedImageUrl(req: Req, field: string, stored: Option<string>): (r: Option<string>)
    ensures r.None? <==> !Truthy(stored)
  {
    if Truthy(stored) then Some(AbsoluteUrl(BaseUrl(req), field, stored.value)) else None
  }

  /** The corrected URL agrees with `generateURL` on every chat, and for a
      stored upload path it is exactly `getFileUrl` of that path. */
  lemma UpdatedImageUrlAgrees(req: Req, field: string, obj: JsObject)
    requires field in DefaultImageFields && field in obj && obj[field].JsString?
    ensures var stored := Some(obj[field].str);
            && (UpdatedImageUrl(req, field, stored).Some? ==>
                  FieldOf(GenerateURL(Some(req), Some(obj), DefaultImageFields), field)
                  == Some(JsString(UpdatedImageUrl(req, field, stored).value)))
            && (StartsWith(obj[field].str, UploadsPrefix) ==>
                  UpdatedImageUrl(req, field, stored) == GetFileUrl(req, stored))
  {
    DefaultFieldsDistinct();
  }

  /** The image URLs of an update response. */
  datatype ImageUrls = ImageUrls(promptImageUrl: Option<string>, responseImageUrl: Option<string>, outfitImageUrl: Option<string>)

  /** The database-facing part of `updateChat` for a chat the user owns: the
      updated chat, the files it replaces, and the image URLs it answers
      with. */
  datatype UpdateResult = UpdateResult(chat: Chat, deleted: seq<string>, urls: ImageUrls)

  /** `updateChat` as written: the answered URLs come from
      `getFileUrl(req, `${field}/${stored}`)`. */
  function UpdateChat(req: Req, c: Chat, body: UpdateBody, uploads: Uploads): (r: UpdateResult)
    ensures r.chat == Apply(c, UpdateFields(body, uploads))
    ensures Truthy(body.prompt) ==> r.chat.prompt == Trim(body.prompt.value)
    ensures !Truthy(body.prompt) ==> r.chat.prompt == c.prompt
    ensures r.deleted == ReplacedFiles(c, uploads)
    ensures r.urls.promptImageUrl.Some? <==> Truthy(r.chat.promptImage)
    ensures r.urls.responseImageUrl.Some? <==> Truthy(r.chat.responseImage)
    ensures r.urls.outfitImageUrl.Some? <==> Truthy(r.chat.outfitImage)
    ensures Truthy(r.chat.promptImage) ==>
              r.urls.promptImageUrl.value == BaseUrl(req) + "promptImage/" + r.chat.promptImage.value
    ensures Truthy(r.chat.responseImage) ==>
              r.urls.responseImageUrl.value == BaseUrl(req) + "responseImage/" + r.chat.responseImage.value
    ensures Truthy(r.chat.outfitImage) ==>
              r.urls.outfitImageUrl.value == BaseUrl(req) + "outfitImage/" + r.chat.outfitImage.value
  {
    var n := Apply(c, UpdateFields(body, uploads));
    UpdateResult(n, ReplacedFiles(c, uploads), AsWrittenUrls(req, n))
  }

  function AsWrittenUrls(req: Req, n: Chat): (u: ImageUrls)
    ensures u.promptImageUrl.Some? <==> Truthy(n.promptImage)
    ensures u.responseImageUrl.Some? <==> Truthy(n.responseImage)
    ensures u.outfitImageUrl.Some? <==> Truthy(n.outfitImage)
    ensures Truthy(n.promptImage) ==> u.promptImageUrl.value == BaseUrl(req) + "promptImage/" + n.promptImage.value
    ensures Truthy(n.responseImage) ==> u.responseImageUrl.value == BaseUrl(req) + "responseImage/" + n.responseImage.value
    ensures Truthy(n.outfitImage) ==> u.outfitImageUrl.value == BaseUrl(req) + "outfitImage/" + n.outfitImage.value
  {
    ImageUrls(UpdatedImageUrlAsWritten(req, "promptImage", n.promptImage),
              UpdatedImageUrlAsWritten(req, "responseImage", n.responseImage),
              UpdatedImageUrlAsWritten(req, "outfitImage", n.outfitImage))
  }

  /** `updateChat` with the URLs it evidently means: the same chat and the
      same deleted files, and for every stored upload path the URL that
      `getFileUrl` gives it. */
  function CorrectedUpdateChat(req: Req, c: Chat, body: UpdateBody, uploads: Uploads): (r: UpdateResult)
    ensures r.chat == UpdateChat(req, c, body, uploads).chat
    ensures r.deleted == UpdateChat(req, c, body, uploads).deleted
    ensures r.urls.promptImageUrl.Some? <==> Truthy(r.chat.promptImage)
    ensures r.urls.responseImageUrl.Some? <==> Truthy(r.chat.responseImage)
    ensures r.urls.outfitImageUrl.Some? <==> Truthy(r.chat.outfitImage)
    ensures Truthy(r.chat.promptImage) && StartsWith(r.chat.promptImage.value, UploadsPrefix) ==>
              r.urls.promptImageUrl == GetFileUrl(req, r.chat.promptImage)
    ensures Truthy(r.chat.responseImage) && StartsWith(r.chat.responseImage.value, UploadsPrefix) ==>
              r.urls.responseImageUrl == GetFileUrl(req, r.chat.responseImage)
    ensures Truthy(r.chat.outfitImage) && StartsWith(r.chat.outfitImage.value, UploadsPrefix) ==>
              r.urls.outfitImageUrl == GetFileUrl(req, r.chat.outfitImage)
  {
    var n := Apply(c, UpdateFields(body, uploads));
    UpdateResult(n, ReplacedFiles(c, uploads), CorrectedUrls(req, n))
  }

  function CorrectedUrls(req: Req, n: Chat): (u: ImageUrls)
    ensures u.promptImageUrl.Some? <==> Truthy(n.promptImage)
    ensures u.responseImageUrl.Some? <==> Truthy(n.responseImage)
    ensures u.outfitImageUrl.Some? <==> Truthy(n.outfitImage)
    ensures Truthy(n.promptImage) && StartsWith(n.promptImage.value, UploadsPrefix) ==>
              u.promptImageUrl == GetFileUrl(req, n.promptImage)
    ensures Truthy(n.responseImage) && StartsWith(n.responseImage.value, UploadsPrefix) ==>
              u.responseImageUrl == GetFileUrl(req, n.responseImage)
    ensures Truthy(n.outfitImage) && StartsWith(n.outfitImage.value, UploadsPrefix) ==>
              u.outfitImageUrl == GetFileUrl(req, n.outfitImage)
  {
    ImageUrls(UpdatedImageUrl(req, "promptImage", n.promptImage),
              UpdatedImageUrl(req, "responseImage", n.responseImage),
              UpdatedImageUrl(req, "outfitImage", n.outfitImage))
  }

  /** The values the schema's `status` enum allows. */
  const StatusValues: seq<string> := ["pending", "processing", "completed", "failed"]

  /** `runValidators` refuses an update that writes a `status` outside the enum. */
  predicate ViolatesStatusEnum(u: UpdateData) {
    u.status.Some? && u.status.value !in StatusValues
  }

  /** What `findOne({ _id: chatId, userId })` gave: it threw (a malformed
      `chatId` is a cast error), found nothing the user owns, or found the
      chat. */
  datatype ChatLookup = LookupThrew | Missing | Owned(chat: Chat)

  /** How `updateChat` ends: 500 when the lookup throws, before anything
      is deleted; 404 when the user owns no such chat; 500 when the update
      throws, after the old files were already handed to `deleteFile` and
      with the stored chat as it was; otherwise the update. */
  datatype UpdateOutcome =
    | LookupFailed
    | NotFound
    | UpdateFailed(stored: Chat, deleted: seq<string>)
    | Updated(result: UpdateResult)

  /** The HTTP status `updateChat` answers with. */
  function StatusCode(o: UpdateOutcome): int {
    match o
    case LookupFailed => 500
    case NotFound => 404
    case UpdateFailed(_, _) => 500
    case Updated(_) => 200
  }

  /** The paths a run of `updateChat` handed to `deleteFile`. */
  function HandedToDelete(o: UpdateOutcome): seq<string> {
    match o
    case LookupFailed => []
    case NotFound => []
    case UpdateFailed(_, deleted) => deleted
    case Updated(result) => result.deleted
  }

  /** `updateChat` with its error paths. The validated `findByIdAndUpdate`
      throws when the written status is outside the enum, or when
      `storeThrows` (any other validation or database failure). */
  function UpdateChatRun(req: Req, lookup: ChatLookup, body: UpdateBody, uploads: Uploads, storeThrows: bool): (r: UpdateOutcome)
    ensures r.LookupFailed? <==> lookup.LookupThrew?
    ensures r.NotFound? <==> lookup.Missing?
    ensures lookup.Owned? ==>
              (r.UpdateFailed? <==> storeThrows || ViolatesStatusEnum(UpdateFields(body, uploads)))
    ensures !lookup.Owned? ==> HandedToDelete(r) == [] && StatusCode(r) != 200
    ensures lookup.Owned? ==> HandedToDelete(r) == ReplacedFiles(lookup.chat, uploads)
    ensures r.UpdateFailed? ==> r.stored == lookup.chat && StatusCode(r) == 500
    ensures r.Updated? ==> r.result == UpdateChat(req, lookup.chat, body, uploads)
    ensures r.Updated? ==> r.result.chat.status in StatusValues || r.result.chat.status == lookup.chat.status
  {
    match lookup
    case LookupThrew => LookupFailed
    case Missing => NotFound
    case Owned(c) =>
      var u := UpdateFields(body, uploads);
      if storeThrows || ViolatesStatusEnum(u) then UpdateFailed(c, ReplacedFiles(c, uploads))
      else Updated(UpdateChat(req, c, body, uploads))
  }

  /** An update with a status outside the enum answers 500, yet the files
      it replaces were already handed to `deleteFile`: the chat keeps
      pointing at them. */
  lemma BadStatusStillDeletes(req: Req, c: Chat, body: UpdateBody, uploads: Uploads, storeThrows: bool)
    requires Truthy(body.status) && body.status.value !in StatusValues
    requires Truthy(uploads.promptImage) && Truthy(c.promptImage)
    ensures var r := UpdateChatRun(req, Owned(c), body, uploads, storeThrows);
            && r.UpdateFailed? && StatusCode(r) == 500 && r.stored.promptImage == c.promptImage
            && c.promptImage.value in HandedToDelete(r)
  {
  }

  /** A freshly uploaded prompt image is answered, as written, with the
      malformed URL; the corrected update answers with the URL of its
      stored path. */
  lemma UploadedImageUrl(req: Req, c: Chat, body: UpdateBody, uploads: Uploads, suffix: string, originalname: string)
    requires uploads.promptImage == Some(StoredPath("promptImage", suffix, originalname))
    ensures UpdateChat(req, c, body, uploads).urls.promptImageUrl
            == Some(BaseUrl(req) + "promptImage" + "//uploads/" + "promptImage" + "/" + StoredFilename("promptImage", suffix, originalname))
    ensures CorrectedUpdateChat(req, c, body, uploads).urls.promptImageUrl == GetFileUrl(req, uploads.promptImage)
  {
    var p := StoredPath("promptImage", suffix, originalname);
    assert Truthy(uploads.promptImage);
    assert StartsWith(p, UploadsPrefix);
    AsWrittenShape(req, "promptImage", StoredFilename("promptImage", suffix, originalname));
  }
}

=== FILE: common.dfy ===
/** Shared vocabulary: optional values, JavaScript truthiness of optional
    strings, and the handful of JavaScript string operations the application
    relies on (startsWith, includes, toLowerCase, split, trim, decimal
    rendering of a counter). */
module Common {

  /** A value that may be absent (`undefined` or `null` on the JavaScript side). */
  datatype Option<+T> = None | Some(value: T)

  /** What one renderer call comes back with: the image as a `data:` URL, or
      the text of the thrown error (`err.toString()`). */
  datatype Outcome = Rendered(imageDataUrl: string) | Failed(message: string)

  /** The first `m` renderer calls all succeeded. */
  ghost predicate RenderedBefore(render: nat -> Outcome, m: int) {
    forall j :: 0 <= j < m ==> render(j).Rendered?
  }

  /** An image the user picked (`ImageFile`); its contents never matter here. */
  datatype ImageFile = ImageFile(previewUrl: string)

  /** A JSON / JavaScript value as far as this application inspects it. */
  datatype JsValue = JsString(str: string) | JsBool(flag: bool) | JsNumber(number: int) | JsNull | JsOther

  /** A plain JavaScript object: its own keys and their values (`undefined`
      is a missing key). */
  type JsObject = map<string, JsValue>

  /** JavaScript truthiness of a possibly absent string: present and non-empty. */
  predicate Truthy(o: Option<string>) {
    o.Some? && o.value != ""
  }

  /** `s.startsWith(prefix)` */
  predicate StartsWith(s: string, prefix: string) {
    |prefix| <= |s| && s[..|prefix|] == prefix
  }

  /** `s.includes(sub)`: `sub` occurs somewhere in `s`. */
  predicate Contains(s: string, sub: string)
    decreases |s|
  {
    StartsWith(s, sub) || (|s| > 0 && Contains(s[1..], sub))
  }

  /** Occurrence at an explicit position, the reference reading of `Contains`. */
  predicate OccursAt(s: string, sub: string, i: nat) {
    i + |sub| <= |s| && s[i..i + |sub|] == sub
  }

  /** `Contains` agrees with "there is a position where `sub` occurs". */
  lemma {:induction false} ContainsIffOccurs(s: string, sub: string)
    ensures Contains(s, sub) <==> exists i: nat :: OccursAt(s, sub, i)
    decreases |s|
  {
    if StartsWith(s, sub) {
      assert OccursAt(s, sub, 0);
    } else if |s| == 0 {
      assert |sub| > 0;
    } else {
      ContainsIffOccurs(s[1..], sub);
      if Contains(s[1..], sub) {
        var i: nat :| OccursAt(s[1..], sub, i);
        assert i + 1 + |sub| <= |s|;
        forall k | 0 <= k < |sub| ensures s[i + 1 + k] == sub[k] {
          assert s[1..][i..i + |sub|][k] == sub[k];
        }
        assert s[i + 1..i + 1 + |sub|] == sub;
        assert OccursAt(s, sub, i + 1);
      } else {
        forall i: nat ensures !OccursAt(s, sub, i) {
          if i == 0 {
            assert OccursAt(s, sub, 0) <==> StartsWith(s, sub);
          } else if i + |sub| <= |s| {
            assert s[1..][i - 1..i - 1 + |sub|] == s[i..i + |sub|];
            assert OccursAt(s, sub, i) <==> OccursAt(s[1..], sub, i - 1);
          }
        }
      }
    }
  }

  /** A string that lacks the first character of a non-empty `sub` does not
      contain `sub`. */
  lemma {:induction false} AbsentFirstChar(s: string, sub: string)
    requires |sub| > 0 && sub[0] !in s
    ensures !Contains(s, sub)
    decreases |s|
  {
    if |s| > 0 {
      assert s[0] != sub[0];
      assert sub[0] !in s[1..];
      AbsentFirstChar(s[1..], sub);
    }
  }

  /** Text around an occurrence does not hide it. */
  lemma ContainsWithin(a: string, t: string, b: string, sub: string)
    requires Contains(t, sub)
    ensures Contains(a + t + b, sub)
  {
    ContainsIffOccurs(t, sub);
    var i: nat :| OccursAt(t, sub, i);
    var s := a + t + b;
    forall k | 0 <= k < |sub| ensures s[|a| + i + k] == sub[k] {
      assert s[|a| + i + k] == t[i + k];
      assert t[i..i + |sub|][k] == sub[k];
    }
    assert s[|a| + i..|a| + i + |sub|] == sub;
    assert OccursAt(s, sub, |a| + i);
    ContainsIffOccurs(s, sub);
  }

  /** The converse of `ContainsWithin` for a one-character closing text: an
      occurrence in `a + t + [q]` lies inside `t` when `a` lacks the first
      character of `sub` and `sub` lacks `q`. */
  lemma ContainsOnlyWithin(a: string, t: string, q: char, sub: string)
    requires |sub| > 0 && sub[0] !in a && q !in sub
    requires Contains(a + t + [q], sub)
    ensures Contains(t, sub)
  {
    var s := a + t + [q];
    ContainsIffOccurs(s, sub);
    var i: nat :| OccursAt(s, sub, i);
    assert forall k :: 0 <= k < |sub| ==> s[i + k] == sub[k] by {
      forall k | 0 <= k < |sub| ensures s[i + k] == sub[k] {
        assert s[i..i + |sub|][k] == sub[k];
      }
    }
    assert i >= |a| by {
      assert s[i] == sub[0];
    }
    assert i + |sub| <= |a| + |t| by {
      assert s[|a| + |t|] == q;
      assert forall k :: 0 <= k < |sub| ==> sub[k] != q;
    }
    forall k | 0 <= k < |sub| ensures t[i - |a| + k] == sub[k] {
      assert s[i + k] == t[i - |a| + k];
    }
    assert t[i - |a|..i - |a| + |sub|] == sub;
    assert OccursAt(t, sub, i - |a|);
    ContainsIffOccurs(t, sub);
  }

  /** ASCII part of `String.prototype.toLowerCase`. */
  function LowerChar(c: char): char {
    if 'A' <= c <= 'Z' then (c as int + 32) as char else c
  }

  /** `s.toLowerCase()` on the ASCII letters; every other character is kept. */
  function ToLower(s: string): (r: string)
    ensures |r| == |s|
    ensures forall i :: 0 <= i < |s| ==> r[i] == LowerChar(s[i])
  {
    seq(|s|, i requires 0 <= i < |s| => LowerChar(s[i]))
  }

  /** Lower-casing keeps every occurrence, lower-cased: `s.toLowerCase()`
      contains `sub.toLowerCase()` wherever `s` contains `sub`. */
  lemma ContainsToLower(s: string, sub: string)
    requires Contains(s, sub)
    ensures Contains(ToLower(s), ToLower(sub))
  {
    ContainsIffOccurs(s, sub);
    var i: nat :| OccursAt(s, sub, i);
    var ls, lsub := ToLower(s), ToLower(sub);
    forall k | 0 <= k < |lsub| ensures ls[i + k] == lsub[k] {
      assert s[i..i + |sub|][k] == sub[k];
    }
    assert ls[i..i + |lsub|] == lsub;
    assert OccursAt(ls, lsub, i);
    ContainsIffOccurs(ls, lsub);
  }

  /** The characters `String.prototype.trim` removes: ECMAScript WhiteSpace
      and LineTerminator code points. */
  predicate IsWhitespace(c: char) {
    var n := c as int;
    n == 0x09 || n == 0x0A || n == 0x0B || n == 0x0C || n == 0x0D || n == 0x20
    || n == 0xA0 || n == 0x1680 || (0x2000 <= n <= 0x200A)
    || n == 0x2028 || n == 0x2029 || n == 0x202F || n == 0x205F
    || n == 0x3000 || n == 0xFEFF
  }

  /** Number of whitespace characters at the start of `s`. */
  function LeadingSpace(s: string): (n: nat)
    ensures n <= |s| && forall k :: 0 <= k < n ==> IsWhitespace(s[k])
    ensures n < |s| ==> !IsWhitespace(s[n])
  {
    if |s| > 0 && IsWhitespace(s[0]) then
      var m := LeadingSpace(s[1..]);
      assert forall k :: 1 <= k < m + 1 ==> s[k] == s[1..][k - 1];
      m + 1
    else 0
  }

  /** Number of whitespace characters at the end of `s`. */
  function TrailingSpace(s: string): (n: nat)
    ensures n <= |s| && forall k :: |s| - n <= k < |s| ==> IsWhitespace(s[k])
    ensures n < |s| ==> !IsWhitespace(s[|s| - n - 1])
  {
    if |s| > 0 && IsWhitespace(s[|s| - 1]) then
      var m := TrailingSpace(s[..|s| - 1]);
      assert forall k :: |s| - 1 - m <= k < |s| - 1 ==> s[k] == s[..|s| - 1][k];
      m + 1
    else 0
  }

  /** `s.trimStart()` */
  function TrimStart(s: string): string {
    s[LeadingSpace(s)..]
  }

  /** `s.trim()`: the piece between the leading and the trailing whitespace
      (empty when `s` is all whitespace). */
  function Trim(s: string): string {
    var i := LeadingSpace(s);
    var j := |s| - TrailingSpace(s);
    if j <= i then "" else s[i..j]
  }

  /** What `trim` keeps is the piece of `s` between two cuts, everything it
      cuts away is whitespace, and what it keeps neither starts nor ends with
      whitespace. */
  lemma TrimSlice(s: string)
    ensures exists i, j ::
              && 0 <= i <= j <= |s| && Trim(s) == s[i..j]
              && (forall k :: 0 <= k < i ==> IsWhitespace(s[k]))
              && (forall k :: j <= k < |s| ==> IsWhitespace(s[k]))
    ensures var r := Trim(s); |r| > 0 ==> !IsWhitespace(r[0]) && !IsWhitespace(r[|r| - 1])
  {
    var i := LeadingSpace(s);
    var j := |s| - TrailingSpace(s);
    if j <= i {
      assert Trim(s) == s[i..i];
    } else {
      assert Trim(s) == s[i..j];
    }
  }

  /** Trimming cannot bring in a character. */
  lemma TrimKeepsAbsence(s: string, c: char)
    requires c !in s
    ensures c !in Trim(s)
  {
    var i := LeadingSpace(s);
    var j := |s| - TrailingSpace(s);
    if i < j {
      var r := s[i..j];
      forall k | 0 <= k < |r| ensures r[k] != c {
        assert r[k] == s[i + k];
      }
    }
  }

  /** Trimming a trimmed string changes nothing. */
  lemma TrimIdempotent(s: string)
    ensures Trim(Trim(s)) == Trim(s)
  {
    var r := Trim(s);
    if |r| > 0 {
      TrimSlice(s);
      assert LeadingSpace(r) == 0;
      assert TrailingSpace(r) == 0;
      assert r[0..|r|] == r;
    }
  }

  /** `s.split(sep)` for a one-character separator: the pieces between
      separators, in order, empty pieces included. */
  function Split(s: string, sep: char): (r: seq<string>)
    ensures |r| >= 1
    ensures forall j :: 0 <= j < |r| ==> sep !in r[j]
    decreases |s|
  {
    if |s| == 0 then [""]
    else if s[0] == sep then [""] + Split(s[1..], sep)
    else
      var rest := Split(s[1..], sep);
      [[s[0]] + rest[0]] + rest[1..]
  }

  /** `parts.join(sep)` */
  function Join(parts: seq<string>, sep: char): string
    requires |parts| >= 1
    decreases |parts|
  {
    if |parts| == 1 then parts[0] else parts[0] + [sep] + Join(parts[1..], sep)
  }

  /** Splitting loses nothing: joining the pieces back gives the input. */
  lemma {:induction false} JoinSplit(s: string, sep: char)
    ensures Join(Split(s, sep), sep) == s
    decreases |s|
  {
    if |s| == 0 {
    } else if s[0] == sep {
      JoinSplit(s[1..], sep);
      assert [sep] + s[1..] == s;
    } else {
      var rest := Split(s[1..], sep);
      JoinSplit(s[1..], sep);
      if |rest| == 1 {
        assert [s[0]] + rest[0] == s;
      } else {
        var r := [[s[0]] + rest[0]] + rest[1..];
        assert r[1..] == rest[1..];
        assert Join(rest, sep) == rest[0] + [sep] + Join(rest[1..], sep);
        assert [s[0]] + s[1..] == s;
      }
    }
  }

  /** Splitting a join of separator-free pieces gives the pieces back. */
  lemma {:induction false} SplitJoin(parts: seq<string>, sep: char)
    requires |parts| >= 1
    requires forall j :: 0 <= j < |parts| ==> sep !in parts[j]
    ensures Split(Join(parts, sep), sep) == parts
    decreases |parts|, |parts[0]|
  {
    var p := parts[0];
    if |p| == 0 {
      if |parts| == 1 {
      } else {
        SplitJoin(parts[1..], sep);
        assert Join(parts, sep) == [sep] + Join(parts[1..], sep);
        assert ([sep] + Join(parts[1..], sep))[1..] == Join(parts[1..], sep);
        assert [""] + parts[1..] == parts;
      }
    } else {
      var tail := [p[1..]] + parts[1..];
      assert tail[1..] == parts[1..];
      assert forall j :: 0 <= j < |tail| ==> sep !in tail[j];
      SplitJoin(tail, sep);
      assert Join(parts, sep) == [p[0]] + Join(tail, sep) by {
        if |parts| == 1 {
          assert p == [p[0]] + p[1..];
        } else {
          assert Join(tail, sep) == p[1..] + [sep] + Join(parts[1..], sep);
          assert p == [p[0]] + p[1..];
        }
      }
      var s := Join(parts, sep);
      assert s[0] == p[0] && s[0] != sep;
      assert s[1..] == Join(tail, sep);
      assert [p[0]] + p[1..] == p;
      assert [[s[0]] + tail[0]] + tail[1..] == parts;
    }
  }

  /** Number of occurrences of `c` in `s`. */
  function Count(s: string, c: char): nat {
    if |s| == 0 then 0 else (if s[0] == c then 1 else 0) + Count(s[1..], c)
  }

  /** `s.split(sep)` yields one more piece than there are separators. */
  lemma {:induction false} SplitLength(s: string, sep: char)
    ensures |Split(s, sep)| == Count(s, sep) + 1
    decreases |s|
  {
    if |s| > 0 {
      SplitLength(s[1..], sep);
    }
  }

  function DigitChar(d: nat): char
    requires d < 10
  {
    ('0' as int + d) as char
  }

  /** Decimal rendering of a natural number, as a template literal prints it. */
  function NatToDecimal(n: nat): (r: string)
    ensures |r| >= 1
    ensures forall i :: 0 <= i < |r| ==> '0' <= r[i] <= '9'
  {
    if n < 10 then [DigitChar(n)] else NatToDecimal(n / 10) + [DigitChar(n % 10)]
  }
}

=== FILE: quota.dfy ===
/** The daily chat quota: the allow/deny decision from a user's active
    subscription and today's usage count, how the middleware turns the
    decision into a response, the subscription summary, and the creation of
    a subscription (which retires the user's earlier ones). Database reads
    are inputs: a value, or `Threw` when the query failed. */
module Quota {
  import opened Common

  /** The outcome of a database query: its value, or a thrown error. */
  datatype Fallible<T> = Got(value: T) | Threw

  /** A `Subscription` plan. */
  datatype Plan = Plan(id: nat, planName: string, dailyLimit: nat, isActive: bool)

  /** A `UserSubscription` record; `limit` is at least 0 by the schema. */
  datatype UserSubscription = UserSubscription(userId: nat, planName: string, paymentId: string, planId: nat,
                                               limit: nat, isActive: bool)

  /** The result object of `canMakeChatRequest`; `reason` is present on a
      deny, `remaining` only on an allow. */
  datatype LimitCheck = LimitCheck(canMakeRequest: bool, reason: Option<string>, currentUsage: nat, limit: nat,
                                   remaining: Option<int>, planName: string)

  /** A chat record, as far as the usage count looks at it. */
  datatype Chat = Chat(userId: nat, createdAt: int)

  const NoSubscriptionReason := "No active subscription found"
  const LimitReachedReason := "Daily limit reached"
  const CheckFailedReason := "Error checking limits"

  /** The default plans and their daily limits. */
  const DefaultPlans: seq<(string, nat)> := [("Basic", 5), ("Balanced", 50), ("Advanced", 100)]

  /** `findOne({ userId, isActive: true })`: an active subscription of the user, if any. */
  function ActiveSubscription(store: seq<UserSubscription>, userId: nat): (r: Option<UserSubscription>)
    ensures r.Some? ==> r.value in store && r.value.userId == userId && r.value.isActive
    ensures r.None? ==> forall s :: s in store ==> !(s.userId == userId && s.isActive)
  {
    if |store| == 0 then None
    else if store[0].userId == userId && store[0].isActive then Some(store[0])
    else ActiveSubscription(store[1..], userId)
  }

  /** The chats of `userId` created in the half-open window `[from, to)`. */
  function UsageIn(chats: seq<Chat>, userId: nat, from: int, to: int): nat {
    if |chats| == 0 then 0
    else (if chats[0].userId == userId && from <= chats[0].createdAt < to then 1 else 0)
         + UsageIn(chats[1..], userId, from, to)
  }

  /** Adjacent windows split the count with nothing counted twice or lost:
      a chat created exactly at midnight belongs to the new day only. */
  lemma {:induction false} UsageWindowsSplit(chats: seq<Chat>, userId: nat, a: int, b: int, c: int)
    requires a <= b <= c
    ensures UsageIn(chats, userId, a, c) == UsageIn(chats, userId, a, b) + UsageIn(chats, userId, b, c)
    decreases |chats|
  {
    if |chats| > 0 {
      UsageWindowsSplit(chats[1..], userId, a, b, c);
    }
  }

  /** `getTodayUsage`: the count, or 0 when the count query fails. */
  function TodayUsage(count: Fallible<nat>): (r: nat)
    ensures count.Got? ==> r == count.value
    ensures count.Threw? ==> r == 0
  {
    match count
    case Got(n) => n
    case Threw => 0
  }

  /** `canMakeChatRequest`: deny without a subscription, deny at or over the
      limit, otherwise allow with the remaining count; any failure of the
      subscription lookup denies (the usage count never fails: it falls back
      to 0). `count` is the query over today's window. */
  function CanMakeChatRequest(subscription: Fallible<Option<UserSubscription>>, count: Fallible<nat>): (r: LimitCheck)
    ensures r.canMakeRequest <==>
              subscription.Got? && subscription.value.Some? && TodayUsage(count) < subscription.value.value.limit
    ensures r.canMakeRequest ==>
              && r.reason.None? && r.remaining.Some?
              && r.remaining.value >= 1 && r.currentUsage + r.remaining.value == r.limit
              && r.limit == subscription.value.value.limit && r.planName == subscription.value.value.planName
    ensures !r.canMakeRequest ==> r.remaining.None? && r.reason.Some?
    ensures subscription.Threw? ==> r == LimitCheck(false, Some(CheckFailedReason), 0, 0, None, "Unknown")
    ensures subscription == Got(None) ==> r == LimitCheck(false, Some(NoSubscriptionReason), 0, 0, None, "None")
    ensures subscription.Got? && subscription.value.Some? && !r.canMakeRequest ==>
              && r.reason == Some(LimitReachedReason)
              && r.currentUsage == TodayUsage(count) >= r.limit == subscription.value.value.limit
  {
    match subscription
    case Threw => LimitCheck(false, Some(CheckFailedReason), 0, 0, None, "Unknown")
    case Got(None) => LimitCheck(false, Some(NoSubscriptionReason), 0, 0, None, "None")
    case Got(Some(s)) =>
      var usage := TodayUsage(count);
      if usage >= s.limit then LimitCheck(false, Some(LimitReachedReason), usage, s.limit, None, s.planName)
      else LimitCheck(true, None, usage, s.limit, Some(s.limit - usage), s.planName)
  }

  /** A plan with a zero limit denies every request. */
  lemma ZeroLimitAlwaysDenies(s: UserSubscription, count: Fallible<nat>)
    requires s.limit == 0
    ensures !CanMakeChatRequest(Got(Some(s)), count).canMakeRequest
  {
  }

  /** A failing usage count fails open: it reads as no usage at all. */
  lemma UsageFailureFailsOpen(s: UserSubscription)
    ensures CanMakeChatRequest(Got(Some(s)), Threw).canMakeRequest <==> s.limit > 0
  {
  }

  /** Allowing is monotone: less usage never turns an allow into a deny. */
  lemma AllowMonotone(s: UserSubscription, fewer: nat, more: nat)
    requires fewer <= more
    ensures CanMakeChatRequest(Got(Some(s)), Got(more)).canMakeRequest
            ==> CanMakeChatRequest(Got(Some(s)), Got(fewer)).canMakeRequest
  {
  }

  /** `req.limitInfo`, or the `data` of a deny response. */
  datatype LimitInfo = LimitInfo(currentUsage: nat, limit: nat, remaining: Option<int>, planName: string)

  /** What a middleware does: call `next` with the information it installed,
      or answer with a status, message, error code and optional data. */
  datatype Gate = Next(info: LimitInfo) | Block(status: nat, message: string, error: string, data: Option<LimitInfo>)

  /** `x || 0` on an optional number. */
  function OrZero(x: Option<int>): (r: int)
    ensures x.Some? && x.value != 0 ==> r == x.value
    ensures x.None? || x.value == 0 ==> r == 0
  {
    if x.Some? && x.value != 0 then x.value else 0
  }

  /** `checkChatLimit`: a deny answers 429 with the reason; an allow installs
      the limit information and calls `next`; a thrown error answers 500. */
  function CheckChatLimit(check: Fallible<LimitCheck>): (g: Gate)
    ensures check.Threw? ==> g == Block(500, "Error checking usage limits", "INTERNAL_ERROR", None)
    ensures check.Got? && !check.value.canMakeRequest ==>
              var c := check.value;
              && g.Block? && g.status == 429 && g.error == "DAILY_LIMIT_EXCEEDED"
              && g.message == (if c.reason.Some? then c.reason.value else "")
              && g.data == Some(LimitInfo(c.currentUsage, c.limit, Some(OrZero(c.remaining)), c.planName))
    ensures check.Got? && check.value.canMakeRequest ==>
              var c := check.value;
              g == Next(LimitInfo(c.currentUsage, c.limit, c.remaining, c.planName))
  {
    match check
    case Threw => Block(500, "Error checking usage limits", "INTERNAL_ERROR", None)
    case Got(c) =>
      if !c.canMakeRequest then
        Block(429, if c.reason.Some? then c.reason.value else "", "DAILY_LIMIT_EXCEEDED",
              Some(LimitInfo(c.currentUsage, c.limit, Some(OrZero(c.remaining)), c.planName)))
      else Next(LimitInfo(c.currentUsage, c.limit, c.remaining, c.planName))
  }

  /** With the decision of `CanMakeChatRequest`, the middleware lets a
      request through exactly when the decision allows it, never answers
      500, and every 429 reports `remaining` as 0 with the decision's reason. */
  lemma ChatLimitGate(subscription: Fallible<Option<UserSubscription>>, count: Fallible<nat>)
    ensures var c := CanMakeChatRequest(subscription, count);
            var g := CheckChatLimit(Got(c));
            && (g.Next? <==> c.canMakeRequest)
            && (g.Next? ==> g.info.remaining.Some? && g.info.remaining.value >= 1)
            && (g.Block? ==> g.status == 429 && g.data.Some? && g.data.value.remaining == Some(0)
                             && Some(g.message) == c.reason)
  {
  }

  /** `getUserSubscriptionDetails`; `remaining` is not clamped. */
  datatype Details = Details(hasSubscription: bool, planName: string, limit: nat, currentUsage: nat, remaining: int)

  function SubscriptionDetails(subscription: Fallible<Option<UserSubscription>>, count: Fallible<nat>): (r: Fallible<Details>)
    ensures subscription.Threw? ==> r.Threw?
    ensures subscription == Got(None) ==> r == Got(Details(false, "None", 0, 0, 0))
    ensures subscription.Got? && subscription.value.Some? ==>
              && r.Got? && r.value.hasSubscription
              && r.value.currentUsage == TodayUsage(count)
              && r.value.remaining + r.value.currentUsage == r.value.limit == subscription.value.value.limit
  {
    match subscription
    case Threw => Threw
    case Got(None) => Got(Details(false, "None", 0, 0, 0))
    case Got(Some(s)) =>
      var usage := TodayUsage(count);
      Got(Details(true, s.planName, s.limit, usage, s.limit - usage))
  }

  /** Over the limit, the summary reports a negative `remaining`, where the
      decision simply denies. */
  lemma DetailsRemainingUnclamped(s: UserSubscription, usage: nat)
    requires usage > s.limit
    ensures SubscriptionDetails(Got(Some(s)), Got(usage)).value.remaining < 0
    ensures !CanMakeChatRequest(Got(Some(s)), Got(usage)).canMakeRequest
  {
  }

  /** `getUserSubscriptionInfo`: never blocks; a failure installs a zero
      summary with plan name `Unknown`. */
  function SubscriptionInfo(details: Fallible<Details>): (r: Details)
    ensures details.Got? ==> r == details.value
    ensures details.Threw? ==> !r.hasSubscription && r.planName == "Unknown" && r.limit == 0 && r.currentUsage == 0 && r.remaining == 0
  {
    match details
    case Got(d) => d
    case Threw => Details(false, "Unknown", 0, 0, 0)
  }

  /** Every user has at most one active subscription. */
  predicate AtMostOneActive(store: seq<UserSubscription>) {
    forall i, j :: 0 <= i < j < |store| && store[i].isActive && store[j].isActive ==> store[i].userId != store[j].userId
  }

  /** `Subscription.findOne({ planName, isActive: true })` */
  function FindPlan(plans: seq<Plan>, planName: string): (r: Option<Plan>)
    ensures r.Some? ==> r.value in plans && r.value.planName == planName && r.value.isActive
    ensures r.None? ==> forall p :: p in plans ==> !(p.planName == planName && p.isActive)
  {
    if |plans| == 0 then None
    else if plans[0].planName == planName && plans[0].isActive then Some(plans[0])
    else FindPlan(plans[1..], planName)
  }

  /** `updateMany({ userId, isActive: true }, { isActive: false })` */
  function Deactivate(store: seq<UserSubscription>, userId: nat): (r: seq<UserSubscription>)
    ensures |r| == |store|
    ensures forall i :: 0 <= i < |r| ==>
              r[i] == if store[i].userId == userId then store[i].(isActive := false) else store[i]
  {
    seq(|store|, i requires 0 <= i < |store| =>
      if store[i].userId == userId then store[i].(isActive := false) else store[i])
  }

  /** `createUserSubscription`: an unknown plan is an error before anything
      is written; otherwise every active subscription of the user is retired
      and the new one, with the plan's daily limit, is added. */
  function CreateUserSubscription(store: seq<UserSubscription>, plans: seq<Plan>, userId: nat,
                                  planName: string, paymentId: string): (r: Option<seq<UserSubscription>>)
    ensures r.None? <==> FindPlan(plans, planName).None?
    ensures r.Some? ==>
              && |r.value| == |store| + 1
              && r.value[|store|] == UserSubscription(userId, planName, paymentId, FindPlan(plans, planName).value.id,
                                                      FindPlan(plans, planName).value.dailyLimit, true)
              && (forall i :: 0 <= i < |store| ==> !(r.value[i].userId == userId && r.value[i].isActive))
              && (forall i :: 0 <= i < |store| && store[i].userId != userId ==> r.value[i] == store[i])
  {
    match FindPlan(plans, planName)
    case None => None
    case Some(plan) =>
      Some(Deactivate(store, userId) + [UserSubscription(userId, planName, paymentId, plan.id, plan.dailyLimit, true)])
  }

  /** Creating a subscription keeps "at most one active per user", and the
      new subscription is the one the quota check finds afterwards. */
  lemma CreateKeepsOneActive(store: seq<UserSubscription>, plans: seq<Plan>, userId: nat, planName: string, paymentId: string)
    requires AtMostOneActive(store)
    requires FindPlan(plans, planName).Some?
    ensures var r := CreateUserSubscription(store, plans, userId, planName, paymentId).value;
            && AtMostOneActive(r)
            && ActiveSubscription(r, userId) == Some(r[|store|])
            && r[|store|].limit == FindPlan(plans, planName).value.dailyLimit
  {
    var r := CreateUserSubscription(store, plans, userId, planName, paymentId).value;
    assert forall i :: 0 <= i < |store| && r[i].isActive ==> r[i].userId != userId;
    assert forall i :: 0 <= i < |store| && r[i].isActive ==> store[i].isActive && store[i].userId == r[i].userId;
    assert AtMostOneActive(r);
    ActiveFindsLast(r, |store|, userId);
  }

  /** When the last record is the only active one of the user, the lookup finds it. */
  lemma {:induction false} ActiveFindsLast(r: seq<UserSubscription>, n: nat, userId: nat)
    requires n < |r| && n == |r| - 1 && r[n].userId == userId && r[n].isActive
    requires forall i :: 0 <= i < n ==> !(r[i].userId == userId && r[i].isActive)
    ensures ActiveSubscription(r, userId) == Some(r[n])
    decreases n
  {
    if n > 0 {
      assert r[1..][n - 1] == r[n];
      ActiveFindsLast(r[1..], n - 1, userId);
    }
  }

  /** What `createUserSubscription` leaves behind when its writes can fail
      midway: the store after the writes that happened, and whether the
      call threw. */
  datatype StoreRun = StoreRun(store: seq<UserSubscription>, threw: bool)

  /** `createUserSubscription` with the insert allowed to fail:
      `insertFails` says whether `UserSubscription.create` throws after
      `updateMany` has already retired the user's subscriptions. Nothing
      undoes that first write. */
  function CreateUserSubscriptionRun(store: seq<UserSubscription>, plans: seq<Plan>, userId: nat,
                                     planName: string, paymentId: string, insertFails: bool): (r: StoreRun)
    ensures FindPlan(plans, planName).None? ==> r == StoreRun(store, true)
    ensures FindPlan(plans, planName).Some? && !insertFails ==>
              !r.threw && r.store == CreateUserSubscription(store, plans, userId, planName, paymentId).value
    ensures FindPlan(plans, planName).Some? && insertFails ==>
              && r.threw && |r.store| == |store|
              && ActiveSubscription(r.store, userId).None?
              && (forall i :: 0 <= i < |store| && store[i].userId != userId ==> r.store[i] == store[i])
  {
    match FindPlan(plans, planName)
    case None => StoreRun(store, true)
    case Some(plan) =>
      var retired := Deactivate(store, userId);
      if insertFails then
        assert forall s :: s in retired ==> !(s.userId == userId && s.isActive);
        StoreRun(retired, true)
      else StoreRun(retired + [UserSubscription(userId, planName, paymentId, plan.id, plan.dailyLimit, true)], false)
  }

  /** A subscription call whose insert fails leaves the user with no active
      subscription, so every later chat request is refused as unsubscribed,
      even if the user had a plan before. */
  lemma FailedInsertLosesQuota(store: seq<UserSubscription>, plans: seq<Plan>, userId: nat,
                               planName: string, paymentId: string, count: Fallible<nat>)
    requires FindPlan(plans, planName).Some?
    ensures var r := CreateUserSubscriptionRun(store, plans, userId, planName, paymentId, true);
            CanMakeChatRequest(Got(ActiveSubscription(r.store, userId)), count)
            == LimitCheck(false, Some(NoSubscriptionReason), 0, 0, None, "None")
  {
  }

  /** Whether the catalogue holds a plan of this name, active or not. */
  predicate HasPlanNamed(plans: seq<Plan>, name: string) {
    exists i :: 0 <= i < |plans| && plans[i].planName == name
  }

  /** Index of the first plan of this name, or `|plans|` when there is none. */
  function FirstPlanNamed(plans: seq<Plan>, name: string): (i: nat)
    ensures i <= |plans|
    ensures i < |plans| ==> plans[i].planName == name
    ensures forall j :: 0 <= j < i ==> plans[j].planName != name
  {
    if |plans| == 0 then 0
    else if plans[0].planName == name then 0
    else 1 + FirstPlanNamed(plans[1..], name)
  }

  /** `Subscription.findOneAndUpdate({ planName }, planData, { upsert: true })`
      for one default plan: the existing plan of that name takes the new
      daily limit and keeps its id and its `isActive` (the update does not
      mention it); with none, a new plan is inserted, active by the schema's
      default. */
  function UpsertPlan(plans: seq<Plan>, name: string, dailyLimit: nat): (r: seq<Plan>)
    ensures HasPlanNamed(plans, name) ==>
              && |r| == |plans|
              && (forall i :: 0 <= i < |plans| ==>
                    r[i].id == plans[i].id && r[i].planName == plans[i].planName && r[i].isActive == plans[i].isActive)
              && (exists i :: 0 <= i < |r| && r[i].planName == name && r[i].dailyLimit == dailyLimit)
    ensures HasPlanNamed(plans, name) ==>
              && r[FirstPlanNamed(plans, name)] == plans[FirstPlanNamed(plans, name)].(dailyLimit := dailyLimit)
              && (forall i :: 0 <= i < |plans| && i != FirstPlanNamed(plans, name) ==> r[i] == plans[i])
    ensures !HasPlanNamed(plans, name) ==> r == plans + [Plan(|plans|, name, dailyLimit, true)]
  {
    var i := FirstPlanNamed(plans, name);
    if i < |plans| then plans[i := plans[i].(dailyLimit := dailyLimit)]
    else plans + [Plan(|plans|, name, dailyLimit, true)]
  }

  /** `initializeDefaultPlans`: the upserts, one default after another. */
  function UpsertAll(plans: seq<Plan>, defaults: seq<(string, nat)>): seq<Plan>
    decreases |defaults|
  {
    if |defaults| == 0 then plans
    else UpsertAll(UpsertPlan(plans, defaults[0].0, defaults[0].1), defaults[1..])
  }

  function InitializeDefaultPlans(plans: seq<Plan>): seq<Plan> {
    UpsertAll(plans, DefaultPlans)
  }

  /** The upserts never remove, rename, re-activate or deactivate a plan
      already there; what they add is active and carries a name the
      catalogue did not have. */
  lemma {:induction false} UpsertAllKeeps(plans: seq<Plan>, defaults: seq<(string, nat)>)
    ensures var r := UpsertAll(plans, defaults);
            && |r| >= |plans|
            && (forall i :: 0 <= i < |plans| ==>
                  r[i].id == plans[i].id && r[i].planName == plans[i].planName && r[i].isActive == plans[i].isActive)
            && (forall i :: |plans| <= i < |r| ==> r[i].isActive && !HasPlanNamed(plans, r[i].planName))
    decreases |defaults|
  {
    if |defaults| > 0 {
      var p1 := UpsertPlan(plans, defaults[0].0, defaults[0].1);
      var r := UpsertAll(p1, defaults[1..]);
      UpsertAllKeeps(p1, defaults[1..]);
      assert r == UpsertAll(plans, defaults);
      forall i | |plans| <= i < |r| ensures r[i].isActive && !HasPlanNamed(plans, r[i].planName) {
        if i < |p1| {
          assert !HasPlanNamed(plans, defaults[0].0);
          assert p1[i] == Plan(|plans|, defaults[0].0, defaults[0].1, true);
        } else {
          assert !HasPlanNamed(p1, r[i].planName);
        }
      }
    }
  }

  /** Start-up never revives a retired plan: when every plan of a name is
      inactive, it stays so after `initializeDefaultPlans`, and subscribing
      to it keeps failing with "plan not found". */
  lemma InactivePlanStaysInactive(plans: seq<Plan>, store: seq<UserSubscription>, userId: nat, name: string, paymentId: string)
    requires forall i :: 0 <= i < |plans| && plans[i].planName == name ==> !plans[i].isActive
    requires HasPlanNamed(plans, name)
    ensures FindPlan(InitializeDefaultPlans(plans), name).None?
    ensures CreateUserSubscription(store, InitializeDefaultPlans(plans), userId, name, paymentId).None?
  {
    var r := InitializeDefaultPlans(plans);
    UpsertAllKeeps(plans, DefaultPlans);
    forall p | p in r ensures !(p.planName == name && p.isActive) {
      var i :| 0 <= i < |r| && r[i] == p;
      if i < |plans| {
        assert r[i].planName == plans[i].planName;
      }
    }
  }

  /** The plan catalogue as created at start-up: one active plan per default. */
  function DefaultCatalogue(): (plans: seq<Plan>)
    ensures |plans| == |DefaultPlans|
    ensures forall i :: 0 <= i < |plans| ==>
              plans[i].planName == DefaultPlans[i].0 && plans[i].dailyLimit == DefaultPlans[i].1 && plans[i].isActive
  {
    seq(|DefaultPlans|, i requires 0 <= i < |DefaultPlans| => Plan(i, DefaultPlans[i].0, DefaultPlans[i].1, true))
  }

  /** On an empty database the start-up upserts create exactly the default
      catalogue. */
  lemma FreshCatalogue()
    ensures InitializeDefaultPlans([]) == DefaultCatalogue()
  {
    var p1 := UpsertPlan([], "Basic", 5);
    assert !HasPlanNamed([], "Basic");
    assert p1 == [Plan(0, "Basic", 5, true)];
    assert !HasPlanNamed(p1, "Balanced") by { assert p1[0].planName != "Balanced"; }
    var p2 := UpsertPlan(p1, "Balanced", 50);
    assert !HasPlanNamed(p2, "Advanced") by { assert p2[0].planName != "Advanced" && p2[1].planName != "Advanced"; }
    var p3 := UpsertPlan(p2, "Advanced", 100);
    assert DefaultPlans[1..][1..][1..] == [];
    assert InitializeDefaultPlans([]) == p3;
  }

  /** Subscribing to a default plan grants its advertised daily limit. */
  lemma DefaultPlanLimits(store: seq<UserSubscription>, userId: nat, paymentId: string)
    ensures CreateUserSubscription(store, DefaultCatalogue(), userId, "Basic", paymentId).value[|store|].limit == 5
    ensures CreateUserSubscription(store, DefaultCatalogue(), userId, "Balanced", paymentId).value[|store|].limit == 50
    ensures CreateUserSubscription(store, DefaultCatalogue(), userId, "Advanced", paymentId).value[|store|].limit == 100
    ensures CreateUserSubscription(store, DefaultCatalogue(), userId, "Premium", paymentId).None?
  {
    var plans := DefaultCatalogue();
    assert plans[0].planName == "Basic" && plans[1].planName == "Balanced" && plans[2].planName == "Advanced";
    assert plans[1..][1..] == [plans[2]];
  }
}

=== FILE: recipe.dfy ===
/** The recipe hook: a guard, a reset, then a stream of callbacks from the
    client-side recipe service (the text-only skeleton, step images, the
    final image, progress notes), each merged into the recipe on screen;
    a thrown error is reported without discarding what was merged. */
module RecipeBatch {
  import opened Common

  /** `RecipeInstruction` */
  datatype Instruction = Instruction(step: int, text: string, imageUrl: Option<string>)

  /** `Recipe` */
  datatype Recipe = Recipe(title: string, estimatedTime: string, ingredients: seq<string>,
                           instructions: seq<Instruction>, finalImageUrl: Option<string>)

  /** The three kinds of `onImageGenerated(step, data)` call: `'initial'`
      with the skeleton, `'final'` with the finished-dish image, a step
      number with that step's image. */
  datatype ImageEvent = Initial(skeleton: Recipe) | FinalImage(url: string) | StepImage(step: int, url: string)

  /** One callback from the recipe service: an image event or a progress note. */
  datatype Callback = OnImage(event: ImageEvent) | OnProgress(message: string)

  /** What the user asked for. */
  datatype RecipeInput = RecipeInput(dishName: Option<string>, ingredientImage: Option<ImageFile>)

  /** The hook's state. */
  datatype RecipeState = RecipeState(isLoading: bool, recipe: Option<Recipe>, error: Option<string>, progress: string)

  /** One press of "generate": the final state, the request handed to the
      recipe service (if any), and every progress text shown, in order. */
  datatype RecipeRun = RecipeRun(state: RecipeState, request: Option<RecipeInput>, progressLog: seq<string>)

  const NoInputError := "Please provide a dish name or an image of ingredients."
  const InitialProgress := "Initializing AI Chef..."

  /** The instruction list after an image for step `n` arrived. */
  function WithStepImage(instructions: seq<Instruction>, n: int, url: string): (r: seq<Instruction>)
    ensures |r| == |instructions|
    ensures forall j :: 0 <= j < |r| ==>
              && r[j].step == instructions[j].step
              && r[j].text == instructions[j].text
              && r[j].imageUrl == (if instructions[j].step == n then Some(url) else instructions[j].imageUrl)
  {
    seq(|instructions|, j requires 0 <= j < |instructions| =>
      if instructions[j].step == n then instructions[j].(imageUrl := Some(url)) else instructions[j])
  }

  /** `onImageGenerated`: the skeleton replaces the recipe wholesale; an
      image arriving while there is no recipe is dropped; the final image
      touches only `finalImageUrl`; a step image touches only the image of
      the instructions with that step number. */
  function OnImageGenerated(current: Option<Recipe>, e: ImageEvent): (r: Option<Recipe>)
    ensures e.Initial? ==> r == Some(e.skeleton)
    ensures !e.Initial? ==> (r.Some? <==> current.Some?)
    ensures !e.Initial? && current.Some? ==>
              && r.value.title == current.value.title
              && r.value.estimatedTime == current.value.estimatedTime
              && r.value.ingredients == current.value.ingredients
    ensures e.FinalImage? && current.Some? ==>
              r.value.instructions == current.value.instructions && r.value.finalImageUrl == Some(e.url)
    ensures e.StepImage? && current.Some? ==>
              && r.value.finalImageUrl == current.value.finalImageUrl
              && |r.value.instructions| == |current.value.instructions|
              && forall j :: 0 <= j < |r.value.instructions| ==>
                   var before := current.value.instructions[j];
                   var after := r.value.instructions[j];
                   && after.step == before.step && after.text == before.text
                   && after.imageUrl == (if before.step == e.step then Some(e.url) else before.imageUrl)
  {
    match e
    case Initial(skeleton) => Some(skeleton)
    case FinalImage(url) =>
      if current.None? then None else Some(current.value.(finalImageUrl := Some(url)))
    case StepImage(n, url) =>
      if current.None? then None
      else Some(current.value.(instructions := WithStepImage(current.value.instructions, n, url)))
  }

  /** Two image events aimed at the same slot of the recipe. */
  predicate SameSlot(a: ImageEvent, b: ImageEvent) {
    (a.FinalImage? && b.FinalImage?) || (a.StepImage? && b.StepImage? && a.step == b.step)
  }

  /** Images for different slots can arrive in either order with the same result. */
  lemma MergesCommute(current: Option<Recipe>, a: ImageEvent, b: ImageEvent)
    requires !a.Initial? && !b.Initial? && !SameSlot(a, b)
    ensures OnImageGenerated(OnImageGenerated(current, a), b) == OnImageGenerated(OnImageGenerated(current, b), a)
  {
    if current.Some? && a.StepImage? && b.StepImage? {
      var ins := current.value.instructions;
      var ab := WithStepImage(WithStepImage(ins, a.step, a.url), b.step, b.url);
      var ba := WithStepImage(WithStepImage(ins, b.step, b.url), a.step, a.url);
      assert |ab| == |ba|;
      forall j | 0 <= j < |ab| ensures ab[j] == ba[j] {
        assert ab[j].step == ba[j].step && ab[j].text == ba[j].text && ab[j].imageUrl == ba[j].imageUrl;
      }
      assert ab == ba;
    }
  }

  /** A later image for the same slot overwrites an earlier one. */
  lemma LaterImageWins(current: Option<Recipe>, a: ImageEvent, b: ImageEvent)
    requires SameSlot(a, b)
    ensures OnImageGenerated(OnImageGenerated(current, a), b) == OnImageGenerated(current, b)
  {
    if current.Some? && a.StepImage? {
      var ins := current.value.instructions;
      var twice := WithStepImage(WithStepImage(ins, a.step, a.url), b.step, b.url);
      var once := WithStepImage(ins, b.step, b.url);
      forall j | 0 <= j < |once| ensures twice[j] == once[j] {
        assert twice[j].step == once[j].step && twice[j].text == once[j].text && twice[j].imageUrl == once[j].imageUrl;
      }
      assert twice == once;
    }
  }

  /** The recipe after a sequence of callbacks, the reference reading of the
      hook's state updates (progress notes leave the recipe alone). */
  function Replay(current: Option<Recipe>, cs: seq<Callback>): Option<Recipe>
    decreases |cs|
  {
    if cs == [] then current
    else
      var before := Replay(current, cs[..|cs| - 1]);
      match cs[|cs| - 1]
      case OnImage(e) => OnImageGenerated(before, e)
      case OnProgress(_) => before
  }

  /** Replaying in two stretches is replaying once. */
  lemma {:induction false} ReplayAppend(current: Option<Recipe>, xs: seq<Callback>, ys: seq<Callback>)
    ensures Replay(current, xs + ys) == Replay(Replay(current, xs), ys)
    decreases |ys|
  {
    if ys == [] {
      assert xs + ys == xs;
    } else {
      assert (xs + ys)[..|xs + ys| - 1] == xs + ys[..|ys| - 1];
      ReplayAppend(current, xs, ys[..|ys| - 1]);
    }
  }

  predicate NoSkeleton(cs: seq<Callback>) {
    forall i :: 0 <= i < |cs| ==> !(cs[i].OnImage? && cs[i].event.Initial?)
  }

  /** Before the skeleton arrives every image is dropped: the recipe stays null. */
  lemma {:induction false} ImagesBeforeSkeletonDropped(cs: seq<Callback>)
    requires NoSkeleton(cs)
    ensures Replay(None, cs) == None
    decreases |cs|
  {
    if cs != [] {
      ImagesBeforeSkeletonDropped(cs[..|cs| - 1]);
    }
  }

  /** The url of the latest image for step `n` among the callbacks, if any. */
  function LatestStepUrl(cs: seq<Callback>, n: int): Option<string>
    decreases |cs|
  {
    if cs == [] then None
    else
      var c := cs[|cs| - 1];
      if c.OnImage? && c.event.StepImage? && c.event.step == n then Some(c.event.url)
      else LatestStepUrl(cs[..|cs| - 1], n)
  }

  /** The url of the latest final image among the callbacks, if any. */
  function LatestFinalUrl(cs: seq<Callback>): Option<string>
    decreases |cs|
  {
    if cs == [] then None
    else
      var c := cs[|cs| - 1];
      if c.OnImage? && c.event.FinalImage? then Some(c.event.url) else LatestFinalUrl(cs[..|cs| - 1])
  }

  function Otherwise<T>(first: Option<T>, fallback: Option<T>): Option<T> {
    if first.Some? then first else fallback
  }

  /** `r` is the skeleton with, per slot, the latest image the callbacks
      delivered for it (or the skeleton's own when none did). */
  predicate Overlays(skeleton: Recipe, cs: seq<Callback>, r: Recipe) {
    && r.title == skeleton.title
    && r.estimatedTime == skeleton.estimatedTime
    && r.ingredients == skeleton.ingredients
    && |r.instructions| == |skeleton.instructions|
    && (forall j :: 0 <= j < |r.instructions| ==>
          var s := skeleton.instructions[j];
          r.instructions[j] == s.(imageUrl := Otherwise(LatestStepUrl(cs, s.step), s.imageUrl)))
    && r.finalImageUrl == Otherwise(LatestFinalUrl(cs), skeleton.finalImageUrl)
  }

  /** After the skeleton, the recipe is the skeleton overlaid with the latest
      image for each slot: instruction count, order, steps and texts are
      preserved, and nothing else changes. */
  lemma {:induction false} ReplayOverSkeleton(skeleton: Recipe, cs: seq<Callback>)
    requires NoSkeleton(cs)
    ensures Replay(Some(skeleton), cs).Some?
    ensures Overlays(skeleton, cs, Replay(Some(skeleton), cs).value)
    decreases |cs|
  {
    if cs != [] {
      var front := cs[..|cs| - 1];
      assert NoSkeleton(front) by {
        forall i | 0 <= i < |front| ensures !(front[i].OnImage? && front[i].event.Initial?) {
          assert front[i] == cs[i];
        }
      }
      ReplayOverSkeleton(skeleton, front);
      var before := Replay(Some(skeleton), front).value;
      var after := Replay(Some(skeleton), cs).value;
      var c := cs[|cs| - 1];
      forall j | 0 <= j < |after.instructions|
        ensures after.instructions[j] == skeleton.instructions[j].(imageUrl :=
                  Otherwise(LatestStepUrl(cs, skeleton.instructions[j].step), skeleton.instructions[j].imageUrl))
      {
        var s := skeleton.instructions[j];
        assert before.instructions[j] == s.(imageUrl := Otherwise(LatestStepUrl(front, s.step), s.imageUrl));
      }
    }
  }

  /** The skeleton replaces whatever came before it: the recipe shown is
      decided by the last skeleton and the images after it alone. */
  lemma SkeletonResets(current: Option<Recipe>, earlier: seq<Callback>, skeleton: Recipe, later: seq<Callback>)
    requires NoSkeleton(later)
    ensures Replay(current, earlier + [OnImage(Initial(skeleton))] + later).Some?
    ensures Overlays(skeleton, later, Replay(current, earlier + [OnImage(Initial(skeleton))] + later).value)
  {
    var mid := earlier + [OnImage(Initial(skeleton))];
    ReplayAppend(current, mid, later);
    assert mid[..|mid| - 1] == earlier;
    assert Replay(current, mid) == Some(skeleton);
    ReplayOverSkeleton(skeleton, later);
  }

  /** `!input.dishName && !input.ingredientImage` is false. */
  predicate HasRecipeInput(input: RecipeInput) {
    Truthy(input.dishName) || input.ingredientImage.Some?
  }

  /** The progress messages among the callbacks, in the order they came. */
  function Notes(cs: seq<Callback>): (r: seq<string>)
    ensures |r| <= |cs|
    ensures forall i :: 0 <= i < |cs| && cs[i].OnProgress? ==> cs[i].message in r
    ensures forall m :: m in r ==> exists i :: 0 <= i < |cs| && cs[i] == OnProgress(m)
  {
    if |cs| == 0 then []
    else
      var front := cs[..|cs| - 1];
      assert forall i :: 0 <= i < |front| ==> front[i] == cs[i];
      Notes(front) + (if cs[|cs| - 1].OnProgress? then [cs[|cs| - 1].message] else [])
  }

  /** The notes of a trace are its pieces' notes joined in order, so every
      message keeps its place and its multiplicity. */
  lemma {:induction false} NotesAppend(xs: seq<Callback>, ys: seq<Callback>)
    ensures Notes(xs + ys) == Notes(xs) + Notes(ys)
    decreases |ys|
  {
    if |ys| == 0 {
      assert xs + ys == xs;
    } else {
      var ys' := ys[..|ys| - 1];
      assert (xs + ys)[..|xs + ys| - 1] == xs + ys';
      assert (xs + ys)[|xs + ys| - 1] == ys[|ys| - 1];
      NotesAppend(xs, ys');
      assert ys[..|ys| - 1] == ys';
    }
  }

  /** A progress callback is one note; an image callback is none. */
  lemma NotesOfOne(c: Callback)
    ensures c.OnProgress? ==> Notes([c]) == [c.message]
    ensures c.OnImage? ==> Notes([c]) == []
  {
    assert [c][..0] == [];
  }

  /** `generateRecipe`: without a dish name or an image, only the error is
      set. Otherwise the state is reset, the callbacks `cs` delivered by the
      recipe service are applied in order, and `failure` (the text of the
      error it threw, if it threw) is reported; loading and progress are
      cleared at the end either way. */
  method GenerateRecipe(input: RecipeInput, prior: RecipeState, cs: seq<Callback>, failure: Option<string>)
    returns (run: RecipeRun)
    ensures !HasRecipeInput(input) ==> run == RecipeRun(prior.(error := Some(NoInputError)), None, [])
    ensures HasRecipeInput(input) ==>
              && run.request == Some(input)
              && run.state.recipe == Replay(None, cs)
              && run.state.error == failure
              && !run.state.isLoading
              && run.state.progress == ""
    // progress: the reset text, every note in order, then the empty string
    ensures HasRecipeInput(input) ==> run.progressLog == [InitialProgress] + Notes(cs) + [""]
    ensures HasRecipeInput(input) ==>
              && |run.progressLog| >= 2
              && run.progressLog[0] == InitialProgress
              && run.progressLog[|run.progressLog| - 1] == ""
              && (forall i :: 0 <= i < |cs| && cs[i].OnProgress? ==> cs[i].message in run.progressLog)
  {
    if !HasRecipeInput(input) {
      return RecipeRun(prior.(error := Some(NoInputError)), None, []);
    }
    var recipe: Option<Recipe> := None;
    var progressLog := [InitialProgress];
    var i := 0;
    while i < |cs|
      invariant 0 <= i <= |cs|
      invariant recipe == Replay(None, cs[..i])
      invariant progressLog == [InitialProgress] + Notes(cs[..i])
    {
      assert cs[..i + 1][..i] == cs[..i];
      assert cs[..i + 1][i] == cs[i];
      match cs[i] {
        case OnImage(e) =>
          recipe := OnImageGenerated(recipe, e);
        case OnProgress(message) =>
          progressLog := progressLog + [message];
      }
      i := i + 1;
    }
    assert cs[..|cs|] == cs;
    progressLog := progressLog + [""];
    run := RecipeRun(RecipeState(false, recipe, failure, ""), Some(input), progressLog);
  }
}

=== FILE: renderer.dfy ===
/** The server-side renderer adapter. The image SDK is abstracted: its reply
    (or what it threw) is an input, the request it was sent is an output, and
    the long prompt wording is replaced by a `Prompt` value naming the brief
    and its arguments. What remains is the adapter's own logic: decoding a
    reply into a `data:` URL, rewriting error messages, and choosing the
    input branch. */
module Renderer {
  import opened Common
  import RecipeBatch

  /** A service result: a value or the message of the `Error` it throws. */
  datatype Result<T> = Ok(value: T) | Err(message: string)

  /** Something thrown: an `Error` with its message, or any other value. */
  datatype Fault = ErrorObj(message: string) | NonError

  /** What an SDK call came back with, or what it threw. */
  datatype Sdk<T> = Answered(reply: T) | Threw(fault: Fault)

  /** An uploaded image as the adapter receives it: base64 bytes and mimetype. */
  datatype UploadedImage = UploadedImage(base64: string, mimeType: string)

  /** `{ inlineData: { mimeType, data } }` */
  datatype InlineData = InlineData(mimeType: string, data: string)

  /** One part of a content reply; either field may be absent. */
  datatype Part = Part(inlineData: Option<InlineData>, text: Option<string>)

  /** The brief sent to the model, by kind and arguments (its wording is not modelled). */
  datatype Prompt =
    | TextBackgroundBrief(backgroundPrompt: string)
    | ImageBackgroundBrief
    | AssetFromTextBrief(description: string, assetType: string)
    | AssetFromImageBrief(assetType: string)
    | TextImageBrief(text: string, fontStyle: string, placement: string, colorScheme: string)
    | DiagramBrief(topic: string)
    | StoryBrief(characterDescription: string, pageText: string)
    | DishRecipeBrief(dishName: string)
    | IngredientsRecipeBrief

  /** One part of a request. */
  datatype RequestPart = InlinePart(image: UploadedImage) | TextPart(prompt: Prompt)

  /** The SDK call a service makes: `generateImages` with a prompt or
      `generateContent` with parts. */
  datatype SdkCall = ImagesCall(prompt: Prompt) | ContentCall(parts: seq<RequestPart>)

  /** A service invocation: the SDK call it made, if any, and its result. */
  datatype ServiceRun<T> = ServiceRun(call: Option<SdkCall>, result: Result<T>)

  // Messages of the errors the adapter throws itself (written in short pieces
  // so that the verifier can scan a literal character by character).
  const NoPartsError := "Invalid " + "response from " + "API: No content " + "parts found."
  const RefusedError := "API did " + "not return " + "an image. It " + "may have " + "refused the " + "request."
  const NoProductImageError := "API did " + "not return " + "an image from " + "the product " + "input."
  const NoMascotImageError := "API did " + "not return " + "an image for " + "the mascot " + "description."
  const NoDiagramImageError := "API did " + "not return " + "an image for " + "the diagram " + "topic."
  const NoIllustrationError := "API did " + "not return " + "an illustration" + " for this page."
  const NoStepImageError := "API did " + "not return " + "an image for " + "the recipe step."
  const InvalidAssetInputError := "Invalid input for asset generation."
  const NoRecipeInputError := "Either a dish name or an ingredient image is required."
  const InvalidRecipeError := "The AI failed to generate a valid recipe. Please try again."

  // The replacement messages of the error mapping.
  const ImageSafetyMessage := "The request was blocked due to safety policies. Please try a different image or prompt."
  const DiagramSafetyMessage := "The request was blocked due to safety policies. Please try a different topic."
  const StorySafetyMessage := "The illustration was blocked due to safety policies. Please revise the character or page description."
  const StepSafetyMessage := "An image for this step was blocked for safety reasons."
  const RateLimitMessage := "API rate limit exceeded. The process was stopped."
  const StepFailedMessage := "Failed to generate an image for a recipe step."
  const MockupUnknownMessage := "An unknown error occurred during image generation."
  const AssetUnknownMessage := "An unknown error occurred during asset generation."
  const TextImageUnknownMessage := "An unknown error occurred during text image generation."
  const DiagramUnknownMessage := "An unknown error occurred during diagram generation."
  const StoryUnknownMessage := "An unknown error occurred during illustration generation."

  /** `data:${mimeType};base64,${data}` */
  function DataUrl(mimeType: string, data: string): string {
    "data:" + mimeType + ";base64," + data
  }

  /** The prefix of `s` before the first `c` (all of `s` when there is none). */
  function TakeUntil(s: string, c: char): (r: string)
    ensures |r| <= |s| && r == s[..|r|] && c !in r
    ensures |r| < |s| ==> s[|r|] == c
  {
    if |s| == 0 || s[0] == c then "" else [s[0]] + TakeUntil(s[1..], c)
  }

  lemma {:induction false} TakeUntilStops(a: string, c: char, b: string)
    requires c !in a
    ensures TakeUntil(a + [c] + b, c) == a
    decreases |a|
  {
    if |a| > 0 {
      assert (a + [c] + b)[1..] == a[1..] + [c] + b;
      TakeUntilStops(a[1..], c, b);
    }
  }

  /** Reading a `data:` URL back into its mimetype and payload. */
  function ParseDataUrl(s: string): Option<(string, string)> {
    if !StartsWith(s, "data:") then None
    else
      var rest := s[5..];
      var mime := TakeUntil(rest, ';');
      if StartsWith(rest[|mime|..], ";base64,") then Some((mime, rest[|mime| + 8..])) else None
  }

  /** A `data:` URL built by the adapter can be read back into exactly the
      mimetype and payload it was built from. */
  lemma ParseDataUrlInverts(mimeType: string, data: string)
    requires ';' !in mimeType
    ensures ParseDataUrl(DataUrl(mimeType, data)) == Some((mimeType, data))
  {
    var s := DataUrl(mimeType, data);
    var rest := s[5..];
    assert rest == mimeType + [';'] + ("base64," + data);
    TakeUntilStops(mimeType, ';', "base64," + data);
    assert rest[|mimeType|..] == ";base64," + data;
    assert rest[|mimeType| + 8..] == data;
  }

  /** Index of the first part carrying `inlineData` (`find(part => part.inlineData)`). */
  function FirstImageIndex(parts: seq<Part>): (r: nat)
    ensures r <= |parts|
    ensures r < |parts| ==> parts[r].inlineData.Some?
    ensures forall k :: 0 <= k < r ==> parts[k].inlineData.None?
  {
    if |parts| == 0 || parts[0].inlineData.Some? then 0 else 1 + FirstImageIndex(parts[1..])
  }

  /** Index of the first part with non-empty text (`find(p => p.text)`). */
  function FirstTextIndex(parts: seq<Part>): (r: nat)
    ensures r <= |parts|
    ensures r < |parts| ==> Truthy(parts[r].text)
    ensures forall k :: 0 <= k < r ==> !Truthy(parts[k].text)
  {
    if |parts| == 0 || Truthy(parts[0].text) then 0 else 1 + FirstTextIndex(parts[1..])
  }

  /** The text before the quoted reply in `TextInsteadError`. */
  const TextInsteadPrefix := "API returned " + "text instead " + "of an image: \""

  function TextInsteadError(text: string): string {
    TextInsteadPrefix + text + "\""
  }

  /** Decoding a content reply: missing parts are an error; the first image
      part wins; with no image part the first non-empty text is quoted in the
      error; otherwise the function's own "no image" error. */
  function DecodeParts(reply: Option<seq<Part>>, noImage: string): (r: Result<string>)
    ensures reply.None? ==> r == Err(NoPartsError)
    ensures reply.Some? ==>
              var parts := reply.value;
              && (r.Ok? <==> exists k :: 0 <= k < |parts| && parts[k].inlineData.Some?)
              && (r.Ok? ==> exists k ::
                     && 0 <= k < |parts|
                     && parts[k].inlineData.Some?
                     && (forall j :: 0 <= j < k ==> parts[j].inlineData.None?)
                     && r.value == DataUrl(parts[k].inlineData.value.mimeType, parts[k].inlineData.value.data))
    ensures reply.Some? && r.Err? ==>
              var parts := reply.value;
              if exists k :: 0 <= k < |parts| && Truthy(parts[k].text)
              then exists k ::
                     && 0 <= k < |parts| && Truthy(parts[k].text)
                     && (forall j :: 0 <= j < k ==> !Truthy(parts[j].text))
                     && r.message == TextInsteadError(parts[k].text.value)
              else r.message == noImage
  {
    if reply.None? then Err(NoPartsError)
    else
      var parts := reply.value;
      var i := FirstImageIndex(parts);
      if i < |parts| then
        Ok(DataUrl(parts[i].inlineData.value.mimeType, parts[i].inlineData.value.data))
      else
        var t := FirstTextIndex(parts);
        if t < |parts| then Err(TextInsteadError(parts[t].text.value)) else Err(noImage)
  }

  /** Decoding an images reply: the first image's bytes as a PNG `data:` URL. */
  function DecodeImages(generated: Option<seq<string>>, noImage: string): (r: Result<string>)
    ensures r.Ok? <==> generated.Some? && |generated.value| > 0
    ensures r.Ok? ==> r.value == DataUrl("image/png", generated.value[0])
    ensures r.Err? ==> r.message == noImage
  {
    if generated.None? || |generated.value| == 0 then Err(noImage)
    else Ok("data:image/png;base64," + generated.value[0])
  }

  /** The `catch` of the mockup, brand-asset, text-image, diagram and story
      services: a message mentioning `SAFETY` is replaced, any other `Error`
      keeps its message, anything else becomes the unknown-error message. */
  function MapFault(f: Fault, safety: string, unknown: string): (r: string)
    ensures f.NonError? ==> r == unknown
    ensures f.ErrorObj? && Contains(f.message, "SAFETY") ==> r == safety
    ensures f.ErrorObj? && !Contains(f.message, "SAFETY") ==> r == f.message
  {
    match f
    case NonError => unknown
    case ErrorObj(m) => if Contains(m, "SAFETY") then safety else m
  }

  /** A reply decoded by `DecodeParts` inside a service's `try`, with the
      `catch` applied to what it throws or what the SDK threw. */
  function ContentService(reply: Sdk<Option<seq<Part>>>, noImage: string, safety: string, unknown: string): Result<string> {
    match reply
    case Threw(f) => Err(MapFault(f, safety, unknown))
    case Answered(parts) =>
      match DecodeParts(parts, noImage)
      case Ok(url) => Ok(url)
      case Err(m) => Err(MapFault(ErrorObj(m), safety, unknown))
  }

  /** The same for an images reply decoded by `DecodeImages`. */
  function ImagesService(reply: Sdk<Option<seq<string>>>, noImage: string, safety: string, unknown: string): Result<string> {
    match reply
    case Threw(f) => Err(MapFault(f, safety, unknown))
    case Answered(generated) =>
      match DecodeImages(generated, noImage)
      case Ok(url) => Ok(url)
      case Err(m) => Err(MapFault(ErrorObj(m), safety, unknown))
  }

  /** What a content service promises, read off the reply alone: an `Error`
      thrown by the SDK is replaced by the safety message exactly when it
      mentions `SAFETY` and otherwise keeps its message; any other throw is
      the unknown-error message; the first image part is returned; with no
      image part, the first text part is quoted (or replaced by the safety
      message exactly when it mentions `SAFETY`); with neither, the
      function's own "no image" message. */
  predicate ContentOutcome(reply: Sdk<Option<seq<Part>>>, r: Result<string>, noImage: string, safety: string, unknown: string) {
    match reply
    case Threw(NonError) => r == Err(unknown)
    case Threw(ErrorObj(m)) => r == Err(if Contains(m, "SAFETY") then safety else m)
    case Answered(None) => r == Err(NoPartsError)
    case Answered(Some(parts)) =>
      if exists k :: 0 <= k < |parts| && parts[k].inlineData.Some? then
        exists k :: && 0 <= k < |parts| && parts[k].inlineData.Some?
                    && (forall j :: 0 <= j < k ==> parts[j].inlineData.None?)
                    && r == Ok(DataUrl(parts[k].inlineData.value.mimeType, parts[k].inlineData.value.data))
      else if exists k :: 0 <= k < |parts| && Truthy(parts[k].text) then
        exists k :: && 0 <= k < |parts| && Truthy(parts[k].text)
                    && (forall j :: 0 <= j < k ==> !Truthy(parts[j].text))
                    && r == Err(if Contains(parts[k].text.value, "SAFETY") then safety else TextInsteadError(parts[k].text.value))
      else r == Err(noImage)
  }

  /** The same for an images service: the first image as a PNG `data:` URL,
      the function's own message for an empty reply, and the SDK's throws
      mapped as above. */
  predicate ImagesOutcome(reply: Sdk<Option<seq<string>>>, r: Result<string>, noImage: string, safety: string, unknown: string) {
    match reply
    case Threw(NonError) => r == Err(unknown)
    case Threw(ErrorObj(m)) => r == Err(if Contains(m, "SAFETY") then safety else m)
    case Answered(generated) =>
      if generated.Some? && |generated.value| > 0 then r == Ok(DataUrl("image/png", generated.value[0]))
      else r == Err(noImage)
  }

  /** Quoting a text reply neither hides nor invents a `SAFETY` mention. */
  lemma TextInsteadSafety(text: string)
    ensures Contains(TextInsteadError(text), "SAFETY") <==> Contains(text, "SAFETY")
  {
    if Contains(text, "SAFETY") {
      ContainsWithin(TextInsteadPrefix, text, "\"", "SAFETY");
    }
    if Contains(TextInsteadError(text), "SAFETY") {
      assert 'S' !in "API returned " && 'S' !in "text instead " && 'S' !in "of an image: \"";
      assert TextInsteadError(text) == TextInsteadPrefix + text + ['"'];
      ContainsOnlyWithin(TextInsteadPrefix, text, '"', "SAFETY");
    }
  }

  /** The adapter's own "no parts" message does not trigger the safety rewrite. */
  lemma NoPartsErrorIsPlain()
    ensures !Contains(NoPartsError, "SAFETY")
  {
    assert 'S' !in "Invalid " && 'S' !in "response from " && 'S' !in "API: No content " && 'S' !in "parts found.";
    AbsentFirstChar(NoPartsError, "SAFETY");
  }

  /** A content service keeps its promise for every reply, provided its own
      "no image" message does not itself mention `SAFETY`. */
  lemma ContentServiceOutcome(reply: Sdk<Option<seq<Part>>>, noImage: string, safety: string, unknown: string)
    ensures !Contains(noImage, "SAFETY") ==>
              ContentOutcome(reply, ContentService(reply, noImage, safety, unknown), noImage, safety, unknown)
  {
    if reply == Answered(None) {
      NoPartsErrorIsPlain();
    } else if reply.Answered? {
      var parts := reply.reply.value;
      var i := FirstImageIndex(parts);
      var t := FirstTextIndex(parts);
      if i < |parts| {
        assert ContentService(reply, noImage, safety, unknown)
               == Ok(DataUrl(parts[i].inlineData.value.mimeType, parts[i].inlineData.value.data));
      } else if t < |parts| {
        TextInsteadSafety(parts[t].text.value);
      }
    }
  }

  /** The parts of a mockup request: the product, the background image when
      there is one, then the brief (the text-background brief exactly when
      `backgroundPrompt` is non-empty). */
  function MockupParts(product: UploadedImage, background: Option<UploadedImage>, backgroundPrompt: Option<string>): (r: seq<RequestPart>)
    ensures |r| == if background.Some? then 3 else 2
    ensures r[0] == InlinePart(product)
    ensures background.Some? ==> r[1] == InlinePart(background.value)
    ensures r[|r| - 1].TextPart?
    ensures r[|r| - 1].prompt.TextBackgroundBrief? <==> Truthy(backgroundPrompt)
    ensures Truthy(backgroundPrompt) ==> r[|r| - 1].prompt == TextBackgroundBrief(backgroundPrompt.value)
    ensures !Truthy(backgroundPrompt) ==> r[|r| - 1].prompt == ImageBackgroundBrief
  {
    var images := if background.Some? then [InlinePart(product), InlinePart(background.value)] else [InlinePart(product)];
    var prompt := if Truthy(backgroundPrompt) then TextBackgroundBrief(backgroundPrompt.value) else ImageBackgroundBrief;
    images + [TextPart(prompt)]
  }

  /** `generateProductMockup` */
  function GenerateProductMockup(product: UploadedImage, background: Option<UploadedImage>, backgroundPrompt: Option<string>,
                                 reply: Sdk<Option<seq<Part>>>): (r: ServiceRun<string>)
    ensures r.call == Some(ContentCall(MockupParts(product, background, backgroundPrompt)))
    ensures ContentOutcome(reply, r.result, RefusedError, ImageSafetyMessage, MockupUnknownMessage)
  {
    RefusedErrorIsPlain();
    ContentServiceOutcome(reply, RefusedError, ImageSafetyMessage, MockupUnknownMessage);
    ServiceRun(Some(ContentCall(MockupParts(product, background, backgroundPrompt))),
               ContentService(reply, RefusedError, ImageSafetyMessage, MockupUnknownMessage))
  }

  /** A content reply whose only text mentions `SAFETY` is reported with the
      safety message, not with the quoted text. */
  lemma QuotedSafetyTextIsReplaced(parts: seq<Part>, noImage: string, safety: string, unknown: string)
    requires forall k :: 0 <= k < |parts| ==> parts[k].inlineData.None?
    requires |parts| > 0 && Truthy(parts[0].text) && Contains(parts[0].text.value, "SAFETY")
    ensures ContentService(Answered(Some(parts)), noImage, safety, unknown) == Err(safety)
  {
    assert FirstTextIndex(parts) == 0;
    ContainsWithin(TextInsteadPrefix, parts[0].text.value, "\"", "SAFETY");
  }

  /** An image part anywhere in the reply is returned even when text parts
      precede it; the SDK's own failures are mapped like the adapter's. */
  lemma ImagePartBeatsText(parts: seq<Part>, k: nat, noImage: string, safety: string, unknown: string)
    requires k < |parts| && parts[k].inlineData.Some?
    requires forall j :: 0 <= j < k ==> parts[j].inlineData.None?
    ensures ContentService(Answered(Some(parts)), noImage, safety, unknown)
            == Ok(DataUrl(parts[k].inlineData.value.mimeType, parts[k].inlineData.value.data))
  {
    assert FirstImageIndex(parts) == k;
  }

  /** `generateTextImage` */
  function GenerateTextImage(image: UploadedImage, text: string, fontStyle: string, placement: string, colorScheme: string,
                             reply: Sdk<Option<seq<Part>>>): (r: ServiceRun<string>)
    ensures r.call == Some(ContentCall([InlinePart(image), TextPart(TextImageBrief(text, fontStyle, placement, colorScheme))]))
    ensures ContentOutcome(reply, r.result, RefusedError, ImageSafetyMessage, TextImageUnknownMessage)
  {
    RefusedErrorIsPlain();
    ContentServiceOutcome(reply, RefusedError, ImageSafetyMessage, TextImageUnknownMessage);
    ServiceRun(Some(ContentCall([InlinePart(image), TextPart(TextImageBrief(text, fontStyle, placement, colorScheme))])),
               ContentService(reply, RefusedError, ImageSafetyMessage, TextImageUnknownMessage))
  }

  /** `generateEducationalDiagram` */
  function GenerateEducationalDiagram(topic: string, reply: Sdk<Option<seq<string>>>): (r: ServiceRun<string>)
    ensures r.call == Some(ImagesCall(DiagramBrief(topic)))
    ensures ImagesOutcome(reply, r.result, NoDiagramImageError, DiagramSafetyMessage, DiagramUnknownMessage)
  {
    NoDiagramImageErrorIsPlain();
    ImagesServiceOutcome(reply, NoDiagramImageError, DiagramSafetyMessage, DiagramUnknownMessage);
    ServiceRun(Some(ImagesCall(DiagramBrief(topic))),
               ImagesService(reply, NoDiagramImageError, DiagramSafetyMessage, DiagramUnknownMessage))
  }

  /** `generateStoryIllustration` */
  function GenerateStoryIllustration(characterDescription: string, pageText: string, reply: Sdk<Option<seq<string>>>): (r: ServiceRun<string>)
    ensures r.call == Some(ImagesCall(StoryBrief(characterDescription, pageText)))
    ensures ImagesOutcome(reply, r.result, NoIllustrationError, StorySafetyMessage, StoryUnknownMessage)
  {
    NoIllustrationErrorIsPlain();
    ImagesServiceOutcome(reply, NoIllustrationError, StorySafetyMessage, StoryUnknownMessage);
    ServiceRun(Some(ImagesCall(StoryBrief(characterDescription, pageText))),
               ImagesService(reply, NoIllustrationError, StorySafetyMessage, StoryUnknownMessage))
  }

  /** An images service returns its first image, or fails with a message that
      is either the function's own, the SDK error's, or a replacement. */
  lemma ImagesServiceOutcome(reply: Sdk<Option<seq<string>>>, noImage: string, safety: string, unknown: string)
    ensures var r := ImagesService(reply, noImage, safety, unknown);
            && (r.Ok? <==> reply.Answered? && reply.reply.Some? && |reply.reply.value| > 0)
            && (r.Ok? ==> r.value == DataUrl("image/png", reply.reply.value[0]))
            && (reply.Answered? && r.Err? ==> r.message == safety || r.message == noImage)
            && (reply.Threw? && reply.fault.NonError? ==> r == Err(unknown))
            && (!Contains(noImage, "SAFETY") ==> ImagesOutcome(reply, r, noImage, safety, unknown))
  {
  }

  lemma RefusedErrorIsPlain()
    ensures !Contains(RefusedError, "SAFETY")
  {
    assert 'S' !in "API did " && 'S' !in "not return " && 'S' !in "an image. It "
           && 'S' !in "may have " && 'S' !in "refused the " && 'S' !in "request.";
    AbsentFirstChar(RefusedError, "SAFETY");
  }

  lemma NoMascotImageErrorIsPlain()
    ensures !Contains(NoMascotImageError, "SAFETY")
  {
    assert 'S' !in "API did " && 'S' !in "not return " && 'S' !in "an image for "
           && 'S' !in "the mascot " && 'S' !in "description.";
    AbsentFirstChar(NoMascotImageError, "SAFETY");
  }

  lemma NoProductImageErrorIsPlain()
    ensures !Contains(NoProductImageError, "SAFETY")
  {
    assert 'S' !in "API did " && 'S' !in "not return " && 'S' !in "an image from "
           && 'S' !in "the product " && 'S' !in "input.";
    AbsentFirstChar(NoProductImageError, "SAFETY");
  }

  lemma NoDiagramImageErrorIsPlain()
    ensures !Contains(NoDiagramImageError, "SAFETY")
  {
    assert 'S' !in "API did " && 'S' !in "not return " && 'S' !in "an image for "
           && 'S' !in "the diagram " && 'S' !in "topic.";
    AbsentFirstChar(NoDiagramImageError, "SAFETY");
  }

  lemma NoIllustrationErrorIsPlain()
    ensures !Contains(NoIllustrationError, "SAFETY")
  {
    assert 'S' !in "API did " && 'S' !in "not return " && 'S' !in "an illustration" && 'S' !in " for this page.";
    AbsentFirstChar(NoIllustrationError, "SAFETY");
  }

  /** The `catch` of `generateRecipeImage`: `SAFETY` is checked first, then
      `429` or `quota` in any letter case; everything else, `NonError`
      values included, becomes the generic step failure. */
  function RecipeImageFailure(f: Fault): (r: string)
    ensures r == StepSafetyMessage || r == RateLimitMessage || r == StepFailedMessage
    ensures r == StepSafetyMessage <==> f.ErrorObj? && Contains(f.message, "SAFETY")
    ensures r == RateLimitMessage <==>
              && f.ErrorObj? && !Contains(f.message, "SAFETY")
              && (Contains(f.message, "429") || Contains(ToLower(f.message), "quota"))
  {
    if f.ErrorObj? && Contains(f.message, "SAFETY") then StepSafetyMessage
    else if f.ErrorObj? && (Contains(f.message, "429") || Contains(ToLower(f.message), "quota")) then RateLimitMessage
    else StepFailedMessage
  }

  /** `generateRecipeImage` */
  function GenerateRecipeImage(prompt: Prompt, reply: Sdk<Option<seq<string>>>): (r: ServiceRun<string>)
    ensures r.call == Some(ImagesCall(prompt))
    ensures reply.Threw? ==> r.result == Err(RecipeImageFailure(reply.fault))
    ensures reply.Answered? ==> match DecodeImages(reply.reply, NoStepImageError)
                                case Ok(url) => r.result == Ok(url)
                                case Err(m) => r.result == Err(RecipeImageFailure(ErrorObj(m)))
  {
    var result := match reply
      case Threw(f) => Err(RecipeImageFailure(f))
      case Answered(generated) =>
        match DecodeImages(generated, NoStepImageError)
        case Ok(url) => Ok(url)
        case Err(m) => Err(RecipeImageFailure(ErrorObj(m)));
    ServiceRun(Some(ImagesCall(prompt)), result)
  }

  /** A quota complaint is recognised in whatever letter case it is written. */
  lemma QuotaInAnyCase(message: string, word: string)
    requires ToLower(word) == "quota" && Contains(message, word) && !Contains(message, "SAFETY")
    ensures RecipeImageFailure(ErrorObj(message)) == RateLimitMessage
  {
    ContainsToLower(message, word);
  }

  /** The adapter's own "no image" message for a step mentions neither
      `SAFETY`, nor `429`, nor `quota` in any letter case. */
  lemma StepErrorIsPlain()
    ensures !Contains(NoStepImageError, "SAFETY") && !Contains(NoStepImageError, "429")
    ensures !Contains(ToLower(NoStepImageError), "quota")
  {
    StepErrorLacks('S', "SAFETY");
    StepErrorLacks('4', "429");
    StepErrorLacks('q', "q");
    StepErrorLacks('Q', "Q");
    LowerKeepsAbsence(NoStepImageError, 'q', 'Q');
    AbsentFirstChar(ToLower(NoStepImageError), "quota");
  }

  lemma StepErrorLacks(c: char, sub: string)
    requires c in "S4qQ" && |sub| > 0 && sub[0] == c
    ensures c !in NoStepImageError && !Contains(NoStepImageError, sub)
  {
    assert c !in "API did " && c !in "not return " && c !in "an image for " && c !in "the recipe step.";
    AbsentFirstChar(NoStepImageError, sub);
  }

  /** A lower-case letter absent from `s` in both cases is absent from `s.toLowerCase()`. */
  lemma LowerKeepsAbsence(s: string, lower: char, upper: char)
    requires 'A' <= upper <= 'Z' && lower as int == upper as int + 32
    requires lower !in s && upper !in s
    ensures lower !in ToLower(s)
  {
    var l := ToLower(s);
    forall i | 0 <= i < |l| ensures l[i] != lower {
      assert s[i] in s;
    }
  }

  /** An empty images reply is reported as the generic step failure. */
  lemma EmptyStepReplyIsGeneric(prompt: Prompt, generated: Option<seq<string>>)
    requires generated.None? || generated.value == []
    ensures GenerateRecipeImage(prompt, Answered(generated)).result == Err(StepFailedMessage)
  {
    StepErrorIsPlain();
  }

  /** `generateBrandAsset`: a non-empty description selects the text branch
      (an images call) whether or not an image is present; otherwise an image
      selects the content branch; with neither, the adapter throws before
      any call. */
  function GenerateBrandAsset(image: Option<UploadedImage>, description: Option<string>, assetType: string,
                              imagesReply: Sdk<Option<seq<string>>>, contentReply: Sdk<Option<seq<Part>>>): (r: ServiceRun<string>)
    ensures Truthy(description) ==>
              && r.call == Some(ImagesCall(AssetFromTextBrief(description.value, assetType)))
              && ImagesOutcome(imagesReply, r.result, NoMascotImageError, ImageSafetyMessage, AssetUnknownMessage)
    ensures !Truthy(description) && image.Some? ==>
              && r.call == Some(ContentCall([InlinePart(image.value), TextPart(AssetFromImageBrief(assetType))]))
              && ContentOutcome(contentReply, r.result, NoProductImageError, ImageSafetyMessage, AssetUnknownMessage)
    ensures !Truthy(description) && image.None? ==> r == ServiceRun(None, Err(InvalidAssetInputError))
  {
    NoMascotImageErrorIsPlain();
    NoProductImageErrorIsPlain();
    ImagesServiceOutcome(imagesReply, NoMascotImageError, ImageSafetyMessage, AssetUnknownMessage);
    ContentServiceOutcome(contentReply, NoProductImageError, ImageSafetyMessage, AssetUnknownMessage);
    if Truthy(description) then
      ServiceRun(Some(ImagesCall(AssetFromTextBrief(description.value, assetType))),
                 ImagesService(imagesReply, NoMascotImageError, ImageSafetyMessage, AssetUnknownMessage))
    else if image.Some? then
      ServiceRun(Some(ContentCall([InlinePart(image.value), TextPart(AssetFromImageBrief(assetType))])),
                 ContentService(contentReply, NoProductImageError, ImageSafetyMessage, AssetUnknownMessage))
    else
      assert !Contains(InvalidAssetInputError, "SAFETY") by { AbsentFirstChar(InvalidAssetInputError, "SAFETY"); }
      ServiceRun(None, Err(MapFault(ErrorObj(InvalidAssetInputError), ImageSafetyMessage, AssetUnknownMessage)))
  }

  /** The recipe skeleton the adapter returns: the parsed recipe with every
      instruction image and the final image cleared. */
  function PrepareSkeleton(parsed: RecipeBatch.Recipe): (r: RecipeBatch.Recipe)
    ensures r.title == parsed.title && r.estimatedTime == parsed.estimatedTime && r.ingredients == parsed.ingredients
    ensures |r.instructions| == |parsed.instructions|
    ensures forall j :: 0 <= j < |r.instructions| ==>
              r.instructions[j].step == parsed.instructions[j].step && r.instructions[j].text == parsed.instructions[j].text
    ensures Cleared(r)
  {
    var ins := seq(|parsed.instructions|, j requires 0 <= j < |parsed.instructions| =>
                   parsed.instructions[j].(imageUrl := None));
    parsed.(instructions := ins, finalImageUrl := None)
  }

  /** No image anywhere in a recipe. */
  predicate Cleared(r: RecipeBatch.Recipe) {
    r.finalImageUrl.None? && forall j :: 0 <= j < |r.instructions| ==> r.instructions[j].imageUrl.None?
  }

  /** Preparing is idempotent, and a recipe without images is its own skeleton. */
  lemma PrepareSkeletonFixesCleared(parsed: RecipeBatch.Recipe)
    ensures PrepareSkeleton(PrepareSkeleton(parsed)) == PrepareSkeleton(parsed)
    ensures Cleared(parsed) <==> PrepareSkeleton(parsed) == parsed
  {
    var once := PrepareSkeleton(parsed);
    assert PrepareSkeleton(once).instructions == once.instructions;
    if Cleared(parsed) {
      assert once.instructions == parsed.instructions;
    }
  }

  /** `getRecipeFromAI`: a non-empty dish name wins over the image; with
      neither the adapter throws its own message before any call (outside
      the `try`, so it is not rewritten). A failed call or an unparsable
      reply (`None`) gives the fixed message; otherwise the skeleton. */
  function GetRecipeFromAI(dishName: Option<string>, ingredients: Option<UploadedImage>,
                           reply: Sdk<Option<RecipeBatch.Recipe>>): (r: ServiceRun<RecipeBatch.Recipe>)
    ensures Truthy(dishName) ==> r.call == Some(ContentCall([TextPart(DishRecipeBrief(dishName.value))]))
    ensures !Truthy(dishName) && ingredients.Some? ==>
              r.call == Some(ContentCall([TextPart(IngredientsRecipeBrief), InlinePart(ingredients.value)]))
    ensures !Truthy(dishName) && ingredients.None? ==> r == ServiceRun(None, Err(NoRecipeInputError))
    ensures r.call.Some? ==>
              (r.result.Ok? <==> reply.Answered? && reply.reply.Some?)
              && (r.result.Ok? ==> r.result.value == PrepareSkeleton(reply.reply.value) && Cleared(r.result.value))
              && (r.result.Err? ==> r.result.message == InvalidRecipeError)
  {
    if !Truthy(dishName) && ingredients.None? then ServiceRun(None, Err(NoRecipeInputError))
    else
      var parts := if Truthy(dishName) then [TextPart(DishRecipeBrief(dishName.value))]
                   else [TextPart(IngredientsRecipeBrief), InlinePart(ingredients.value)];
      var result := match reply
        case Answered(Some(parsed)) => Ok(PrepareSkeleton(parsed))
        case _ => Err(InvalidRecipeError);
      ServiceRun(Some(ContentCall(parts)), result)
  }
}

=== FILE: routes.dfy ===
/** The image-generation routes: each checks its request in a fixed order
    (400 before any service call), maps the request onto one adapter
    service, and turns the service's result into the response. */
module Routes {
  import opened Common
  import opened Renderer

  /** A route's response: `200 {success: true, data: {imageDataUrl}}`, or an
      error status with `{success: false, message}`. */
  datatype Response = Succeeded(imageDataUrl: string) | Rejected(status: nat, message: string)

  /** A handled request: the SDK call the service made, if any, and the response. */
  datatype RouteRun = RouteRun(call: Option<SdkCall>, response: Response)

  /** The upload filter of these routes: the mimetype starts with `image/`. */
  function AcceptsUpload(mimetype: string): (accepted: bool)
    ensures accepted <==> OccursAt(mimetype, "image/", 0)
  {
    StartsWith(mimetype, "image/")
  }

  /** The route's `catch`: the service's message, or the route's default
      when the message is empty (`error.message || default`). */
  function Respond(result: Result<string>, fallback: string): (r: Response)
    ensures r.Succeeded? <==> result.Ok?
    ensures result.Ok? ==> r.imageDataUrl == result.value
    ensures result.Err? ==> r.status == 500
    ensures result.Err? && result.message != "" ==> r.message == result.message
    ensures result.Err? && result.message == "" ==> r.message == fallback
  {
    match result
    case Ok(url) => Succeeded(url)
    case Err(m) => Rejected(500, if m != "" then m else fallback)
  }

  /** A failure answered before the service is called. */
  function BadRequest(message: string): RouteRun {
    RouteRun(None, Rejected(400, message))
  }

  function Serve(run: ServiceRun<string>, fallback: string): RouteRun {
    RouteRun(run.call, Respond(run.result, fallback))
  }

  /** `POST /text-image`: the file is checked before the four text fields. */
  function TextImage(file: Option<UploadedImage>, text: Option<string>, fontStyle: Option<string>,
                     placement: Option<string>, colorScheme: Option<string>, reply: Sdk<Option<seq<Part>>>): (r: RouteRun)
    ensures file.None? ==> r == BadRequest("Image file is required")
    ensures file.Some? && !(Truthy(text) && Truthy(fontStyle) && Truthy(placement) && Truthy(colorScheme)) ==>
              r == BadRequest("All text generation parameters are required")
    ensures file.Some? && Truthy(text) && Truthy(fontStyle) && Truthy(placement) && Truthy(colorScheme) ==>
              && r.call == Some(ContentCall([InlinePart(file.value),
                                             TextPart(TextImageBrief(text.value, fontStyle.value, placement.value, colorScheme.value))]))
              && r.response == Respond(GenerateTextImage(file.value, text.value, fontStyle.value, placement.value,
                                                         colorScheme.value, reply).result, "Failed to generate text image")
  {
    if file.None? then BadRequest("Image file is required")
    else if !Truthy(text) || !Truthy(fontStyle) || !Truthy(placement) || !Truthy(colorScheme) then
      BadRequest("All text generation parameters are required")
    else
      Serve(GenerateTextImage(file.value, text.value, fontStyle.value, placement.value, colorScheme.value, reply),
            "Failed to generate text image")
  }

  /** `POST /diagram` */
  function Diagram(topic: Option<string>, reply: Sdk<Option<seq<string>>>): (r: RouteRun)
    ensures !Truthy(topic) ==> r == BadRequest("Topic is required for diagram generation")
    ensures Truthy(topic) ==>
              && r.call == Some(ImagesCall(DiagramBrief(topic.value)))
              && r.response == Respond(GenerateEducationalDiagram(topic.value, reply).result, "Failed to generate diagram")
  {
    if !Truthy(topic) then BadRequest("Topic is required for diagram generation")
    else Serve(GenerateEducationalDiagram(topic.value, reply), "Failed to generate diagram")
  }

  /** `POST /isometry`: the file is checked before the prompt; the brand-asset
      service is called with no description, so its images reply is never
      consulted (`Threw(NonError)` stands in for it). */
  function Isometry(file: Option<UploadedImage>, prompt: Option<string>, reply: Sdk<Option<seq<Part>>>): (r: RouteRun)
    ensures file.None? ==> r == BadRequest("Image file is required for isometry generation")
    ensures file.Some? && !Truthy(prompt) ==> r == BadRequest("Prompt is required for isometry generation")
    ensures file.Some? && Truthy(prompt) ==>
              && r.call == Some(ContentCall([InlinePart(file.value), TextPart(AssetFromImageBrief("isometric illustration: " + prompt.value))]))
              && r.response == Respond(GenerateBrandAsset(file, None, "isometric illustration: " + prompt.value, Threw(NonError), reply).result,
                                       "Failed to generate isometry image")
  {
    if file.None? then BadRequest("Image file is required for isometry generation")
    else if !Truthy(prompt) then BadRequest("Prompt is required for isometry generation")
    else
      Serve(GenerateBrandAsset(file, None, "isometric illustration: " + prompt.value, Threw(NonError), reply),
            "Failed to generate isometry image")
  }

  /** Isometry always takes the image branch of the brand-asset service, with
      the prompt forwarded as the asset type behind a fixed prefix. */
  lemma IsometryUsesImageBranch(file: UploadedImage, prompt: string, reply: Sdk<Option<seq<Part>>>)
    requires prompt != ""
    ensures var r := Isometry(Some(file), Some(prompt), reply);
            && r.call == Some(ContentCall([InlinePart(file), TextPart(AssetFromImageBrief("isometric illustration: " + prompt))]))
            && r.response == Respond(ContentService(reply, NoProductImageError, ImageSafetyMessage, AssetUnknownMessage),
                                     "Failed to generate isometry image")
  {
  }

  /** `POST /outfit-replace`: both images, then the prompt. */
  function OutfitReplace(promptImage: Option<UploadedImage>, outfitImage: Option<UploadedImage>, prompt: Option<string>,
                         reply: Sdk<Option<seq<Part>>>): (r: RouteRun)
    ensures promptImage.None? || outfitImage.None? ==> r == BadRequest("Both prompt image and outfit image are required")
    ensures promptImage.Some? && outfitImage.Some? && !Truthy(prompt) ==> r == BadRequest("Prompt is required for outfit replacement")
    // the outfit goes in as the background image and the prefixed prompt as a
    // text background, so the text-background brief is always the one sent
    ensures promptImage.Some? && outfitImage.Some? && Truthy(prompt) ==>
              && r.call == Some(ContentCall([InlinePart(promptImage.value), InlinePart(outfitImage.value),
                                             TextPart(TextBackgroundBrief("Replace the outfit with: " + prompt.value))]))
              && r.response == Respond(GenerateProductMockup(promptImage.value, outfitImage,
                                                             Some("Replace the outfit with: " + prompt.value), reply).result,
                                       "Failed to replace outfit")
  {
    if promptImage.None? || outfitImage.None? then BadRequest("Both prompt image and outfit image are required")
    else if !Truthy(prompt) then BadRequest("Prompt is required for outfit replacement")
    else
      assert MockupParts(promptImage.value, outfitImage, Some("Replace the outfit with: " + prompt.value))
             == [InlinePart(promptImage.value), InlinePart(outfitImage.value),
                 TextPart(TextBackgroundBrief("Replace the outfit with: " + prompt.value))];
      Serve(GenerateProductMockup(promptImage.value, outfitImage, Some("Replace the outfit with: " + prompt.value), reply),
            "Failed to replace outfit")
  }

  /** `POST /mockup`: only the product image is required; the background
      image and prompt are forwarded as given (absent stays absent). */
  function Mockup(productImage: Option<UploadedImage>, backgroundImage: Option<UploadedImage>, backgroundPrompt: Option<string>,
                  reply: Sdk<Option<seq<Part>>>): (r: RouteRun)
    ensures productImage.None? ==> r == BadRequest("Product image is required")
    ensures productImage.Some? ==>
              && r.call == Some(ContentCall(MockupParts(productImage.value, backgroundImage, backgroundPrompt)))
              && r.response == Respond(ContentService(reply, RefusedError, ImageSafetyMessage, MockupUnknownMessage),
                                       "Failed to generate mockup")
  {
    if productImage.None? then BadRequest("Product image is required")
    else Serve(GenerateProductMockup(productImage.value, backgroundImage, backgroundPrompt, reply), "Failed to generate mockup")
  }

  /** `POST /brand-asset`: a description or a file first, then the asset type. */
  function BrandAsset(description: Option<string>, file: Option<UploadedImage>, assetType: Option<string>,
                      imagesReply: Sdk<Option<seq<string>>>, contentReply: Sdk<Option<seq<Part>>>): (r: RouteRun)
    ensures !Truthy(description) && file.None? ==> r == BadRequest("Either description or image is required")
    ensures (Truthy(description) || file.Some?) && !Truthy(assetType) ==> r == BadRequest("Asset type is required")
    // past the guards the service always reaches the SDK: the route's first
    // check is exactly the service's dispatch condition
    ensures (Truthy(description) || file.Some?) && Truthy(assetType) ==>
              && r.call.Some?
              && (Truthy(description) <==> r.call.value.ImagesCall?)
              && r.call == GenerateBrandAsset(file, description, assetType.value, imagesReply, contentReply).call
              && r.response == Respond(GenerateBrandAsset(file, description, assetType.value, imagesReply, contentReply).result,
                                       "Failed to generate brand asset")
  {
    if !Truthy(description) && file.None? then BadRequest("Either description or image is required")
    else if !Truthy(assetType) then BadRequest("Asset type is required")
    else Serve(GenerateBrandAsset(file, description, assetType.value, imagesReply, contentReply), "Failed to generate brand asset")
  }

  /** `POST /story-illustration` */
  function StoryIllustration(characterDescription: Option<string>, pageText: Option<string>,
                             reply: Sdk<Option<seq<string>>>): (r: RouteRun)
    ensures !(Truthy(characterDescription) && Truthy(pageText)) ==>
              r == BadRequest("Character description and page text are required")
    ensures Truthy(characterDescription) && Truthy(pageText) ==>
              && r.call == Some(ImagesCall(StoryBrief(characterDescription.value, pageText.value)))
              && r.response == Respond(GenerateStoryIllustration(characterDescription.value, pageText.value, reply).result,
                                       "Failed to generate story illustration")
  {
    if !Truthy(characterDescription) || !Truthy(pageText) then
      BadRequest("Character description and page text are required")
    else
      Serve(GenerateStoryIllustration(characterDescription.value, pageText.value, reply), "Failed to generate story illustration")
  }
}

=== FILE: selection.dfy ===
/** The asset-generator screen's own logic: which asset types are selected
    (a toggle list over a fixed catalogue), what the generate button sends,
    and when the button is disabled. */
module AssetSelection {
  import opened Common
  import AssetBatch

  /** `ASSET_TYPES`: the catalogue the user picks from. */
  const Catalogue: seq<string> := [
    "Social Media Post (1:1 Aspect Ratio)",
    "Billboard Ad (Landscape)",
    "Magazine Layout (Portrait)",
    "Website Hero Image",
    "Flyer / Poster"
  ]

  /** The two subject input modes of the screen. */
  datatype InputMode = TextMode | UploadMode

  predicate NoDuplicates(xs: seq<string>) {
    forall a, b :: 0 <= a < b < |xs| ==> xs[a] != xs[b]
  }

  /** `xs.filter(x => x !== t)` */
  function Without(xs: seq<string>, t: string): (r: seq<string>)
    ensures t !in r
    ensures forall x :: x in r <==> x in xs && x != t
    ensures t !in xs ==> r == xs
  {
    if |xs| == 0 then []
    else if xs[0] == t then Without(xs[1..], t)
    else [xs[0]] + Without(xs[1..], t)
  }

  /** Filtering distributes over concatenation, so the survivors keep their
      relative order. */
  lemma {:induction false} WithoutAppend(xs: seq<string>, ys: seq<string>, t: string)
    ensures Without(xs + ys, t) == Without(xs, t) + Without(ys, t)
    decreases |xs|
  {
    if |xs| == 0 {
      assert xs + ys == ys;
    } else {
      assert (xs + ys)[1..] == xs[1..] + ys;
      WithoutAppend(xs[1..], ys, t);
    }
  }

  /** Filtering keeps a duplicate-free list duplicate-free. */
  lemma {:induction false} WithoutNoDuplicates(xs: seq<string>, t: string)
    requires NoDuplicates(xs)
    ensures NoDuplicates(Without(xs, t))
    decreases |xs|
  {
    if |xs| > 0 {
      assert NoDuplicates(xs[1..]) by {
        forall a, b | 0 <= a < b < |xs[1..]| ensures xs[1..][a] != xs[1..][b] {
          assert xs[1..][a] == xs[a + 1] && xs[1..][b] == xs[b + 1];
        }
      }
      WithoutNoDuplicates(xs[1..], t);
      if xs[0] != t {
        var rest := Without(xs[1..], t);
        assert xs[0] !in xs[1..] by {
          forall q | 0 <= q < |xs[1..]| ensures xs[1..][q] != xs[0] {
            assert xs[1..][q] == xs[q + 1];
          }
        }
        assert xs[0] !in rest;
        var r := [xs[0]] + rest;
        forall a, b | 0 <= a < b < |r| ensures r[a] != r[b] {
          if a == 0 {
            assert r[b] == rest[b - 1] && rest[b - 1] in rest;
          } else {
            assert r[a] == rest[a - 1] && r[b] == rest[b - 1];
          }
        }
      }
    }
  }

  /** `handleToggleAssetType`: a selected type is deselected (every
      occurrence), an unselected one is appended at the end. */
  function Toggle(selected: seq<string>, t: string): (r: seq<string>)
    ensures t in selected ==> t !in r && forall x :: x in r <==> x in selected && x != t
    ensures t !in selected ==> |r| == |selected| + 1 && r[..|selected|] == selected && r[|selected|] == t
  {
    if t in selected then Without(selected, t) else selected + [t]
  }

  /** Toggling never introduces a duplicate. */
  lemma ToggleNoDuplicates(selected: seq<string>, t: string)
    requires NoDuplicates(selected)
    ensures NoDuplicates(Toggle(selected, t))
  {
    if t in selected {
      WithoutNoDuplicates(selected, t);
    }
  }

  /** Toggling an unselected type twice gives the original selection back. */
  lemma ToggleTwiceAbsent(selected: seq<string>, t: string)
    requires t !in selected
    ensures Toggle(Toggle(selected, t), t) == selected
  {
    WithoutAppend(selected, [t], t);
    assert Without([t], t) == [];
  }

  /** Toggling a selected type twice moves it to the end, keeping the order
      of the others. */
  lemma ToggleTwicePresent(selected: seq<string>, t: string)
    requires t in selected
    ensures Toggle(Toggle(selected, t), t) == Without(selected, t) + [t]
  {
  }

  /** A selection built from the catalogue stays inside it and duplicate-free. */
  lemma ToggleStaysInCatalogue(selected: seq<string>, t: string)
    requires NoDuplicates(selected) && (forall x :: x in selected ==> x in Catalogue)
    requires t in Catalogue
    ensures NoDuplicates(Toggle(selected, t))
    ensures forall x :: x in Toggle(selected, t) ==> x in Catalogue
  {
    ToggleNoDuplicates(selected, t);
  }

  /** The catalogue itself lists every type once. */
  lemma CatalogueHasNoDuplicates()
    ensures NoDuplicates(Catalogue) && |Catalogue| == 5
  {
  }

  /** `handleGenerate`: the text mode sends only the description, the upload
      mode only the image. */
  function HandleGenerate(mode: InputMode, description: string, image: Option<ImageFile>): (r: AssetBatch.AssetInput)
    ensures mode == TextMode ==> r.image.None? && r.description == Some(description)
    ensures mode == UploadMode ==> r.image == image && r.description.None?
  {
    match mode
    case TextMode => AssetBatch.AssetInput(None, Some(description))
    case UploadMode => AssetBatch.AssetInput(image, None)
  }

  /** `isGenerateDisabled` */
  predicate IsGenerateDisabled(isLoading: bool, selected: seq<string>, mode: InputMode,
                               description: string, image: Option<ImageFile>)
  {
    isLoading || |selected| == 0
    || (mode == TextMode && description == "")
    || (mode == UploadMode && image.None?)
  }

  /** When nothing is loading, the button is disabled exactly when the hook
      would turn the request down at one of its two guards. */
  lemma DisabledIffHookRejects(selected: seq<string>, mode: InputMode, description: string, image: Option<ImageFile>)
    ensures IsGenerateDisabled(false, selected, mode, description, image)
            <==> (selected == [] || !AssetBatch.HasInput(HandleGenerate(mode, description, image)))
  {
  }
}

=== FILE: storybook.dfy ===
/** The storybook hook: a list of pages, page editing, and the batch that
    asks the renderer for one illustration per page that has text, one page
    at a time, stopping at the first failure and keeping what was drawn. */
module Storybook {
  import opened Common

  /** One page of the book (`StoryPage`). */
  datatype Page = Page(id: string, text: string, imageUrl: Option<string>, isLoading: bool)

  /** `generationProgress`: attempts started so far, out of `total`. */
  datatype Progress = Progress(current: nat, total: nat)

  /** The hook's state. */
  datatype Book = Book(pages: seq<Page>, error: Option<string>, isGeneratingAll: bool, progress: Progress)

  /** The payload of one renderer call. */
  datatype Request = Request(characterDescription: string, pageText: string)

  /** The two page lists one attempt hands to `setPages`: with the target
      marked loading, and after the answer was applied. */
  datatype Published = Published(whileLoading: seq<Page>, afterAnswer: seq<Page>)

  /** Everything one press of "generate" leaves behind: the final state, the
      renderer calls made in order, every `progress.current` value published
      in order, and the page lists each attempt published, in order. */
  datatype Run = Run(book: Book, requests: seq<Request>, progressLog: seq<nat>, published: seq<Published>)

  const NoCharacterError := "Please describe your main character first!"
  const NoTextError := "Please write some story text before generating illustrations."

  predicate UniqueIds(ps: seq<Page>) {
    forall a, b :: 0 <= a < b < |ps| ==> ps[a].id != ps[b].id
  }

  predicate NoneLoading(ps: seq<Page>) {
    forall q :: 0 <= q < |ps| ==> !ps[q].isLoading
  }

  predicate AtMostOneLoading(ps: seq<Page>) {
    forall a, b :: 0 <= a < b < |ps| ==> !(ps[a].isLoading && ps[b].isLoading)
  }

  /** Page `t` and no other shows a loading indicator. */
  predicate OnlyLoading(ps: seq<Page>, t: nat) {
    forall q :: 0 <= q < |ps| ==> (ps[q].isLoading <==> q == t)
  }

  predicate HasId(ps: seq<Page>, id: string) {
    exists q :: 0 <= q < |ps| && ps[q].id == id
  }

  /** What holds of the page list whenever no batch is running: page ids are
      distinct (each comes from `crypto.randomUUID()`) and no page shows a
      loading indicator. */
  predicate Settled(ps: seq<Page>) {
    UniqueIds(ps) && NoneLoading(ps)
  }

  /** `addPage`: one blank, non-loading page at the end. */
  function AddPage(ps: seq<Page>, freshId: string): (r: seq<Page>)
    ensures |r| == |ps| + 1 && r[..|ps|] == ps
    ensures r[|ps|].id == freshId && r[|ps|].text == "" && r[|ps|].imageUrl.None? && !r[|ps|].isLoading
  {
    ps + [Page(freshId, "", None, false)]
  }

  /** `deletePage`: drop every page with this id, keep the rest in order. */
  function DeletePage(ps: seq<Page>, id: string): (r: seq<Page>)
    ensures |r| <= |ps|
    ensures forall p :: p in r <==> p in ps && p.id != id
    ensures !HasId(ps, id) ==> r == ps
  {
    if |ps| == 0 then []
    else if ps[0].id == id then DeletePage(ps[1..], id)
    else [ps[0]] + DeletePage(ps[1..], id)
  }

  /** Deleting works page by page and keeps the survivors in their order:
      deleting from two joined lists is joining the two deletions. */
  lemma {:induction false} DeletePageAppend(a: seq<Page>, b: seq<Page>, id: string)
    ensures DeletePage(a + b, id) == DeletePage(a, id) + DeletePage(b, id)
    decreases |a|
  {
    if |a| > 0 {
      assert (a + b)[0] == a[0];
      assert (a + b)[1..] == a[1..] + b;
      DeletePageAppend(a[1..], b, id);
    } else {
      assert a + b == b;
    }
  }

  /** `updatePageText`: only the text of the matching page changes. */
  function UpdatePageText(ps: seq<Page>, id: string, text: string): (r: seq<Page>)
    ensures |r| == |ps|
    ensures forall q :: 0 <= q < |ps| && ps[q].id == id ==> r[q] == ps[q].(text := text)
    ensures forall q :: 0 <= q < |ps| && ps[q].id != id ==> r[q] == ps[q]
  {
    seq(|ps|, q requires 0 <= q < |ps| => if ps[q].id == id then ps[q].(text := text) else ps[q])
  }

  /** Adding a page under a fresh id keeps the page list settled. */
  lemma AddPageKeepsSettled(ps: seq<Page>, freshId: string)
    requires Settled(ps) && !HasId(ps, freshId)
    ensures Settled(AddPage(ps, freshId))
  {
    var r := AddPage(ps, freshId);
    forall a, b | 0 <= a < b < |r| ensures r[a].id != r[b].id {
      if b == |ps| {
        assert r[a] == ps[a];
      }
    }
  }

  /** Deleting the page just added gives back the original list. */
  lemma {:induction false} DeleteUndoesAdd(ps: seq<Page>, freshId: string)
    requires !HasId(ps, freshId)
    ensures DeletePage(AddPage(ps, freshId), freshId) == ps
    decreases |ps|
  {
    if |ps| == 0 {
    } else {
      assert AddPage(ps, freshId)[1..] == AddPage(ps[1..], freshId);
      assert !HasId(ps[1..], freshId) by {
        forall q | 0 <= q < |ps[1..]| ensures ps[1..][q].id != freshId {
          assert ps[1..][q] == ps[q + 1];
        }
      }
      DeleteUndoesAdd(ps[1..], freshId);
      assert [ps[0]] + ps[1..] == ps;
    }
  }

  /** Deleting keeps the page list settled, and removes at most one page of a
      settled list. */
  lemma DeletePageKeepsSettled(ps: seq<Page>, id: string)
    requires Settled(ps)
    ensures Settled(DeletePage(ps, id))
    ensures |DeletePage(ps, id)| >= |ps| - 1
  {
    var r := DeletePage(ps, id);
    DeleteKeepsUnique(ps, id);
    forall q | 0 <= q < |r| ensures !r[q].isLoading {
      var k :| 0 <= k < |ps| && ps[k] == r[q];
    }
  }

  /** The part of `DeletePageKeepsSettled` that needs induction: distinct ids
      stay distinct, and at most one page carries the deleted id. */
  lemma {:induction false} DeleteKeepsUnique(ps: seq<Page>, id: string)
    requires UniqueIds(ps)
    ensures UniqueIds(DeletePage(ps, id))
    ensures |DeletePage(ps, id)| >= |ps| - 1
    decreases |ps|
  {
    if |ps| > 0 {
      var tail := ps[1..];
      UniqueTail(ps);
      DeleteKeepsUnique(tail, id);
      var rest := DeletePage(tail, id);
      if ps[0].id == id {
        assert !HasId(tail, id);
      } else {
        ConsUnique(ps[0], rest);
      }
    }
  }

  /** A page put in front of a list with distinct ids, none of them its own,
      keeps the ids distinct. */
  lemma ConsUnique(p: Page, rest: seq<Page>)
    requires UniqueIds(rest) && forall x :: x in rest ==> x.id != p.id
    ensures UniqueIds([p] + rest)
  {
    var r := [p] + rest;
    forall a, b | 0 <= a < b < |r| ensures r[a].id != r[b].id {
      assert r[b] == rest[b - 1];
      if a > 0 {
        assert r[a] == rest[a - 1];
      }
    }
  }

  /** The pages after the first of a list with distinct ids have distinct ids,
      all different from the first page's. */
  lemma UniqueTail(ps: seq<Page>)
    requires |ps| > 0 && UniqueIds(ps)
    ensures UniqueIds(ps[1..])
    ensures forall p :: p in ps[1..] ==> p.id != ps[0].id
  {
    var tail := ps[1..];
    forall a, b | 0 <= a < b < |tail| ensures tail[a].id != tail[b].id {
      assert tail[a] == ps[a + 1] && tail[b] == ps[b + 1];
    }
    forall p | p in tail ensures p.id != ps[0].id {
      var q :| 0 <= q < |tail| && tail[q] == p;
      assert tail[q] == ps[q + 1];
    }
  }

  /** Editing text keeps the page list settled and never touches ids. */
  lemma UpdatePageTextKeepsSettled(ps: seq<Page>, id: string, text: string)
    requires Settled(ps)
    ensures Settled(UpdatePageText(ps, id, text))
  {
    var r := UpdatePageText(ps, id, text);
    assert forall q :: 0 <= q < |ps| ==> r[q].id == ps[q].id && r[q].isLoading == ps[q].isLoading;
  }

  /** `pages.filter(p => p.text)`, as positions into the page list: the task
      list of a batch is exactly the pages with text, in page order. */
  function TextIndices(ps: seq<Page>): (r: seq<nat>)
    ensures forall j :: 0 <= j < |r| ==> r[j] < |ps| && ps[r[j]].text != ""
    ensures forall j, j' :: 0 <= j < j' < |r| ==> r[j] < r[j']
    ensures forall q :: 0 <= q < |ps| && ps[q].text != "" ==> q in r
  {
    if |ps| == 0 then []
    else
      var prefix := TextIndices(ps[..|ps| - 1]);
      if ps[|ps| - 1].text != "" then prefix + [|ps| - 1] else prefix
  }

  /** The three per-page updates a batch performs. */
  datatype Change = MarkLoading | Illustrate(url: string) | StopLoading

  function ApplyChange(p: Page, c: Change): Page {
    match c
    case MarkLoading => p.(isLoading := true)
    case Illustrate(url) => p.(imageUrl := Some(url), isLoading := false)
    case StopLoading => p.(isLoading := false)
  }

  /** `pages.map(p => p.id === id ? change(p) : p)` */
  function Touch(ps: seq<Page>, id: string, c: Change): (r: seq<Page>)
    ensures |r| == |ps|
    ensures forall q :: 0 <= q < |ps| ==> r[q] == (if ps[q].id == id then ApplyChange(ps[q], c) else ps[q])
  {
    seq(|ps|, q requires 0 <= q < |ps| => if ps[q].id == id then ApplyChange(ps[q], c) else ps[q])
  }

  function FailureMessage(attempt: nat, message: string): string {
    "Failed on page " + NatToDecimal(attempt) + ": " + message
  }

  /** `cur` is `P` with possibly different flags, images and nothing else. */
  predicate SameIds(P: seq<Page>, cur: seq<Page>) {
    |cur| == |P| && forall q :: 0 <= q < |P| ==> cur[q].id == P[q].id && cur[q].text == P[q].text
  }

  /** With distinct ids, touching the id of page `t` touches page `t` only. */
  lemma TouchOnlyTarget(P: seq<Page>, cur: seq<Page>, t: nat, c: Change)
    requires UniqueIds(P) && t < |P| && SameIds(P, cur)
    ensures var r := Touch(cur, P[t].id, c);
            && SameIds(P, r)
            && r[t] == ApplyChange(cur[t], c)
            && forall q :: 0 <= q < |cur| && q != t ==> r[q] == cur[q]
  {
    forall q | 0 <= q < |cur| && q != t ensures cur[q].id != P[t].id {
      if q < t {
        assert P[q].id != P[t].id;
      } else {
        assert P[t].id != P[q].id;
      }
    }
  }

  /** The change an answer makes to the page being illustrated. */
  function Settle(o: Outcome): Change {
    match o
    case Rendered(url) => Illustrate(url)
    case Failed(_) => StopLoading
  }

  /** The page list after the first `i` attempts of a batch over `tasks`:
      successes carry their image, every other page is as it was. */
  ghost predicate PagesAfter(P: seq<Page>, tasks: seq<nat>, render: nat -> Outcome, i: nat, cur: seq<Page>)
  {
    && SameIds(P, cur) && NoneLoading(cur)
    && (forall j :: 0 <= j < |tasks| ==> tasks[j] < |P|)
    && (forall q :: 0 <= q < |P| && P[q].text == "" ==> cur[q] == P[q])
    && (forall j :: 0 <= j < i && j < |tasks| && render(j).Rendered? ==>
          cur[tasks[j]] == P[tasks[j]].(imageUrl := Some(render(j).imageDataUrl)))
    && (forall j :: 0 <= j < |tasks| && (j >= i || render(j).Failed?) ==> cur[tasks[j]] == P[tasks[j]])
  }

  /** Marking the target: only that page shows a loading indicator. */
  lemma MarkStep(P: seq<Page>, cur: seq<Page>, t: nat)
    requires UniqueIds(P) && t < |P| && SameIds(P, cur) && NoneLoading(cur)
    ensures var marked := Touch(cur, P[t].id, MarkLoading);
            && SameIds(P, marked)
            && OnlyLoading(marked, t)
            && AtMostOneLoading(marked)
  {
    TouchOnlyTarget(P, cur, t, MarkLoading);
  }

  /** `tasks` lists distinct pages that have text, as `TextIndices` does. */
  ghost predicate TaskList(P: seq<Page>, tasks: seq<nat>) {
    && (forall j :: 0 <= j < |tasks| ==> tasks[j] < |P| && P[tasks[j]].text != "")
    && (forall j, j' :: 0 <= j < j' < |tasks| ==> tasks[j] != tasks[j'])
  }

  /** Settling the target after its answer re-establishes `PagesAfter`. */
  lemma SettleStep(P: seq<Page>, tasks: seq<nat>, render: nat -> Outcome, i: nat, cur: seq<Page>)
    requires UniqueIds(P) && TaskList(P, tasks) && i < |tasks|
    requires PagesAfter(P, tasks, render, i, cur)
    ensures var marked := Touch(cur, P[tasks[i]].id, MarkLoading);
            PagesAfter(P, tasks, render, i + 1, Touch(marked, P[tasks[i]].id, Settle(render(i))))
  {
    var t := tasks[i];
    TouchOnlyTarget(P, cur, t, MarkLoading);
    var marked := Touch(cur, P[t].id, MarkLoading);
    TouchOnlyTarget(P, marked, t, Settle(render(i)));
    var next := Touch(marked, P[t].id, Settle(render(i)));
    assert next[t] == ApplyChange(ApplyChange(cur[t], MarkLoading), Settle(render(i)));
    assert cur[t] == P[t];
    assert forall q :: 0 <= q < |P| && q != t ==> next[q] == cur[q];
    assert forall j :: 0 <= j < |tasks| && j != i ==> tasks[j] != t;
  }

  /** Attempts follow the task order, one per text page, and stop right after
      the first failure: no later page is ever sent to the renderer. */
  ghost predicate StopsAtFirstFailure(character: string, P: seq<Page>, render: nat -> Outcome, run: Run) {
    var tasks := TextIndices(P); var k := |run.requests|;
    && 1 <= k <= |tasks|
    && (forall j :: 0 <= j < k ==> run.requests[j] == Request(character, P[tasks[j]].text))
    && (forall j :: 0 <= j < k - 1 ==> render(j).Rendered?)
    && (k < |tasks| ==> render(k - 1).Failed?)
  }

  /** The run ends not generating, with `progress = {k, |tasks|}` after having
      published `current = 0, 1, ..., k` in order, and with an error exactly
      when the last attempt failed, naming its position in the task list. */
  ghost predicate ReportsOutcome(P: seq<Page>, render: nat -> Outcome, run: Run) {
    var tasks := TextIndices(P); var k := |run.requests|;
    && 1 <= k
    && (render(k - 1).Rendered? ==> k == |tasks| && run.book.error.None?)
    && (render(k - 1).Failed? ==> run.book.error == Some(FailureMessage(k, render(k - 1).message)))
    && !run.book.isGeneratingAll
    && run.book.progress == Progress(k, |tasks|)
    && |run.progressLog| == k + 1
    && (forall m :: 0 <= m <= k ==> run.progressLog[m] == m)
  }

  /** Every success is on its page, a failed or unattempted page is exactly as
      it was (image included), and pages without text are never touched. */
  ghost predicate KeepsSuccesses(P: seq<Page>, render: nat -> Outcome, run: Run) {
    var tasks := TextIndices(P); var k := |run.requests|;
    && |run.book.pages| == |P|
    && Settled(run.book.pages)
    && (forall q :: 0 <= q < |P| && P[q].text == "" ==> run.book.pages[q] == P[q])
    && (forall j :: 0 <= j < k && j < |tasks| && render(j).Rendered? ==>
          run.book.pages[tasks[j]] == P[tasks[j]].(imageUrl := Some(render(j).imageDataUrl)))
    && (forall j :: 0 <= j < |tasks| && (j >= k || render(j).Failed?) ==>
          run.book.pages[tasks[j]] == P[tasks[j]])
  }

  /** Each attempt published two page lists; while waiting, the target page
      and no other was loading, and no published list ever had two pages
      loading at once. */
  ghost predicate PublishesOneLoading(P: seq<Page>, run: Run) {
    var tasks := TextIndices(P); var k := |run.requests|;
    && |run.published| == k
    && (forall j :: 0 <= j < k && j < |tasks| ==>
          && |run.published[j].whileLoading| == |P|
          && OnlyLoading(run.published[j].whileLoading, tasks[j])
          && AtMostOneLoading(run.published[j].whileLoading)
          && AtMostOneLoading(run.published[j].afterAnswer))
  }

  /** The variables of the batch loop: attempts made, whether the last one
      failed, and everything published so far. */
  datatype Loop = Loop(i: nat, stopped: bool, error: Option<string>, log: seq<nat>,
                       cur: seq<Page>, requests: seq<Request>, published: seq<Published>)

  /** What holds at the top of every iteration of the batch loop over `tasks`. */
  ghost predicate LoopInvariant(character: string, P: seq<Page>, tasks: seq<nat>, render: nat -> Outcome, s: Loop) {
    && TaskList(P, tasks)
    && TraceSoFar(character, P, tasks, render, s)
    && PagesAfter(P, tasks, render, s.i, s.cur)
    && PublishedSoFar(P, tasks, s)
  }

  /** Requests, progress values and the error after `s.i` attempts. */
  ghost predicate TraceSoFar(character: string, P: seq<Page>, tasks: seq<nat>, render: nat -> Outcome, s: Loop)
    requires TaskList(P, tasks)
  {
    && s.i <= |tasks|
    && (s.stopped ==> s.i > 0 && render(s.i - 1).Failed? && RenderedBefore(render, s.i - 1))
    && (!s.stopped ==> RenderedBefore(render, s.i))
    && |s.requests| == s.i
    && (forall j :: 0 <= j < s.i ==> s.requests[j] == Request(character, P[tasks[j]].text))
    && s.error == (if s.stopped then Some(FailureMessage(s.i, render(s.i - 1).message)) else None)
    && |s.log| == s.i + 1 && (forall m :: 0 <= m <= s.i ==> s.log[m] == m)
  }

  /** The page lists published by the first `s.i` attempts. */
  ghost predicate PublishedSoFar(P: seq<Page>, tasks: seq<nat>, s: Loop) {
    && |s.published| == s.i
    && (forall j :: 0 <= j < s.i && j < |tasks| ==>
          && |s.published[j].whileLoading| == |P|
          && OnlyLoading(s.published[j].whileLoading, tasks[j])
          && AtMostOneLoading(s.published[j].whileLoading)
          && AtMostOneLoading(s.published[j].afterAnswer))
  }

  /** One iteration: publish progress, mark the target, call the renderer,
      apply its answer, publish the pages; on failure record the error. */
  function Attempt(character: string, P: seq<Page>, tasks: seq<nat>, render: nat -> Outcome, s: Loop): Loop
    requires s.i < |tasks| && tasks[s.i] < |P|
  {
    var t := tasks[s.i];
    var marked := Touch(s.cur, P[t].id, MarkLoading);
    var after := Touch(marked, P[t].id, Settle(render(s.i)));
    Loop(s.i + 1,
         render(s.i).Failed?,
         if render(s.i).Failed? then Some(FailureMessage(s.i + 1, render(s.i).message)) else None,
         s.log + [s.i + 1],
         after,
         s.requests + [Request(character, P[t].text)],
         s.published + [Published(marked, after)])
  }

  lemma AttemptKeepsTrace(character: string, P: seq<Page>, tasks: seq<nat>, render: nat -> Outcome, s: Loop)
    requires TaskList(P, tasks) && s.i < |tasks| && !s.stopped
    requires TraceSoFar(character, P, tasks, render, s)
    ensures TraceSoFar(character, P, tasks, render, Attempt(character, P, tasks, render, s))
  {
    var n := Attempt(character, P, tasks, render, s);
    assert n.requests == s.requests + [Request(character, P[tasks[s.i]].text)];
    assert forall j :: 0 <= j < s.i ==> n.requests[j] == s.requests[j];
    assert n.log == s.log + [s.i + 1];
    assert forall m :: 0 <= m <= s.i ==> n.log[m] == s.log[m];
    assert n.stopped ==> RenderedBefore(render, n.i - 1);
    assert !n.stopped ==> RenderedBefore(render, n.i);
  }

  lemma AttemptKeepsPublished(P: seq<Page>, tasks: seq<nat>, render: nat -> Outcome, s: Loop)
    requires UniqueIds(P) && TaskList(P, tasks) && s.i < |tasks|
    requires PagesAfter(P, tasks, render, s.i, s.cur) && PublishedSoFar(P, tasks, s)
    ensures PublishedSoFar(P, tasks, Attempt("", P, tasks, render, s))
  {
    var t := tasks[s.i];
    var marked := Touch(s.cur, P[t].id, MarkLoading);
    var after := Touch(marked, P[t].id, Settle(render(s.i)));
    MarkStep(P, s.cur, t);
    SettleStep(P, tasks, render, s.i, s.cur);
    assert NoneLoading(after);
    var published := s.published + [Published(marked, after)];
    assert published == Attempt("", P, tasks, render, s).published;
    assert forall j :: 0 <= j < s.i ==> published[j] == s.published[j];
    assert published[s.i] == Published(marked, after);
  }

  lemma AttemptKeepsInvariant(character: string, P: seq<Page>, tasks: seq<nat>, render: nat -> Outcome, s: Loop)
    requires UniqueIds(P) && s.i < |tasks| && !s.stopped
    requires LoopInvariant(character, P, tasks, render, s)
    ensures LoopInvariant(character, P, tasks, render, Attempt(character, P, tasks, render, s))
  {
    AttemptKeepsTrace(character, P, tasks, render, s);
    SettleStep(P, tasks, render, s.i, s.cur);
    AttemptKeepsPublished(P, tasks, render, s);
    assert Attempt("", P, tasks, render, s).published == Attempt(character, P, tasks, render, s).published;
  }

  /** The state a finished loop leaves: not generating, progress at `{i, total}`. */
  function Finish(total: nat, s: Loop): Run {
    Run(Book(s.cur, s.error, false, Progress(s.i, total)), s.requests, s.log, s.published)
  }

  /** A finished loop has made every attempt of the batch, or stopped right
      after the first failure. */
  lemma FinishEstablishes(character: string, P: seq<Page>, render: nat -> Outcome, s: Loop)
    requires Settled(P) && TextIndices(P) != [] && LoopInvariant(character, P, TextIndices(P), render, s)
    requires s.i == |TextIndices(P)| || s.stopped
    requires s.i > 0
    ensures StopsAtFirstFailure(character, P, render, Finish(|TextIndices(P)|, s))
    ensures ReportsOutcome(P, render, Finish(|TextIndices(P)|, s))
    ensures KeepsSuccesses(P, render, Finish(|TextIndices(P)|, s))
    ensures PublishesOneLoading(P, Finish(|TextIndices(P)|, s))
  {
    FinishStops(character, P, render, s);
    FinishReports(character, P, render, s);
    FinishKeeps(character, P, render, s);
    FinishPublishes(P, s);
  }

  lemma FinishPublishes(P: seq<Page>, s: Loop)
    requires TaskList(P, TextIndices(P)) && PublishedSoFar(P, TextIndices(P), s) && |s.requests| == s.i
    ensures PublishesOneLoading(P, Finish(|TextIndices(P)|, s))
  {
  }

  lemma FinishStops(character: string, P: seq<Page>, render: nat -> Outcome, s: Loop)
    requires TaskList(P, TextIndices(P)) && TraceSoFar(character, P, TextIndices(P), render, s)
    requires s.i == |TextIndices(P)| || s.stopped
    requires s.i > 0
    ensures StopsAtFirstFailure(character, P, render, Finish(|TextIndices(P)|, s))
  {
  }

  lemma FinishReports(character: string, P: seq<Page>, render: nat -> Outcome, s: Loop)
    requires TaskList(P, TextIndices(P)) && TraceSoFar(character, P, TextIndices(P), render, s)
    requires s.i == |TextIndices(P)| || s.stopped
    requires s.i > 0
    ensures ReportsOutcome(P, render, Finish(|TextIndices(P)|, s))
  {
  }

  lemma FinishKeeps(character: string, P: seq<Page>, render: nat -> Outcome, s: Loop)
    requires Settled(P) && TaskList(P, TextIndices(P)) && PagesAfter(P, TextIndices(P), render, s.i, s.cur)
    requires TraceSoFar(character, P, TextIndices(P), render, s)
    ensures KeepsSuccesses(P, render, Finish(|TextIndices(P)|, s))
  {
    assert forall q :: 0 <= q < |P| ==> s.cur[q].id == P[q].id;
  }

  /** The loop of `generateAllIllustrations`, once both guards have passed:
      one attempt per task, in order, until the first failure. */
  method IllustrateTasks(character: string, book: Book, render: nat -> Outcome) returns (run: Run)
    requires Settled(book.pages) && TextIndices(book.pages) != []
    ensures StopsAtFirstFailure(character, book.pages, render, run)
    ensures ReportsOutcome(book.pages, render, run)
    ensures KeepsSuccesses(book.pages, render, run)
    ensures PublishesOneLoading(book.pages, run)
  {
    var P := book.pages;
    var tasks := TextIndices(P);
    var s := Loop(0, false, None, [0], P, [], []);
    while s.i < |tasks| && !s.stopped
      invariant LoopInvariant(character, P, tasks, render, s)
      decreases |tasks| - s.i
    {
      AttemptKeepsInvariant(character, P, tasks, render, s);
      s := Attempt(character, P, tasks, render, s);
    }
    assert s.i > 0;
    FinishEstablishes(character, P, render, s);
    run := Finish(|tasks|, s);
  }

  /** `generateAllIllustrations`: check the character description, then the
      task list, then illustrate the text pages one at a time; the `j`-th
      renderer call is answered by `render(j)`. */
  method GenerateAllIllustrations(character: string, book: Book, render: nat -> Outcome) returns (run: Run)
    requires Settled(book.pages)
    // guards: nothing runs, only the error changes
    ensures character == "" ==> run == Run(book.(error := Some(NoCharacterError)), [], [], [])
    ensures character != "" && TextIndices(book.pages) == [] ==>
              run == Run(book.(error := Some(NoTextError)), [], [], [])
    // a run: the four facts about every batch that got past the guards
    ensures character != "" && TextIndices(book.pages) != [] ==>
              && StopsAtFirstFailure(character, book.pages, render, run)
              && ReportsOutcome(book.pages, render, run)
              && KeepsSuccesses(book.pages, render, run)
              && PublishesOneLoading(book.pages, run)
  {
    if character == "" {
      return Run(book.(error := Some(NoCharacterError)), [], [], []);
    }
    if TextIndices(book.pages) == [] {
      return Run(book.(error := Some(NoTextError)), [], [], []);
    }
    run := IllustrateTasks(character, book, render);
  }
}

=== FILE: upload.dfy ===
/** Upload naming and URL strings: where an uploaded file is stored, which
    files the filter lets through, and how stored paths and bare file names
    in a chat object become absolute URLs. */
module Upload {
  import opened Common

  /** The parts of the request the URL helpers read. */
  datatype Req = Req(protocol: string, host: string)

  /** `${req.protocol}://${req.get('host')}` */
  function BaseUrl(req: Req): string {
    req.protocol + "://" + req.host
  }

  /** The image fields `generateURL` rewrites by default. */
  const DefaultImageFields: seq<string> := ["promptImage", "responseImage", "outfitImage"]

  const UploadsPrefix := "/uploads/"

  /** Index of the last `c` in `s`, if any. */
  function LastIndexOf(s: string, c: char): (r: Option<nat>)
    ensures r.Some? ==> r.value < |s| && s[r.value] == c && forall k :: r.value < k < |s| ==> s[k] != c
    ensures r.None? ==> c !in s
  {
    if |s| == 0 then None
    else if s[|s| - 1] == c then Some(|s| - 1)
    else LastIndexOf(s[..|s| - 1], c)
  }

  /** `s` without its trailing `/` characters. */
  function TrimTrailingSlashes(s: string): (r: string)
    ensures |r| <= |s| && r == s[..|r|]
    ensures |r| > 0 ==> r[|r| - 1] != '/'
    ensures forall k :: |r| <= k < |s| ==> s[k] == '/'
  {
    if |s| > 0 && s[|s| - 1] == '/' then TrimTrailingSlashes(s[..|s| - 1]) else s
  }

  /** The last path segment of `s` (after trailing slashes are dropped). */
  function LastSegment(s: string): (r: string)
    ensures '/' !in r
  {
    var t := TrimTrailingSlashes(s);
    match LastIndexOf(t, '/')
    case None => t
    case Some(i) => t[i + 1..]
  }

  /** `path.extname` (POSIX): from the last `.` of the last segment to its
      end, or empty when the segment has no dot, starts with its only
      leading dot, or is `..`. */
  function Extname(name: string): (r: string)
    ensures r == "" || (r[0] == '.' && '.' !in r[1..] && '/' !in r)
  {
    var part := LastSegment(name);
    match LastIndexOf(part, '.')
    case None => ""
    case Some(i) =>
      if i == 0 || part == ".." then ""
      else
        DotTail(part, i);
        part[i..]
  }

  /** The piece of a slash-free segment from its last dot onwards. */
  lemma DotTail(part: string, i: nat)
    requires '/' !in part && i < |part| && part[i] == '.'
    requires forall k :: i < k < |part| ==> part[k] != '.'
    ensures var r := part[i..]; r[0] == '.' && '.' !in r[1..] && '/' !in r
  {
    var r := part[i..];
    forall k | 0 <= k < |r| ensures r[k] == part[i + k] && r[k] != '/' {
      assert part[i + k] in part;
    }
    forall k | 0 <= k < |r[1..]| ensures r[1..][k] != '.' {
      assert r[1..][k] == part[i + 1 + k];
    }
  }

  /** An extension is the tail of the file name: a name ending in `.` plus a
      dot-free suffix has exactly that extension. */
  lemma ExtnameOfSimpleName(stem: string, ext: string)
    requires stem != "" && stem != "." && '/' !in stem && '/' !in ext && '.' !in ext
    ensures Extname(stem + "." + ext) == "." + ext
  {
    var name := stem + "." + ext;
    assert TrimTrailingSlashes(name) == name by {
      if |ext| > 0 {
        assert name[|name| - 1] == ext[|ext| - 1];
      }
    }
    assert '/' !in name;
    assert LastSegment(name) == name;
    var i := |stem|;
    assert name[i] == '.';
    assert forall k :: i < k < |name| ==> name[k] != '.' by {
      forall k | i < k < |name| ensures name[k] != '.' {
        assert name[k] == ext[k - i - 1];
      }
    }
    LastIndexIs(name, '.', i);
    assert name[i..] == "." + ext;
  }

  lemma {:induction false} LastIndexIs(s: string, c: char, i: nat)
    requires i < |s| && s[i] == c && forall k :: i < k < |s| ==> s[k] != c
    ensures LastIndexOf(s, c) == Some(i)
    decreases |s|
  {
    if i < |s| - 1 {
      LastIndexIs(s[..|s| - 1], c, i);
    }
  }

  /** A non-empty slash-free name is its own last segment, also behind a
      directory. */
  lemma SimpleSegment(f: string)
    requires f != "" && '/' !in f
    ensures LastSegment(f) == f
  {
    assert f[|f| - 1] in f;
    assert TrimTrailingSlashes(f) == f;
  }

  lemma LastSegmentOfPath(dir: string, f: string)
    requires f != "" && '/' !in f
    ensures LastSegment(dir + "/" + f) == f
  {
    assert f[|f| - 1] in f;
    var s := dir + "/" + f;
    assert s[|s| - 1] == f[|f| - 1];
    assert TrimTrailingSlashes(s) == s;
    forall k | |dir| < k < |s| ensures s[k] != '/' {
      assert s[k] == f[k - |dir| - 1];
    }
    LastIndexIs(s, '/', |dir|);
    assert s[|dir| + 1..] == f;
  }

  /** `/jpeg|jpg|png|gif|webp/.test(s)`: one of the words occurs anywhere in `s`. */
  predicate MatchesAllowed(s: string) {
    Contains(s, "jpeg") || Contains(s, "jpg") || Contains(s, "png") || Contains(s, "gif") || Contains(s, "webp")
  }

  /** `fileFilter`: both the lower-cased extension of the original name and
      the mimetype (as sent) must mention an allowed word, anywhere. */
  predicate FileFilter(originalname: string, mimetype: string) {
    MatchesAllowed(ToLower(Extname(originalname))) && MatchesAllowed(mimetype)
  }

  /** Only a file name with an extension can pass. */
  lemma AcceptedHasExtension(originalname: string, mimetype: string)
    ensures FileFilter(originalname, mimetype) ==> Extname(originalname) != ""
  {
    assert ToLower("") == "";
    assert !MatchesAllowed("");
  }

  /** The filter is unanchored: any extension and any mimetype that merely
      contain an allowed word pass, e.g. `.apng` with `x-png-like`, or an
      upper-case `.PNG` extension. */
  lemma FilterIsUnanchored(stem: string, before: string, after: string, mimeBefore: string, mimeAfter: string)
    requires stem != "" && stem != "." && '/' !in stem
    requires '/' !in before + after && '.' !in before + after
    ensures FileFilter(stem + "." + (before + "png" + after), mimeBefore + "png" + mimeAfter)
  {
    var tail := before + "png" + after;
    var mime := mimeBefore + "png" + mimeAfter;
    ExtnameOfSimpleName(stem, tail);
    PngExtensionMatches(before, after);
    assert MatchesAllowed(ToLower(Extname(stem + "." + tail)));
    ContainsWithin(mimeBefore, "png", mimeAfter, "png");
    assert MatchesAllowed(mime);
  }

  lemma PngExtensionMatches(before: string, after: string)
    ensures MatchesAllowed(ToLower("." + (before + "png" + after)))
  {
    var ext := "." + (before + "png" + after);
    assert ext == "." + before + "png" + after;
    ContainsWithin("." + before, "png", after, "png");
    ContainsToLower(ext, "png");
    assert ToLower("png") == "png";
  }

  /** The mimetype is matched as sent: an upper-case mimetype whose only
      image word is upper-case is refused, whatever the file name. */
  lemma MimetypeIsCaseSensitive(originalname: string)
    ensures !FileFilter(originalname, "IMAGE/PNG")
  {
    var m := "IMAGE/PNG";
    assert 'j' !in m && 'p' !in m && 'g' !in m && 'w' !in m;
    AbsentFirstChar(m, "jpeg");
    AbsentFirstChar(m, "jpg");
    AbsentFirstChar(m, "png");
    AbsentFirstChar(m, "gif");
    AbsentFirstChar(m, "webp");
    assert !MatchesAllowed(m);
  }

  /** The name multer stores the file under: `${field}-${suffix}${ext}`,
      where `suffix` stands for the time-and-random part. */
  function StoredFilename(field: string, suffix: string, originalname: string): string {
    field + "-" + suffix + Extname(originalname)
  }

  /** The path recorded in `req.uploadedFiles[field]`. */
  function StoredPath(field: string, suffix: string, originalname: string): (p: string)
    ensures StartsWith(p, UploadsPrefix)
  {
    UploadsPrefix + field + "/" + StoredFilename(field, suffix, originalname)
  }

  /** The stored file keeps the original name's extension: the path's last
      segment is the generated name, and `path.extname` of the stored path
      is `path.extname` of the uploaded name, as long as the field name and
      the generated suffix carry no `/` or `.` of their own. */
  lemma StoredPathKeepsExtension(field: string, suffix: string, originalname: string)
    requires field != "" && '/' !in field && '.' !in field
    requires '/' !in suffix && '.' !in suffix
    ensures LastSegment(StoredPath(field, suffix, originalname)) == StoredFilename(field, suffix, originalname)
    ensures Extname(StoredPath(field, suffix, originalname)) == Extname(originalname)
  {
    var f := StoredFilename(field, suffix, originalname);
    StoredFilenameIsSimple(field, suffix, originalname);
    LastSegmentOfPath(UploadsPrefix + field, f);
    assert StoredPath(field, suffix, originalname) == (UploadsPrefix + field) + "/" + f;
  }

  /** The generated name is a slash-free name whose extension is the
      original one. */
  lemma StoredFilenameIsSimple(field: string, suffix: string, originalname: string)
    requires field != "" && '/' !in field && '.' !in field
    requires '/' !in suffix && '.' !in suffix
    ensures var f := StoredFilename(field, suffix, originalname);
            f != "" && '/' !in f && LastSegment(f) == f && Extname(f) == Extname(originalname)
  {
    var stem := field + "-" + suffix;
    assert '/' !in stem && '.' !in stem && stem[|field|] == '-';
    assert StoredFilename(field, suffix, originalname) == stem + Extname(originalname);
    StemAndExtension(stem, Extname(originalname));
  }

  /** A dot-free stem followed by an extension has that extension. */
  lemma StemAndExtension(stem: string, e: string)
    requires stem != "" && stem != "." && '/' !in stem && '.' !in stem
    requires e == "" || (e[0] == '.' && '.' !in e[1..] && '/' !in e)
    ensures stem + e != "" && '/' !in stem + e && LastSegment(stem + e) == stem + e && Extname(stem + e) == e
  {
    assert '/' !in stem + e;
    SimpleSegment(stem + e);
    if e == "" {
      assert stem + e == stem;
      assert LastIndexOf(stem, '.') == None;
    } else {
      assert stem + e == stem + "." + e[1..];
      ExtnameOfSimpleName(stem, e[1..]);
    }
  }

  /** `getFileUrl`: no URL for a missing or empty path; otherwise the base
      URL and the path, joined with nothing in between. */
  function GetFileUrl(req: Req, filePath: Option<string>): (r: Option<string>)
    ensures r.None? <==> !Truthy(filePath)
    ensures r.Some? ==> StartsWith(r.value, BaseUrl(req)) && r.value[|BaseUrl(req)|..] == filePath.value
  {
    if !Truthy(filePath) then None
    else
      var url := BaseUrl(req) + filePath.value;
      assert url[..|BaseUrl(req)|] == BaseUrl(req);
      Some(url)
  }

  /** One field's value after `generateURL`: a stored path gets the base URL
      in front; a bare file name gets the base URL and `/uploads/<field>/`. */
  function AbsoluteUrl(base: string, field: string, value: string): string {
    if StartsWith(value, UploadsPrefix) then base + value else base + UploadsPrefix + field + "/" + value
  }

  /** `result[field] && typeof result[field] === 'string'` */
  predicate HoldsPath(o: JsObject, field: string) {
    field in o && o[field].JsString? && o[field].str != ""
  }

  /** The loop body of `generateURL` for one field. */
  function RewriteField(o: JsObject, base: string, field: string): JsObject {
    if HoldsPath(o, field) then o[field := JsString(AbsoluteUrl(base, field, o[field].str))] else o
  }

  /** `imageFields.forEach(...)` over a copy of the object. */
  function RewriteFields(o: JsObject, base: string, fields: seq<string>): JsObject
    decreases |fields|
  {
    if fields == [] then o else RewriteFields(RewriteField(o, base, fields[0]), base, fields[1..])
  }

  predicate NoDuplicates(fields: seq<string>) {
    forall i, j :: 0 <= i < j < |fields| ==> fields[i] != fields[j]
  }

  /** With distinct field names, the rewrite changes exactly the listed
      fields that hold non-empty strings, each once, and keeps every other
      key and value. */
  lemma {:induction false} RewriteFieldsSpec(o: JsObject, base: string, fields: seq<string>)
    requires NoDuplicates(fields)
    ensures var r := RewriteFields(o, base, fields);
            && r.Keys == o.Keys
            && forall k :: k in o ==>
                 r[k] == if k in fields && HoldsPath(o, k) then JsString(AbsoluteUrl(base, k, o[k].str)) else o[k]
    decreases |fields|
  {
    if fields != [] {
      var f := fields[0];
      var o1 := RewriteField(o, base, f);
      assert NoDuplicates(fields[1..]) by {
        forall i, j | 0 <= i < j < |fields[1..]| ensures fields[1..][i] != fields[1..][j] {
          assert fields[1..][i] == fields[i + 1] && fields[1..][j] == fields[j + 1];
        }
      }
      assert f !in fields[1..] by {
        forall i | 0 <= i < |fields[1..]| ensures fields[1..][i] != f {
          assert fields[1..][i] == fields[i + 1];
        }
      }
      RewriteFieldsSpec(o1, base, fields[1..]);
      forall k | k in o && k != f ensures HoldsPath(o1, k) == HoldsPath(o, k) && o1[k] == o[k] { }
      assert forall k :: k in fields <==> k == f || k in fields[1..];
    }
  }

  /** `generateURL`: with no object or no request, the input comes back as
      it is; otherwise a rewritten copy. */
  function GenerateURL(req: Option<Req>, obj: Option<JsObject>, fields: seq<string>): (r: Option<JsObject>)
    ensures req.None? || obj.None? ==> r == obj
    ensures req.Some? && obj.Some? && NoDuplicates(fields) ==>
              && r.Some? && r.value.Keys == obj.value.Keys
              && forall k :: k in obj.value ==>
                   r.value[k] == if k in fields && HoldsPath(obj.value, k)
                                 then JsString(AbsoluteUrl(BaseUrl(req.value), k, obj.value[k].str))
                                 else obj.value[k]
  {
    if req.None? || obj.None? then obj
    else
      var base := BaseUrl(req.value);
      if NoDuplicates(fields) then
        RewriteFieldsSpec(obj.value, base, fields);
        Some(RewriteFields(obj.value, base, fields))
      else Some(RewriteFields(obj.value, base, fields))
  }

  /** The value under `field` of an object that may be missing. */
  function FieldOf(o: Option<JsObject>, field: string): Option<JsValue> {
    if o.Some? && field in o.value then Some(o.value[field]) else None
  }

  /** The default field list has no duplicates, so the characterisation of
      `GenerateURL` applies to every call without an explicit list. */
  lemma DefaultFieldsDistinct()
    ensures NoDuplicates(DefaultImageFields)
  {
  }

  /** A path recorded by the upload storage always takes the `/uploads/`
      branch, so its URL is exactly what `getFileUrl` builds from it. */
  lemma StoredPathUrl(req: Req, obj: JsObject, field: string, suffix: string, originalname: string)
    requires field in DefaultImageFields
    requires field in obj && obj[field] == JsString(StoredPath(field, suffix, originalname))
    ensures var p := StoredPath(field, suffix, originalname);
            && FieldOf(GenerateURL(Some(req), Some(obj), DefaultImageFields), field) == Some(JsString(BaseUrl(req) + p))
            && GetFileUrl(req, Some(p)) == Some(BaseUrl(req) + p)
  {
    DefaultFieldsDistinct();
    var p := StoredPath(field, suffix, originalname);
    assert HoldsPath(obj, field);
    assert AbsoluteUrl(BaseUrl(req), field, p) == BaseUrl(req) + p;
  }

  /** A value that is a bare file name gets the field's upload directory. */
  lemma BareNameUrl(req: Req, obj: JsObject, field: string, name: string)
    requires field in DefaultImageFields && field in obj && obj[field] == JsString(name)
    requires name != "" && !StartsWith(name, UploadsPrefix)
    ensures FieldOf(GenerateURL(Some(req), Some(obj), DefaultImageFields), field)
            == Some(JsString(BaseUrl(req) + "/uploads/" + field + "/" + name))
  {
    DefaultFieldsDistinct();
  }

  /** `generateURLs`: a non-array (`None`) or a missing request gives the
      input back; otherwise every element is rewritten, in order. */
  function GenerateURLs(req: Option<Req>, items: Option<seq<Option<JsObject>>>, fields: seq<string>): (r: Option<seq<Option<JsObject>>>)
    ensures items.None? || req.None? ==> r == items
    ensures items.Some? && req.Some? ==>
              && r.Some? && |r.value| == |items.value|
              && forall i :: 0 <= i < |items.value| ==> r.value[i] == GenerateURL(req, items.value[i], fields)
  {
    if items.None? || req.None? then items
    else Some(seq(|items.value|, i requires 0 <= i < |items.value| => GenerateURL(req, items.value[i], fields)))
  }
}
